=== FILE: README.md ===
# A verified model of a small Redis server core

This project models the core of a Python Redis clone in Dafny. The server
speaks RESP2, the Redis serialisation protocol. Its core has these parts:

- **RESP codec.** A recursive parser turns the bytes of a request into
  Python values: str, int, list, None and RESPError. An encoder turns reply
  values back into bytes.
- **Keyspace.** A `DataBase` maps keys to `RedisValue`s. Each value carries a
  type name (`string`, `list` or `stream`), a payload and an optional expiry.
  Expired keys are deleted lazily, when a read finds them.
- **Type helpers.** `StringOps`, `ListOps` and `StreamOps` implement GET/SET,
  LPUSH/RPUSH/LPOP/LRANGE/LLEN and XADD/XRANGE/XREAD over that keyspace.
- **Streams.** A `Stream` is an append-only log of entries whose `StreamID`s
  (`<milliseconds>-<sequence>`) must strictly increase. A generator fills in
  `*` and `<ms>-*` IDs.
- **Blocking.** `BlockingState` keeps the clients waiting on keys in a
  FIFO queue per key, plus a list of all waiters.
- **Dispatch.** A `CommandRegistry` finds commands by upper-cased name and
  checks their arity. The older `command_handlers` table does the same for
  PING and ECHO. The `TYPE` command is modelled in full. `XREAD` is
  modelled with the read its helper evidently intends; as written, its
  `execute` raises AttributeError as soon as a listed key holds a
  non-empty stream (see Findings).

How each file is modelled:

- **Pure code** (parser, encoder, stream IDs, entry formatting): datatypes
  and functions.
- **Objects that update their own fields** (`DataBase`, `Stream`, `Lists`,
  `BlockingState`, `CommandRegistry`, the helpers and commands): Dafny
  classes. Their methods are proved against specification functions on the
  old state.
- **Exceptions the source lets escape**: the `Wrappers.Exception` outcome,
  never a precondition.
- **The clock**: a parameter. Instants are integers for expiry and blocking
  timeouts; stream-ID generation takes whole seconds.

Modules, one per file:

- `Wrappers`
- `Text`: Python `int()`, `str()`, `split`, `upper`/`lower`, `index(b"\r\n")` and slicing
- `RespTypes`, `RespParser`, `RespEncoder`, `RespLaws` (the codec's laws)
- `StreamIds`, `StreamEntries`, `Streams`
- `Db`, `StringOps`, `ListOps`, `StreamOps`, `Lists`
- `Blocking`
- `Commands`, `CommandHandlers`
- `TypeCommand`, `XRead`

## Model

| member | source | states |
|---|---|---|
| RespParser.ParseSimpleString | app/resp_parser.py:74-101 | Fails exactly when the input is empty, does not start with `+`, or has no CRLF. Otherwise returns the text up to the first CRLF as a string, and the rest after that CRLF. |
| RespParser.ParseError | app/resp_parser.py:104-133 | Same framing for `-`. The text becomes a RESPError message. |
| RespParser.ParseInteger | app/resp_parser.py:136-168 | Fails exactly when the input is empty, has another type byte, has no CRLF, or its line is not a decimal integer. Otherwise returns the line's value and the rest after the CRLF. |
| RespParser.ParseBulkString | app/resp_parser.py:4-71 | Rejects empty input, another type byte and a missing CRLF. A success is a string or None and consumes at least one byte. |
| RespParser.ParseResp | app/resp_parser.py:244-282 | Empty input gives the empty-data error. An unknown type byte gives the unknown-type error. A success consumes input, leaves a suffix, and never yields a SimpleString or NullArray. |
| RespParser.ParsedArray | app/resp_parser.py:171-241 | Nesting past `max_depth` is an error. A success is a list or None and consumes input. |
| RespParser.ParseElements | app/resp_parser.py:226-241 | Reading `count` elements yields exactly `count` decoded values. The remainder is a suffix, and a proper one when `count > 0`. |
| RespParser.ParseArray | app/resp_parser.py:171-241 | The imperative array parser (header, then the element loop) returns exactly what `ParsedArray` specifies. |
| RespParser.ReadElements | app/resp_parser.py:226-241 | The element loop returns what `ParseElements` specifies for `count`. A negative count reads nothing. |
| RespParser.ElementsStop | app/resp_parser.py:229-238 | Running out of input before an element ends the read with the incomplete-array error. So does an element that fails to parse, with that element's error. |
| RespLaws.NullBulkString | app/resp_parser.py:35-37 | `$-1\r\n` reads as None and leaves the following bytes untouched. |
| RespLaws.EmptyBulkString | app/resp_parser.py:39-49 | `$0\r\n` is the empty string exactly when a second CRLF follows. Otherwise it is the missing-terminator error. |
| RespLaws.PayloadBulkString | app/resp_parser.py:51-71 | `$n` with n >= 1 takes exactly n bytes. Too few bytes is the truncation error. A wrong terminator is the missing-terminator error. |
| RespLaws.NegativeBulkLength | app/resp_parser.py:51-71 | A length below -1 is not rejected: `$-2\r\n` reads as the empty string. |
| RespLaws.NullAndEmptyArray | app/resp_parser.py:216-224 | `*-1\r\n` reads as None and `*0\r\n` as the empty list. |
| RespLaws.ArrayRunsOut | app/resp_parser.py:226-236 | A count header with nothing after it is the incomplete-array error. |
| RespLaws.ArrayHeader | app/resp_parser.py:197-241 | After a `*n` header with n >= 1, the array is the n elements read from the bytes after the header, one level deeper. |
| RespLaws.SingletonArray | app/resp_parser.py:226-241 | `*1\r\n` followed by any input is a one-element list of whatever that input parses to, one level deeper. |
| RespLaws.NestingLimit | app/resp_parser.py:183-188 | k nested one-element arrays parse exactly when the depth reached stays within `max_depth`. Otherwise the result is the too-deep error. |
| RespLaws.DefaultNestingLimit | app/resp_parser.py:171-188 | With the default limit of 10, eleven nested arrays parse and twelve are too deep. |
| RespLaws.SimpleRoundTrip | app/resp_encoder.py:5-7 | A SimpleString without CRLF, once encoded, parses back to its text. |
| RespLaws.ErrorRoundTrip | app/resp_encoder.py:10-12 | An encoded error parses back to `ERR ` followed by its message. |
| RespLaws.IntegerRoundTrip | app/resp_encoder.py:15-17 | Every encoded integer parses back to itself, negative ones included. |
| RespLaws.BulkRoundTrip | app/resp_encoder.py:20-24 | Every encoded string parses back to itself, whatever bytes it contains. |
| RespLaws.ArrayRoundTrip | app/resp_encoder.py:27-35 | An encoded list of encodable values parses back to the list of their re-parsed forms. |
| RespLaws.ItemsRoundTrip | app/resp_encoder.py:31-35 | The concatenated encodings of the items read back as those items, in order, with the rest left over. |
| RespLaws.RoundTrip | app/resp_encoder.py:38-53 | Parsing the encoding of any encodable value returns its re-parsed form and leaves any following bytes untouched. |
| RespLaws.DecodedRoundTrip | app/resp_encoder.py:38-53 | `encode_resp` as written succeeds on every value the parser can produce, and parsing its output gives the value back in its re-parsed form: an error comes back with `ERR ` in front of its message. |
| RespLaws.SimpleStringNotEncoded | app/resp_encoder.py:40-41 | As written, `encode_resp(SimpleString("OK"))` raises AttributeError. The corrected encoder gives `+OK\r\n`. |
| RespLaws.NullArrayNotEncoded | app/resp_encoder.py:50-53 | As written, the NullArray marker falls through to ValueError. The corrected encoder gives the null array `*-1\r\n`. |
| RespEncoder.EncodeSimpleString | app/resp_encoder.py:5-7 | `+text\r\n`. Its inverse law is `RespLaws.SimpleRoundTrip`: a text without CRLF parses back. |
| RespEncoder.EncodeError | app/resp_encoder.py:10-12 | `-ERR message\r\n`. `RespLaws.ErrorRoundTrip` states what it parses back to. |
| RespEncoder.EncodeInteger | app/resp_encoder.py:15-17 | `:n\r\n`. Its inverse law is `RespLaws.IntegerRoundTrip`, for every integer. |
| RespEncoder.EncodeBulkString | app/resp_encoder.py:20-24 | `$len\r\ntext\r\n`, or `$-1\r\n` for None. Its inverse laws are `RespLaws.BulkRoundTrip` and `RespLaws.NullBulkString`. |
| RespEncoder.Encode | app/resp_encoder.py:38-53 | Every value's wire form starts with its RESP type byte and ends with CRLF. `RespLaws.RoundTrip` is its inverse law. |
| RespEncoder.EncodeArray | app/resp_encoder.py:27-35 | An array's wire form starts with `*` and ends with CRLF. |
| RespEncoder.EncodeItems | app/resp_encoder.py:31-35 | A non-empty item list encodes to bytes that end with CRLF. |
| RespEncoder.EncodeAsWritten | app/resp_encoder.py:38-53 | Succeeds exactly on values without SimpleString or NullArray, and there agrees with `Encode`. Otherwise it raises AttributeError or the "Cannot encode type" ValueError. |
| RespEncoder.EncodeItemsAsWritten | app/resp_encoder.py:31-35 | Succeeds exactly when every item is encodable as written, giving the concatenated encodings. |
| Text.ParseIntOfIntToString | app/resp_parser.py:160 | `int(str(n)) == n` for every integer n. |
| Text.FindCrlf | app/resp_parser.py:91 | `index(b"\r\n")` finds the first CRLF, and fails exactly when there is none. |
| Text.SplitParts | app/data/stream/stream_id.py:48 | `split("-")` yields one more part than there are dashes, and no part contains a dash. |
| Text.SplitAround | app/data/stream/stream_id.py:48 | Text with exactly one dash splits into the two sides of it. |
| Text.DictGet | app/blocking.py:26 | `dict.get`: the stored value when the key is present, the default otherwise. |
| StreamIds.IntOf | app/data/stream/stream_id.py:48-52 | `int()` on a part succeeds exactly on a decimal integer. Otherwise it raises the ValueError with the literal. |
| StreamIds.Parse | app/data/stream/stream_id.py:26-52 | `-` is the minimum ID and `+` the maximum. Text with no dash, or two or more, raises ValueError. Any other success had exactly one dash. |
| StreamIds.ParseAroundDash | app/data/stream/stream_id.py:44-52 | Two integers around one dash parse to that pair of parts. |
| StreamIds.ParseOfToString | app/data/stream/stream_id.py:93-95 | Parsing `str(id)` gives `id` back for every ID with non-negative parts. |
| StreamIds.ToString | app/data/stream/stream_id.py:93-95 | `<timestamp>-<sequence>`. `StreamIds.ParseOfToString` proves `parse` inverts it. |
| StreamIds.Less | app/data/stream/stream_id.py:70-82 | Timestamps first, then sequences. `StreamIds.LessIsStrictTotalOrder` proves it a strict total order. |
| StreamIds.LessEq | app/data/stream/stream_id.py:84-85 | `<` or equal. `StreamIds.DerivedComparisons` proves it is "not greater". |
| StreamIds.Greater | app/data/stream/stream_id.py:87-88 | Not `<=`. `StreamIds.DerivedComparisons` proves it the converse of `<`. |
| StreamIds.GreaterEq | app/data/stream/stream_id.py:90-91 | Not `<`. `StreamIds.DerivedComparisons` proves it the converse of `<=`. |
| StreamIds.GenerateFullAuto | app/data/stream/stream_id.py:160-166 | `StreamIds.FullAutoIsSuccessor` proves its ID a valid successor of the top. |
| StreamIds.GenerateSequenceAuto | app/data/stream/stream_id.py:168-176 | `StreamIds.SequenceAutoNeverZero` and `StreamIds.SequenceAutoIsSuccessor` prove its ID non-zero and a valid successor. |
| StreamIds.LessIsStrictTotalOrder | app/data/stream/stream_id.py:70-82 | `<` is irreflexive, transitive, asymmetric and total. |
| StreamIds.DerivedComparisons | app/data/stream/stream_id.py:84-91 | `>` is the converse of `<`, `>=` the converse of `<=`, and `<=` is "not greater". |
| StreamIds.ValidSuccessor | app/data/stream/stream_id.py:98-112 | Accepts exactly IDs other than 0-0 that are greater than the previous top. 0-0 and a non-increasing ID each raise their own ValueError. |
| StreamIds.IsSequenceAuto | app/data/stream/stream_id.py:153-158 | False without a dash. Raises exactly when there are two or more dashes. True only when the part after the single dash is `*`. |
| StreamIds.Generate | app/data/stream/stream_id.py:127-147 | `*` is fully automatic. Two or more dashes raise. An explicit pattern without `*` is parsed as is. |
| StreamIds.SequencePattern | app/data/stream/stream_id.py:153-176 | `<ts>-*` with an integer `ts` takes the sequence-auto path. |
| StreamIds.SequenceAutoNeverZero | app/data/stream/stream_id.py:168-176 | A sequence-auto ID keeps its timestamp and is never 0-0. |
| StreamIds.SequenceAutoIsSuccessor | app/data/stream/stream_id.py:168-176 | A sequence-auto ID at or after the top's timestamp is a valid successor of the top. |
| StreamIds.FullAutoIsSuccessor | app/data/stream/stream_id.py:160-166 | A full-auto ID taken at a clock no earlier than the top is a valid successor, stamped with the clock's milliseconds. |
| StreamEntries.Flatten | app/data/stream/stream_entry.py:20 | The flattened fields hold, in order, each field name followed by its value. |
| StreamEntries.Format | app/data/stream/stream_entry.py:18-20 | An entry formats as the two-item list `[str(id), [k1, v1, ...]]`. |
| StreamEntries.FormatNamesId | app/data/stream/stream_entry.py:18-20 | The first item of a formatted entry parses back to the entry's ID. |
| StreamEntries.FlattenRegroups | app/data/stream/stream_entry.py:20 | Pairing up the flattened list gives back the original fields. |
| Streams.TopOf | app/data/stream/stream.py:36-38 | `top()` is None exactly on an empty log, and otherwise the last entry. |
| Streams.TopIdOf | app/data/stream/stream.py:40-42 | `top_id()` is None exactly on an empty log, and otherwise the last entry's ID. |
| Streams.Appended | app/data/stream/stream.py:21-34 | An append succeeds exactly when the new ID is a valid successor of the top ID. Otherwise it fails with the successor rule's error. |
| Streams.AppendedKeepsOrder | app/data/stream/stream.py:21-34 | A successful add keeps the IDs strictly increasing. It adds exactly one entry, which becomes the top, and keeps the old entries as a prefix. |
| Streams.NoDuplicateIds | app/data/stream/stream.py:21-34 | An entry reusing an ID already in the log is rejected. |
| Streams.Between | app/data/stream/stream.py:64 | The filter keeps exactly the entries with `start <= id <= end`. |
| Streams.BetweenKeepsOrder | app/data/stream/stream.py:64 | Filtering an increasing log gives an increasing result. |
| Streams.RangeOf | app/data/stream/stream.py:44-64 | The range is empty when `start > end` or the log is empty. Otherwise it holds exactly the entries within the bounds. |
| Streams.RangeKeepsOrder | app/data/stream/stream.py:44-64 | On a valid log the range comes out in ascending ID order. |
| Streams.After | app/data/stream/stream.py:44-64 | Holds exactly the entries whose IDs are greater than the given one. |
| Streams.AfterIsSuffix | app/data/stream/stream.py:44-64 | On a valid log, the entries after an ID form a suffix of the log. |
| Streams.AfterKeepsAll | app/data/stream/stream.py:44-64 | When every ID is after the given one, nothing is dropped. |
| Streams.Stream.constructor | app/data/stream/stream.py:18-19 | A new stream is empty and valid. |
| Streams.Stream.Add | app/data/stream/stream.py:21-34 | Appends in place exactly when `Appended` succeeds. Otherwise it returns the error and leaves the log alone. Validity is preserved. |
| Streams.Stream.Top | app/data/stream/stream.py:36-38 | None exactly on an empty log, otherwise the last entry. |
| Streams.Stream.TopId | app/data/stream/stream.py:40-42 | None exactly on an empty log, otherwise the last entry's ID, above every other ID of a valid log. |
| Streams.Stream.Range | app/data/stream/stream.py:44-64 | Empty when `start > end` or the log is empty. Otherwise exactly the entries within the bounds, in ascending ID order on a valid log. |
| Streams.Stream.Length | app/data/stream/stream.py:66-68 | `len` is the number of entries. |
| Streams.Stream.IsEmpty | app/data/stream/stream.py:70-72 | True exactly when the length is 0. |
| Db.Live | app/data/db.py:17-22 | `get` sees a stored value exactly when it has not expired. |
| Db.Swept | app/data/db.py:17-22 | A read deletes the key exactly when its value has expired, and changes nothing else. |
| Db.SweptTouchesOnlyKey | app/data/db.py:17-22 | A read of one key leaves every other key and value as it was. |
| Db.ReadIsIdempotent | app/data/db.py:17-22 | A second read sees the same value and deletes nothing more. |
| Db.SweptKeepsLive | app/data/db.py:17-22 | A read changes no key's live value, so it is invisible to later reads. |
| Db.ExpiryIsLazy | app/data/db.py:17-22 | An expired key is gone after a read. A value without expiry is always seen. |
| Db.ReadAfterSet | app/data/db.py:24-25 | After `set`, a read returns the new value unless it is already expired. |
| Db.DataBase.constructor | app/data/db.py:14-15 | A new database is empty. |
| Db.DataBase.Get | app/data/db.py:17-22 | Returns the live value and performs the lazy deletion. |
| Db.DataBase.Set | app/data/db.py:24-25 | Inserts or replaces the value under the key, type and expiry included. |
| Db.DataBase.Exists | app/data/db.py:27-28 | True exactly when a live value is stored, with get's deletion. |
| Db.DataBase.Delete | app/data/db.py:30-34 | True exactly when the key was stored. The key is absent afterwards. |
| Db.DataBase.GetType | app/data/db.py:36-38 | The type name of the live value, or None. |
| StringOps.GetReply | app/data/string_helper.py:10-20 | None for a missing key, WRONGTYPE for a non-string, and otherwise exactly the stored text. |
| StringOps.GetAfterSet | app/data/string_helper.py:10-24 | GET after SET returns the text set, unless the expiry has already passed. |
| StringOps.StringOps.constructor | app/data/string_helper.py:7-8 | The helper works on the given database. |
| StringOps.StringOps.Get | app/data/string_helper.py:10-20 | Returns `GetReply` on the old store and performs the read's lazy deletion. |
| StringOps.StringOps.Set | app/data/string_helper.py:22-24 | Stores a string value with the given expiry. |
| StringOps.StringOps.HasData | app/data/string_helper.py:26-27 | True exactly when a live value exists. |
| ListOps.Reversed | app/data/list_helper.py:8-12 | Item i of the result is item `len-1-i` of the input. |
| ListOps.ListAt | app/data/list_helper.py:63-69 | Fails with WRONGTYPE exactly when a live non-list value is stored. Otherwise returns the live value. |
| ListOps.Normalized | app/data/list_helper.py:30-42 | A non-negative index is kept. A negative one becomes `max(0, len + i)`: the least value that is at least both. |
| ListOps.LPushed | app/data/list_helper.py:8-12 | The store after LPUSH. `ListOps.LPushPrepends` and `ListOps.WrongTypeChangesNothing` state it. |
| ListOps.RPushed | app/data/list_helper.py:14-18 | The store after RPUSH. `ListOps.RPushAppends` and `ListOps.WrongTypeChangesNothing` state it. |
| ListOps.LPopped | app/data/list_helper.py:20-28 | The reply and store of LPOP. `ListOps.LPopConserves`, `ListOps.LPopPrefix` and `ListOps.WrongTypeChangesNothing` state it. |
| ListOps.LRanged | app/data/list_helper.py:30-42 | The reply of LRANGE. `ListOps.LRangeShape` and `ListOps.LPushThenRangeAll` state it. |
| ListOps.WrongTypeChangesNothing | app/data/list_helper.py:8-28 | On a non-list key, LPUSH, RPUSH and LPOP all raise WRONGTYPE and leave the store as it was. |
| ListOps.LPushPrepends | app/data/list_helper.py:8-12 | LPUSH puts the values, reversed, before the old items. It creates a list without expiry when the key was absent, and leaves other keys alone. |
| ListOps.RPushAppends | app/data/list_helper.py:14-18 | RPUSH puts the values after the old items, and other keys are untouched. |
| ListOps.LPopConserves | app/data/list_helper.py:20-28 | What LPOP returns, followed by what it leaves, is the old list. A count of 1 returns the bare head, and an empty list returns nothing. |
| ListOps.LPopPrefix | app/data/list_helper.py:20-28 | LPOP with count n (1 < n <= len) returns exactly the first n items. |
| ListOps.LPushThenRangeAll | app/data/list_helper.py:8-42 | `LRANGE key 0 -1` after an LPUSH is the pushed values, reversed, in front of the old list. |
| ListOps.LRangeShape | app/data/list_helper.py:30-42 | LRANGE is empty when the normalised start is past the end or past the stop. Otherwise it is the contiguous run up to the stop, or up to the end of the list. |
| ListOps.ListOps.constructor | app/data/list_helper.py:5-6 | The helper works on the given database. |
| ListOps.ListOps.GetList | app/data/list_helper.py:63-69 | Returns `ListAt` on the old store, with the read's deletion. |
| ListOps.ListOps.GetOrCreate | app/data/list_helper.py:53-61 | Raises WRONGTYPE on a non-list. Creates an empty list on an absent key. Otherwise returns the stored list. |
| ListOps.ListOps.LPush | app/data/list_helper.py:8-12 | Either raises WRONGTYPE and changes nothing, or stores the LPUSH result and returns the new length. |
| ListOps.ListOps.RPush | app/data/list_helper.py:14-18 | Either raises WRONGTYPE and changes nothing, or stores the RPUSH result and returns the new length. |
| ListOps.ListOps.LPop | app/data/list_helper.py:20-28 | Either raises WRONGTYPE and changes nothing, or returns the popped items and stores the rest. |
| ListOps.ListOps.LRange | app/data/list_helper.py:30-42 | Returns the specified slice and performs only the read's deletion. |
| ListOps.ListOps.LLen | app/data/list_helper.py:44-46 | The number of items, 0 for an absent key. Raises WRONGTYPE on a non-list. |
| ListOps.ListOps.HasData | app/data/list_helper.py:48-50 | True exactly when the list is non-empty. Raises WRONGTYPE on a non-list. |
| Lists.Vivified | app/data/lists.py:6-9 | A lookup adds the name with its list, or an empty one, and keeps every other entry. |
| Lists.Extended | app/data/lists.py:11-13 | An assignment appends the values to the named list and keeps every other entry. |
| Lists.LookupIsIdempotent | app/data/lists.py:6-9 | A second lookup changes nothing, and a lookup of a present name changes nothing. |
| Lists.ExtensionsAccumulate | app/data/lists.py:11-13 | Two assignments append the concatenation of their values. |
| Lists.Lists.constructor | app/data/lists.py:3-4 | A new collection is empty. |
| Lists.Lists.GetItem | app/data/lists.py:6-9 | `self[name]` returns the stored list and creates an empty one when absent. |
| Lists.Lists.SetItem | app/data/lists.py:11-13 | `self[name] = values` extends rather than replaces. |
| StreamOps.WithStream | app/data/stream_helper.py:89-95 | A live key is left alone. An absent one gets an empty stream. |
| StreamOps.AddResult | app/data/stream_helper.py:22-43 | The outcome and store of XADD. `StreamOps.AddProperties`, `StreamOps.AddKeepsStreamsValid` and `StreamOps.AddOutcomeSources` state it. |
| StreamOps.AddProperties | app/data/stream_helper.py:22-43 | XADD leaves a stream under the key. A success appends exactly the new entry, which becomes the top. A rejection or raise leaves the entries as they were. Other keys are untouched. |
| StreamOps.AddKeepsStreamsValid | app/data/stream_helper.py:22-43 | XADD keeps every stream in the store strictly increasing. |
| StreamOps.AddOutcomeSources | app/data/stream_helper.py:22-43 | Only the append is inside the `try`. A non-stream payload raises AttributeError. Any generator failure, e.g. for `5` or `abc-1`, escapes unchanged. A successor-rule failure becomes the RESPError message. An accepted entry answers with its new ID. |
| StreamOps.AddRejection | app/data/stream_helper.py:35-43 | A rejected XADD carries one of the two successor-rule messages. |
| StreamOps.MalformedPatternRaises | app/data/stream_helper.py:30-34 | An ID pattern with two or more dashes raises from the generator, outside the `try`. |
| StreamOps.TruthyPayload | app/data/stream_helper.py:84-87 | The payload when the key is live and the payload non-empty, and None otherwise. |
| StreamOps.XRangeReply | app/data/stream_helper.py:45-66 | An absent key, or a live but empty value, gives [] without parsing the bounds. A non-stream payload raises AttributeError. An unparsable bound raises its ValueError. Otherwise the result is exactly the stream's range between the parsed bounds. |
| StreamOps.XReadAsWritten | app/data/stream_helper.py:68-73 | As written, XREAD returns None for an absent or empty value and raises AttributeError otherwise. |
| StreamOps.XReadReply | app/data/stream_helper.py:68-73 | The intended XREAD: None for an absent or empty value. A non-stream payload raises AttributeError, and an unparsable ID raises its ValueError. Otherwise it succeeds with exactly the entries whose IDs are greater than the parsed ID. |
| StreamOps.XReadIsSuffix | app/data/stream_helper.py:68-73 | On a stream whose IDs increase, a read with a parsable ID succeeds with a suffix of the log, so the entries come in the order they were added. |
| StreamOps.XReadAgreement | app/data/stream_helper.py:68-73 | Wherever the as-written XREAD does not raise, it agrees with the intended one. |
| StreamOps.XReadAsWrittenFails | app/data/stream_helper.py:68-73 | On any valid non-empty stream, XREAD from `0-0` raises as written, while the intended read returns the whole log. |
| StreamOps.ReadsSeeOnlyLive | app/data/stream_helper.py:68-87 | `top_id` and `xread` see the store only through `get`: two stores with the same live value under a key read it alike. |
| StreamOps.TopIdReply | app/data/stream_helper.py:78-81 | None for an absent or empty value. A non-stream payload raises AttributeError. A stream succeeds with its top ID. |
| StreamOps.StreamOps.constructor | app/data/stream_helper.py:18-20 | The helper works on the given database. |
| StreamOps.StreamOps.GetStream | app/data/stream_helper.py:84-87 | The live payload, with the read's deletion. |
| StreamOps.StreamOps.GetOrCreateStream | app/data/stream_helper.py:89-95 | Stores an empty stream under an absent key and returns the payload now stored. |
| StreamOps.StreamOps.Add | app/data/stream_helper.py:22-43 | The outcome and new store are those of the XADD specification. |
| StreamOps.StreamOps.XRange | app/data/stream_helper.py:45-66 | Returns `XRangeReply` on the old store and performs only the read's deletion. |
| StreamOps.StreamOps.XRead | app/data/stream_helper.py:68-73 | Returns the intended `XReadReply` and performs only the read's deletion. |
| StreamOps.StreamOps.HasData | app/data/stream_helper.py:75-76 | True exactly when a live value exists. |
| StreamOps.StreamOps.TopId | app/data/stream_helper.py:78-81 | Returns `TopIdReply` and performs only the read's deletion. |
| Blocking.QueueOf | app/blocking.py:25-26 | The queue of a key, or the empty queue. |
| Blocking.ExpectedMembers | app/blocking.py:20-26 | The waiters for a key are exactly the waiting clients that listed it. |
| Blocking.ExpectedAppend | app/blocking.py:20-26 | The waiters for a key in two lists of clients are the first list's followed by the second's. |
| Blocking.EnqueuedQueues | app/blocking.py:20-23 | Adding a client appends it to each key's queue once per time it lists the key. No other queue changes. |
| Blocking.AddKeepsIndex | app/blocking.py:20-23 | After adding a client, every key's queue is still the arrival-ordered list of the clients waiting on it. |
| Blocking.RemoveFirst | app/blocking.py:28-35 | `list.remove` drops exactly one element. |
| Blocking.RemoveFirstAfter | app/blocking.py:28-35 | `list.remove` drops the first occurrence. |
| Blocking.UnqueuedStaysFailed | app/blocking.py:28-35 | Once a queue removal has failed, removing from the remaining keys cannot undo that. |
| Blocking.RemoveKeepsIndex | app/blocking.py:28-35 | Removing a waiting client always succeeds, and leaves every queue as the arrival-ordered waiters of the remaining clients. |
| Blocking.TimedOut | app/blocking.py:37-43 | Holds exactly the waiters whose deadline is set and before now. |
| Blocking.TimedOutAppend | app/blocking.py:37-43 | The timed-out waiters of two lists are those of the first followed by those of the second. |
| Blocking.BlockingState.constructor | app/blocking.py:14-18 | No one is waiting, and the state is consistent. |
| Blocking.BlockingState.AddWaiting | app/blocking.py:20-23 | Appends the client to the list and to each of its keys' queues, and keeps the state consistent. |
| Blocking.BlockingState.GetWaitersForKey | app/blocking.py:25-26 | In a consistent state, exactly the waiting clients that listed the key, in arrival order. |
| Blocking.BlockingState.RemoveWaiter | app/blocking.py:28-35 | An unknown client raises ValueError. In a consistent state, a waiting client is removed from the list and every queue, and the state stays consistent. If a queue lacks the client, the ValueError leaves the earlier queues already updated and the first failing key's queue untouched. |
| Blocking.BlockingState.GetTimedOut | app/blocking.py:37-43 | Returns the timed-out waiters in arrival order. |
| Commands.Command.Validate | app/commands/base.py:30-45 | None exactly when the arguments are absent or their count is within the arity. An exact arity gives the short message, and a range gives the long one. |
| Commands.UnboundedChecksOnlyMinimum | app/commands/base.py:30-45 | With an infinite maximum, only the minimum is checked. |
| Commands.ExactArityMessage | app/commands/base.py:30-45 | An exact arity rejects every other count with the short message. |
| Commands.Dispatch | app/commands/registry.py:23-46 | None, an error, a non-list, an empty list and a non-string verb are each handled as the registry does. An unknown verb is reported. A command runs exactly when the upper-cased verb is registered and its arity accepts the rest. |
| Commands.DispatchIgnoresVerbCase | app/commands/registry.py:34-39 | The verb's letter case does not change the dispatch outcome. |
| Commands.RegisteredLookup | app/commands/registry.py:15-46 | After `register`, any spelling of the name with valid arguments runs that command. |
| Commands.CommandRegistry.constructor | app/commands/registry.py:12-13 | A new registry is empty. |
| Commands.CommandRegistry.Register | app/commands/registry.py:15-17 | Stores the command under its upper-cased name, replacing any earlier one. |
| Commands.CommandRegistry.Get | app/commands/registry.py:19-21 | Finds a command exactly when the name was registered as given. |
| Commands.CommandRegistry.Execute | app/commands/registry.py:23-46 | The imperative dispatch returns exactly `Dispatch` over the registered commands. |
| CommandHandlers.Ping | app/command_handlers.py:6-20 | PONG with no argument, the message with one, and the arity error with more. |
| CommandHandlers.Echo | app/command_handlers.py:23-31 | The message with exactly one argument, and the arity error otherwise. |
| CommandHandlers.PingEchoAgreeOnOneArgument | app/command_handlers.py:6-31 | PING and ECHO agree on a single message. |
| CommandHandlers.HandlerFor | app/command_handlers.py:34-37 | The table holds exactly PING and ECHO. |
| CommandHandlers.HandleCommand | app/command_handlers.py:40-54 | An empty command and an unknown verb get errors, and a non-string verb raises. Otherwise the handler runs on the arguments after the verb. |
| CommandHandlers.PingInAnyCase | app/command_handlers.py:40-54 | Any spelling of PING reaches the PING handler. |
| CommandHandlers.EchoInAnyCase | app/command_handlers.py:40-54 | Any spelling of ECHO reaches the ECHO handler. |
| TypeCommand.TypeReply | app/commands/type.py:13-18 | `none` exactly when no live value is stored. Otherwise the value's type name. |
| TypeCommand.TypeArity | app/commands/type.py:7-8 | TYPE takes exactly one argument, and any other count gets the short arity message. |
| TypeCommand.TypeAfterXAdd | app/commands/type.py:13-18 | After XADD on an absent key, TYPE reports `stream` whatever the outcome. |
| TypeCommand.TypeCommand.constructor | app/commands/type.py:10-11 | The command works on the given database. |
| TypeCommand.TypeCommand.Execute | app/commands/type.py:13-18 | With no argument it raises IndexError. Otherwise it returns `TypeReply` with the read's deletion. |
| XRead.NormalToken | app/commands/xread.py:89-93 | STREAMS and BLOCK in any letter case become upper case. Other tokens are kept. |
| XRead.Normalized | app/commands/xread.py:89-93 | Each token is normalised in place. |
| XRead.NormalizeTokens | app/commands/xread.py:89-93 | The loop over the argument array leaves exactly the normalised tokens. |
| XRead.IndexOf | app/commands/xread.py:95-102 | `list.index`: the first position of the token, None exactly when it is absent. |
| XRead.IndexOfFirst | app/commands/xread.py:95-99 | A position holding the token, with no earlier occurrence, is what `list.index` returns. |
| XRead.ParseStreamsArgs | app/commands/xread.py:95-108 | No STREAMS is the syntax error. The tokens after STREAMS split in half into keys and IDs. Without BLOCK the parse succeeds. BLOCK as the last token raises IndexError, and a non-number operand raises the ValueError of `float`. A numeric operand parses and is the block time. |
| XRead.StreamsKeyword | app/commands/xread.py:89-97 | The syntax error arises exactly when no argument is STREAMS in any letter case. |
| XRead.ParseArgs | app/commands/xread.py:81-108 | Normalises the array in place, then returns the parse of the normalised tokens. |
| XRead.ParseTokens | app/commands/xread.py:95-108 | The imperative parse returns exactly `ParseStreamsArgs`. |
| XRead.TopIdText | app/commands/xread.py:47-48 | `str(top_id)`. `XRead.ReadStep` uses it for `$`. |
| XRead.FormatStream | app/commands/xread.py:76-79 | A reply is `[key, [entry, ...]]` with each entry formatted in order. |
| XRead.ResolvedId | app/commands/xread.py:47-49 | `$` stands for the top ID, as `str` prints it, and any other text for itself. `XRead.ReadStep` states its use. |
| XRead.KeyRead | app/commands/xread.py:46-50 | One key read from a store: the resolved ID and what `xread` returns after it. `XRead.KeyReadSeesOnlyLive` proves it depends only on live values. |
| XRead.ReplyOf | app/commands/xread.py:51-52 | `[key, entries]` when the read found entries, nothing otherwise. |
| XRead.KeyReadSeesOnlyLive | app/commands/xread.py:46-50 | Two stores with the same live value under a key give the same key read. |
| XRead.ReadStep | app/commands/xread.py:45-54 | One pass of the read loop. It raises exactly when the key read raises, and then appends nothing. Otherwise it stores the resolved ID in its slot and appends `[key, entries]` exactly when the read finds entries. Only that slot changes, and the key's read is swept. |
| XRead.ReadsUpTo | app/commands/xread.py:45-54 | The loop after n passes. `XRead.ReadsMatchImmediate` states what it gathers. |
| XRead.ImmediateReplies | app/commands/xread.py:45-54 | The reference answer: each key read from the original store, in listed order, with the replies of the keys with entries, or the first exception. |
| XRead.ReadsMatchImmediate | app/commands/xread.py:45-54 | The loop's replies are exactly `ImmediateReplies`: one `[key, entries]` per key whose read finds entries, in listed order. It raises exactly when some key read raises, with the first such exception. The store keeps every live value, and unread slots keep their IDs. |
| XRead.StopsAfterRaise | app/commands/xread.py:45-54 | A pass after an exception changes nothing. |
| XRead.RepliesAreNonEmptyStreams | app/commands/xread.py:45-54 | Every reply collected names one of the requested keys and carries a non-empty entry list. |
| XRead.RaisedIsFinal | app/commands/xread.py:45-54 | Once a read raises, the later keys are never read. |
| XRead.ZipToMap | app/commands/xread.py:57 | `dict(zip(keys, ids))` has exactly the keys, and the last key gets its own ID. |
| XRead.ZipRemembersEachKey | app/commands/xread.py:57 | A key's last occurrence determines its ID. |
| XRead.XReadResult | app/commands/xread.py:23-74 | The outcome and store of `execute`. `XRead.ImmediateAnswer`, `XRead.NothingToRead`, `XRead.BlockOperandErrors` and `XRead.BlockWaitsOnEmptyKey` state it. |
| XRead.ImmediateAnswer | app/commands/xread.py:39-74 | `execute` answers the first exception of the key reads. Otherwise it gives the replies of the keys with entries, in listed order. With no replies it gives None without BLOCK, or a blocking response over the listed keys for the BLOCK time. The store keeps its live values. |
| XRead.BlockOperandErrors | app/commands/xread.py:39-42 | A BLOCK without an operand gives IndexError and a non-numeric operand the ValueError of `float`. Either way the store is untouched. |
| XRead.BlockWaitsOnEmptyKey | app/commands/xread.py:23-74 | `XREAD BLOCK ms STREAMS key 0-0` on a key holding nothing returns the blocking response over `[key]` for `ms` milliseconds, remembering `0-0`. Only the read's deletion is performed. |
| XRead.BlockArgsNormal | app/commands/xread.py:89-93 | `BLOCK ms STREAMS key 0-0` is left as it is by normalisation when neither `ms` nor `key` is a keyword. |
| XRead.BlockArgsParse | app/commands/xread.py:95-108 | Those arguments parse to the keys `[key]`, the IDs `[0-0]` and the numeric block time. |
| XRead.ReadOfNothing | app/commands/xread.py:45-54 | Reading a key that holds nothing, from `0-0`, gives no reply and no exception, and keeps the ID. Only the key is swept. |
| XRead.NothingToRead | app/commands/xread.py:67-74 | With nothing to read, XREAD without BLOCK answers None. With BLOCK it waits on exactly the listed keys, for the given time. |
| XRead.UnblockReply | app/commands/xread.py:59-65 | None when the key holds nothing. Otherwise, when there are entries after the remembered ID, exactly those entries, formatted. |
| XRead.UnblockDeliversNewer | app/commands/xread.py:59-65 | Once the stream holds entries newer than the remembered ID, the callback delivers exactly those, in log order. |
| XRead.XReadCommand.constructor | app/commands/xread.py:20-21 | The command works on a stream helper over the given database. |
| XRead.XReadCommand.Execute | app/commands/xread.py:23-74 | Normalises the arguments in place. Its outcome and the new store are `XReadResult`, whose replies `XRead.ImmediateAnswer` characterises. |
| XRead.XReadCommand.ReadKey | app/commands/xread.py:45-54 | One iteration of the read loop over the shared database, as `ReadStep` specifies. |
| XRead.XReadCommand.Unblock | app/commands/xread.py:59-65 | The callback's reply is `UnblockReply`, with only the read's deletion. |

## Left out

- Sockets, the event loop, server start-up, command auto-discovery and the command classes other than TYPE and XREAD are not part of this model. The keyspace helpers they call are modelled.
- Bytes are modelled as characters, with UTF-8 encoding and decoding as the identity. This is exact for ASCII.
- `str.upper`/`str.lower` act on ASCII letters only.
- `int()` accepts an optional sign and ASCII digits. Surrounding whitespace and `_` separators are not accepted.
- Expiry instants are integers rather than `datetime` values. The clock is a parameter rather than a call to `datetime.now()`.
- The BLOCK operand is parsed as an integer number of milliseconds. `float()` and the division by 1000 are left out.
- `sys.maxsize` is fixed at its 64-bit value.
- The ValueError messages of `int()` and `float()` quote the offending text between single quotes. Python's `repr` escapes quotes and backslashes inside the text, and that escaping is not modelled.
- `app/resp_encoder.py:2` imports `SimpleString` from a module that does not define it. The model assumes the import resolves to the class in `app/types.py`.
- Streams are stored in the keyspace by value. An in-place append through one alias is not seen through another.
- The `Stream` class models the in-place log. The helpers rebuild the stored value instead.
- The blocked client's socket is an opaque number. The response returned by a blocking XREAD is a plain record, and the callback is the function `UnblockReply`.
- Only the callback's result is modelled. Its registration with the server is not.
- RespParser.ParseBulkString: its own contract states only the shape of a result. Its exact semantics are stated by `RespLaws.NullBulkString`, `EmptyBulkString`, `PayloadBulkString`, `NegativeBulkLength` and `BulkRoundTrip`.
- RespParser.ParseResp: its own contract states only the error cases for empty input and unknown type bytes, and the shape of a success. The laws in `RespLaws` state what each type byte reads.
- Blocking.BlockingState.GetWaitersForKey: the contract holds in a consistent state. Every constructor and method here preserves that state.

## Findings

| source | as written | input that shows it | evidently intended | confidence | as-written member | corrected member |
|---|---|---|---|---|---|---|
| app/resp_encoder.py:40-53 | `encode_resp` reads `value.s` on a SimpleString, whose field is `string`. A NullArray marker reaches the final `raise ValueError`. | `encode_resp(SimpleString("OK"))` raises AttributeError, and `encode_resp(NullArray())` raises ValueError | `+OK\r\n` and the null array `*-1\r\n` | not executed | RespLaws.SimpleStringNotEncoded | RespLaws.RoundTrip |
| app/data/stream_helper.py:68-73 | `xread` calls `stream.read`, which the stream class does not define | XREAD on a key holding a non-empty stream, from `0-0`, raises AttributeError | the entries whose IDs are greater than the given ID, in log order | not executed | StreamOps.XReadAsWrittenFails | StreamOps.StreamOps.XRead |

=== FILE: blocking.dfy ===
/** The registry of clients blocked on keys (app/blocking.py): a FIFO
    queue per key plus the list of every waiter in registration order.
    The clock is the parameter `now`; timeouts are instants on its scale. */
module Blocking {
  import opened Wrappers
  import opened Text

  /** `WaitingClient`. The socket is an opaque connection handle; like the
      dataclass, two clients are equal when all three fields are. */
  datatype WaitingClient = WaitingClient(conn: nat, keys: seq<string>, timeoutAt: Option<int>)

  /** The `ValueError` text of `list.remove` for a missing element. */
  const NotInListMessage: string := "list.remove(x): x not in list"

  type Queues = map<string, seq<WaitingClient>>

  /** `c` repeated `n` times. */
  function Repeat(c: WaitingClient, n: nat): (r: seq<WaitingClient>)
    ensures |r| == n
  {
    if n == 0 then [] else [c] + Repeat(c, n - 1)
  }

  /** A repetition holds `c` and nothing else. */
  lemma RepeatMembers(c: WaitingClient, n: nat)
    ensures forall x :: x in Repeat(c, n) <==> n > 0 && x == c
  {
    forall x ensures x in Repeat(c, n) <==> n > 0 && x == c {
      if n > 0 {
        assert Repeat(c, n)[0] == c;
        assert forall i :: 0 <= i < n ==> Repeat(c, n)[i] == c by {
          RepeatAll(c, n);
        }
      }
    }
  }

  lemma {:induction false} RepeatAll(c: WaitingClient, n: nat)
    ensures forall i :: 0 <= i < n ==> Repeat(c, n)[i] == c
  {
    if n > 0 {
      RepeatAll(c, n - 1);
      assert forall i :: 0 < i < n ==> Repeat(c, n)[i] == Repeat(c, n - 1)[i - 1];
    }
  }

  lemma {:induction false} RepeatSnoc(c: WaitingClient, n: nat)
    ensures Repeat(c, n) + [c] == Repeat(c, n + 1)
  {
    if n > 0 {
      RepeatSnoc(c, n - 1);
      assert Repeat(c, n + 1) == [c] + (Repeat(c, n - 1) + [c]);
    }
  }

  /** `get_waiters_for_key`: the queue of `key`, [] when it has none. */
  function QueueOf(queues: Queues, key: string): (r: seq<WaitingClient>)
    ensures key in queues ==> r == queues[key]
    ensures key !in queues ==> r == []
  {
    DictGet(queues, key, [])
  }

  /** The queue `key` should have after registering `all` in order: each
      waiter once for every time it lists `key`. */
  function Expected(all: seq<WaitingClient>, key: string): seq<WaitingClient>
  {
    if all == [] then []
    else
      var last := all[|all| - 1];
      Expected(all[..|all| - 1], key) + Repeat(last, Count(last.keys, key))
  }

  /** A key's queue holds exactly the registered waiters that list the key. */
  lemma {:induction false} ExpectedMembers(all: seq<WaitingClient>, key: string)
    ensures forall x :: x in Expected(all, key) <==> x in all && key in x.keys
  {
    if all != [] {
      var last := all[|all| - 1];
      ExpectedMembers(all[..|all| - 1], key);
      CountZero(last.keys, key);
      RepeatMembers(last, Count(last.keys, key));
      assert forall x :: x in all <==> x in all[..|all| - 1] || x == last;
    }
  }

  lemma {:induction false} ExpectedAppend(a: seq<WaitingClient>, b: seq<WaitingClient>, key: string)
    ensures Expected(a + b, key) == Expected(a, key) + Expected(b, key)
  {
    if b == [] {
      assert a + b == a;
    } else {
      var init := b[..|b| - 1];
      var last := b[|b| - 1];
      assert (a + b)[..|a + b| - 1] == a + init;
      ExpectedAppend(a, init, key);
    }
  }

  /** The registry invariant: every key's queue is exactly what the
      registration order gives, and no key maps to an empty queue. */
  ghost predicate Indexed(queues: Queues, all: seq<WaitingClient>)
  {
    forall key {:trigger QueueOf(queues, key)} :: QueueOf(queues, key) == Expected(all, key) && (key in queues ==> queues[key] != [])
  }

  /** The loop of `add_waiting` over the first keys: `setdefault(key, []).append(c)`. */
  function Enqueued(queues: Queues, c: WaitingClient, keys: seq<string>): Queues
  {
    if keys == [] then queues
    else
      var m := Enqueued(queues, c, keys[..|keys| - 1]);
      var key := keys[|keys| - 1];
      m[key := QueueOf(m, key) + [c]]
  }

  /** Registering appends `c` to the queue of each key once per listing,
      creating queues for keys that had none. */
  lemma EnqueuedQueues(queues: Queues, c: WaitingClient, keys: seq<string>)
    ensures forall key :: QueueOf(Enqueued(queues, c, keys), key) == QueueOf(queues, key) + Repeat(c, Count(keys, key))
    ensures forall key :: key in Enqueued(queues, c, keys) <==> key in queues || key in keys
  {
    forall key
      ensures QueueOf(Enqueued(queues, c, keys), key) == QueueOf(queues, key) + Repeat(c, Count(keys, key))
      ensures key in Enqueued(queues, c, keys) <==> key in queues || key in keys
    {
      EnqueuedQueue(queues, c, keys, key);
      EnqueuedKey(queues, c, keys, key);
    }
  }

  /** The queue of one key after registering. */
  lemma {:induction false} EnqueuedQueue(queues: Queues, c: WaitingClient, keys: seq<string>, key: string)
    ensures QueueOf(Enqueued(queues, c, keys), key) == QueueOf(queues, key) + Repeat(c, Count(keys, key))
  {
    if keys != [] {
      var init := keys[..|keys| - 1];
      var last := keys[|keys| - 1];
      EnqueuedQueue(queues, c, init, key);
      CountSnoc(keys, key);
      var m := Enqueued(queues, c, init);
      assert Enqueued(queues, c, keys) == m[last := QueueOf(m, last) + [c]];
      if key == last {
        RepeatSnoc(c, Count(init, last));
        assert QueueOf(Enqueued(queues, c, keys), key)
          == QueueOf(queues, key) + (Repeat(c, Count(init, key)) + [c]);
      } else {
        assert QueueOf(Enqueued(queues, c, keys), key) == QueueOf(m, key);
      }
    }
  }

  /** Registering creates a queue for each listed key and removes none. */
  lemma {:induction false} EnqueuedKey(queues: Queues, c: WaitingClient, keys: seq<string>, key: string)
    ensures key in Enqueued(queues, c, keys) <==> key in queues || key in keys
  {
    if keys != [] {
      var init := keys[..|keys| - 1];
      EnqueuedKey(queues, c, init, key);
      assert keys == init + [keys[|keys| - 1]];
      assert key in keys <==> key in init || key == keys[|keys| - 1];
    }
  }

  /** `add_waiting` keeps the registry invariant. */
  lemma AddKeepsIndex(queues: Queues, all: seq<WaitingClient>, c: WaitingClient)
    requires Indexed(queues, all)
    ensures Indexed(Enqueued(queues, c, c.keys), all + [c])
  {
    EnqueuedQueues(queues, c, c.keys);
    var after := Enqueued(queues, c, c.keys);
    forall key ensures QueueOf(after, key) == Expected(all + [c], key) && (key in after ==> after[key] != []) {
      assert (all + [c])[..|all|] == all;
      CountZero(c.keys, key);
    }
  }

  /** `list.remove`: drops the first occurrence of `x`. */
  function RemoveFirst(s: seq<WaitingClient>, x: WaitingClient): (r: seq<WaitingClient>)
    requires x in s
    ensures |r| == |s| - 1
  {
    if s[0] == x then s[1..] else [s[0]] + RemoveFirst(s[1..], x)
  }

  /** Removal takes out exactly the first occurrence and keeps the order of
      everything else. */
  lemma {:induction false} RemoveFirstAfter(p: seq<WaitingClient>, x: WaitingClient, q: seq<WaitingClient>)
    requires x !in p
    ensures RemoveFirst(p + [x] + q, x) == p + q
  {
    if p != [] {
      assert (p + [x] + q)[1..] == p[1..] + [x] + q;
      RemoveFirstAfter(p[1..], x, q);
    }
  }

  /** One pass of the `remove_waiter` loop: a listed key's queue loses its
      first `c` (a missing `c` raises) and is deleted once empty. */
  function Unqueue(queues: Queues, c: WaitingClient, key: string): Option<Queues>
  {
    if key !in queues then Some(queues)
    else if c !in queues[key] then None
    else
      var q := RemoveFirst(queues[key], c);
      Some(if q == [] then queues - {key} else queues[key := q])
  }

  /** The `remove_waiter` loop over the first keys; None once a removal raised. */
  function Unqueued(queues: Queues, c: WaitingClient, keys: seq<string>): Option<Queues>
  {
    if keys == [] then Some(queues)
    else
      match Unqueued(queues, c, keys[..|keys| - 1])
      case None => None
      case Some(m) => Unqueue(m, c, keys[|keys| - 1])
  }

  /** A loop that raised raises whatever keys follow. */
  lemma {:induction false} UnqueuedStaysFailed(queues: Queues, c: WaitingClient, keys: seq<string>, i: nat)
    requires i <= |keys| && Unqueued(queues, c, keys[..i]).None?
    ensures Unqueued(queues, c, keys).None?
  {
    if i < |keys| {
      var init := keys[..|keys| - 1];
      assert init[..i] == keys[..i];
      UnqueuedStaysFailed(queues, c, init, i);
    } else {
      assert keys[..i] == keys;
    }
  }

  /** The queues while `remove_waiter` works through the keys of `c`: each
      key's queue holds `c` once for every listing still to handle, between
      the waiters registered before and after it. */
  ghost predicate Pending(queues: Queues, before: seq<WaitingClient>, c: WaitingClient,
                          after: seq<WaitingClient>, rest: seq<string>)
  {
    && (forall key {:trigger QueueOf(queues, key)} :: QueueOf(queues, key) == Expected(before, key) + Repeat(c, Count(rest, key)) + Expected(after, key))
    && (forall key :: key in queues ==> queues[key] != [])
  }

  /** The queue of the key being handled loses one `c`. */
  lemma UnqueueAt(queues: Queues, before: seq<WaitingClient>, c: WaitingClient,
                  after: seq<WaitingClient>, k: string, j: nat)
    requires c !in before
    requires QueueOf(queues, k) == Expected(before, k) + Repeat(c, j + 1) + Expected(after, k)
    ensures Unqueue(queues, c, k).Some?
    ensures QueueOf(Unqueue(queues, c, k).value, k) == Expected(before, k) + Repeat(c, j) + Expected(after, k)
    ensures forall key :: key != k ==> QueueOf(Unqueue(queues, c, k).value, key) == QueueOf(queues, key)
    ensures forall key :: key in Unqueue(queues, c, k).value ==> key in queues
    ensures k in Unqueue(queues, c, k).value ==> Unqueue(queues, c, k).value[k] != []
  {
    var pre, post := Expected(before, k), Repeat(c, j) + Expected(after, k);
    assert queues[k] == pre + [c] + post by {
      assert Repeat(c, j + 1) == [c] + Repeat(c, j);
    }
    assert c !in pre by {
      ExpectedMembers(before, k);
    }
    var q := RemoveFirst(queues[k], c);
    assert q == pre + post by {
      RemoveFirstAfter(pre, c, post);
    }
    assert Unqueue(queues, c, k) == Some(if q == [] then queues - {k} else queues[k := q]);
  }

  /** One pass of the loop handles the next pending listing. */
  lemma UnqueueOne(queues: Queues, before: seq<WaitingClient>, c: WaitingClient,
                   after: seq<WaitingClient>, k: string, rest: seq<string>)
    requires c !in before
    requires Pending(queues, before, c, after, [k] + rest)
    ensures Unqueue(queues, c, k).Some?
    ensures Pending(Unqueue(queues, c, k).value, before, c, after, rest)
  {
    assert ([k] + rest)[1..] == rest;
    UnqueueAt(queues, before, c, after, k, Count(rest, k));
    var m := Unqueue(queues, c, k).value;
    forall key
      ensures QueueOf(m, key) == Expected(before, key) + Repeat(c, Count(rest, key)) + Expected(after, key)
      ensures key in m ==> m[key] != []
    {
      assert QueueOf(queues, key) == Expected(before, key) + Repeat(c, Count([k] + rest, key)) + Expected(after, key);
    }
  }

  /** After the loop has handled the first `n` keys of `c`, the rest are pending. */
  lemma {:induction false} UnqueuedPrefix(queues: Queues, before: seq<WaitingClient>, c: WaitingClient,
                                          after: seq<WaitingClient>, n: nat)
    requires c !in before && n <= |c.keys|
    requires Pending(queues, before, c, after, c.keys)
    ensures Unqueued(queues, c, c.keys[..n]).Some?
    ensures Pending(Unqueued(queues, c, c.keys[..n]).value, before, c, after, c.keys[n..])
  {
    if n == 0 {
      assert c.keys[..0] == [] && c.keys[0..] == c.keys;
    } else {
      UnqueuedPrefix(queues, before, c, after, n - 1);
      assert c.keys[..n][..n - 1] == c.keys[..n - 1];
      assert c.keys[n - 1..] == [c.keys[n - 1]] + c.keys[n..];
      UnqueueOne(Unqueued(queues, c, c.keys[..n - 1]).value, before, c, after, c.keys[n - 1], c.keys[n..]);
    }
  }

  /** The first position of `x` in `s`. */
  lemma {:induction false} FirstOccurrence(s: seq<WaitingClient>, x: WaitingClient) returns (i: nat)
    requires x in s
    ensures i < |s| && s[i] == x && x !in s[..i]
  {
    if s[0] == x {
      i := 0;
    } else {
      var j := FirstOccurrence(s[1..], x);
      i := j + 1;
      assert s[..i] == [s[0]] + s[1..][..j];
    }
  }

  /** Before the loop, every listing of the waiter at position `i` is
      pending. */
  lemma PendingAtStart(queues: Queues, all: seq<WaitingClient>, i: nat)
    requires Indexed(queues, all) && i < |all|
    ensures Pending(queues, all[..i], all[i], all[i + 1..], all[i].keys)
  {
    var c, before, after := all[i], all[..i], all[i + 1..];
    assert all == before + [c] + after;
    forall key
      ensures QueueOf(queues, key) == Expected(before, key) + Repeat(c, Count(c.keys, key)) + Expected(after, key)
      ensures key in queues ==> queues[key] != []
    {
      ExpectedAppend(before + [c], after, key);
      ExpectedAppend(before, [c], key);
      assert [c][..0] == [];
    }
  }

  /** With nothing left pending, the queues are indexed by the waiters
      around the removed one. */
  lemma PendingAtEnd(m: Queues, before: seq<WaitingClient>, c: WaitingClient, after: seq<WaitingClient>)
    requires Pending(m, before, c, after, [])
    ensures Indexed(m, before + after)
  {
    forall key ensures QueueOf(m, key) == Expected(before + after, key) && (key in m ==> m[key] != []) {
      var empty: seq<string> := [];
      assert QueueOf(m, key) == Expected(before, key) + Repeat(c, Count(empty, key)) + Expected(after, key);
      assert Repeat(c, Count(empty, key)) == [];
      ExpectedAppend(before, after, key);
    }
  }

  /** `remove_waiter` on a registered waiter never raises and keeps the
      registry invariant for the remaining waiters, in their old order. */
  lemma RemoveKeepsIndex(queues: Queues, all: seq<WaitingClient>, c: WaitingClient)
    requires Indexed(queues, all) && c in all
    ensures Unqueued(queues, c, c.keys).Some?
    ensures Indexed(Unqueued(queues, c, c.keys).value, RemoveFirst(all, c))
  {
    var i := FirstOccurrence(all, c);
    var before, after := all[..i], all[i + 1..];
    PendingAtStart(queues, all, i);
    UnqueuedPrefix(queues, before, c, after, |c.keys|);
    assert c.keys[..|c.keys|] == c.keys;
    assert c.keys[|c.keys|..] == [];
    PendingAtEnd(Unqueued(queues, c, c.keys).value, before, c, after);
    assert all == before + [c] + after;
    RemoveFirstAfter(before, c, after);
  }

  /** Waiters with a deadline strictly before `now`, in registration order. */
  function TimedOut(all: seq<WaitingClient>, now: int): (r: seq<WaitingClient>)
    ensures |r| <= |all|
    ensures forall x :: x in r <==> x in all && x.timeoutAt.Some? && x.timeoutAt.value < now
  {
    if all == [] then []
    else
      var last := all[|all| - 1];
      var r := TimedOut(all[..|all| - 1], now);
      assert forall x :: x in all <==> x in all[..|all| - 1] || x == last;
      if last.timeoutAt.Some? && last.timeoutAt.value < now then r + [last] else r
  }

  /** The timed-out waiters are a subsequence of the registration list. */
  lemma {:induction false} TimedOutAppend(all: seq<WaitingClient>, now: int, stillWaiting: seq<WaitingClient>)
    ensures TimedOut(all + stillWaiting, now) == TimedOut(all, now) + TimedOut(stillWaiting, now)
  {
    if stillWaiting == [] {
      assert all + stillWaiting == all;
    } else {
      var init := stillWaiting[..|stillWaiting| - 1];
      assert (all + stillWaiting)[..|all + stillWaiting| - 1] == all + init;
      TimedOutAppend(all, now, init);
    }
  }

  /** The object of blocking.py. */
  class BlockingState {
    var waitingByKey: Queues
    var allWaiting: seq<WaitingClient>

    ghost predicate Valid()
      reads this
    {
      Indexed(waitingByKey, allWaiting)
    }

    constructor()
      ensures waitingByKey == map[] && allWaiting == [] && Valid()
    {
      waitingByKey := map[];
      allWaiting := [];
    }

    /** `add_waiting`: `c` joins the end of the global list and of the
        queue of each key it lists. */
    method AddWaiting(c: WaitingClient)
      modifies this
      ensures allWaiting == old(allWaiting) + [c]
      ensures waitingByKey == Enqueued(old(waitingByKey), c, c.keys)
      ensures old(Valid()) ==> Valid()
    {
      if Valid() {
        AddKeepsIndex(waitingByKey, allWaiting, c);
      }
      allWaiting := allWaiting + [c];
      var i := 0;
      while i < |c.keys|
        invariant 0 <= i <= |c.keys|
        invariant allWaiting == old(allWaiting) + [c]
        invariant waitingByKey == Enqueued(old(waitingByKey), c, c.keys[..i])
      {
        var key := c.keys[i];
        assert c.keys[..i + 1][..i] == c.keys[..i];
        waitingByKey := waitingByKey[key := QueueOf(waitingByKey, key) + [c]];
        i := i + 1;
      }
      assert c.keys[..|c.keys|] == c.keys;
    }

    /** `get_waiters_for_key`: the key's queue, which on a valid registry
        holds its waiters in registration order; no entry is created. */
    function GetWaitersForKey(key: string): (r: seq<WaitingClient>)
      reads this
      ensures Valid() ==> r == Expected(allWaiting, key)
      ensures Valid() ==> forall x :: x in r <==> x in allWaiting && key in x.keys
    {
      ExpectedMembers(allWaiting, key);
      QueueOf(waitingByKey, key)
    }

    /** `remove_waiter`: raises when `c` is not registered; otherwise drops
        its first occurrence from the global list and from the queue of
        every key it lists, deleting queues that become empty. */
    method RemoveWaiter(c: WaitingClient) returns (raised: Option<Exception>)
      modifies this
      ensures c !in old(allWaiting) ==>
        raised == Some(ValueError(NotInListMessage)) && allWaiting == old(allWaiting) && waitingByKey == old(waitingByKey)
      ensures c in old(allWaiting) ==> allWaiting == RemoveFirst(old(allWaiting), c)
      ensures c in old(allWaiting) ==> (raised.None? <==> Unqueued(old(waitingByKey), c, c.keys).Some?)
      ensures raised.None? ==> Unqueued(old(waitingByKey), c, c.keys) == Some(waitingByKey)
      ensures raised.Some? ==> raised.value == ValueError(NotInListMessage)
      ensures raised.Some? && c in old(allWaiting) ==>
        exists i :: 0 <= i < |c.keys| && Unqueued(old(waitingByKey), c, c.keys[..i]) == Some(waitingByKey)
          && c.keys[i] in waitingByKey && c !in waitingByKey[c.keys[i]]
      ensures old(Valid()) && c in old(allWaiting) ==> raised.None? && Valid()
    {
      if c !in allWaiting {
        return Some(ValueError(NotInListMessage));
      }
      if Valid() {
        RemoveKeepsIndex(waitingByKey, allWaiting, c);
      }
      allWaiting := RemoveFirst(allWaiting, c);
      var i := 0;
      while i < |c.keys|
        invariant 0 <= i <= |c.keys|
        invariant allWaiting == RemoveFirst(old(allWaiting), c)
        invariant Unqueued(old(waitingByKey), c, c.keys[..i]) == Some(waitingByKey)
      {
        var key := c.keys[i];
        assert c.keys[..i + 1][..i] == c.keys[..i];
        if key in waitingByKey {
          if c !in waitingByKey[key] {
            UnqueuedStaysFailed(old(waitingByKey), c, c.keys, i + 1);
            return Some(ValueError(NotInListMessage));
          }
          var q := RemoveFirst(waitingByKey[key], c);
          if q == [] {
            waitingByKey := waitingByKey - {key};
          } else {
            waitingByKey := waitingByKey[key := q];
          }
        }
        i := i + 1;
      }
      assert c.keys[..|c.keys|] == c.keys;
      return None;
    }

    /** `get_timed_out`: builds the list of expired waiters in a loop and
        changes nothing. */
    method GetTimedOut(now: int) returns (r: seq<WaitingClient>)
      ensures r == TimedOut(allWaiting, now)
    {
      r := [];
      var i := 0;
      while i < |allWaiting|
        invariant 0 <= i <= |allWaiting|
        invariant r == TimedOut(allWaiting[..i], now)
      {
        var client := allWaiting[i];
        assert allWaiting[..i + 1][..i] == allWaiting[..i];
        if client.timeoutAt.Some? && client.timeoutAt.value < now {
          r := r + [client];
        }
        i := i + 1;
      }
      assert allWaiting[..|allWaiting|] == allWaiting;
    }
  }
}

=== FILE: command_handlers.dfy ===
/** The older dictionary dispatcher (app/command_handlers.py): PING and
    ECHO handlers looked up by upper-cased verb. */
module CommandHandlers {
  import opened Wrappers
  import opened Text
  import opened RespTypes

  /** `ping_handler`: PONG, the one message, or the arity error. */
  function Ping(args: seq<Value>): (r: Value)
    ensures |args| == 0 ==> r == Str("PONG")
    ensures |args| == 1 ==> r == args[0]
    ensures |args| > 1 ==> r == Err("wrong number of arguments for 'ping' command")
  {
    if |args| == 0 then Str("PONG")
    else if |args| == 1 then args[0]
    else Err("wrong number of arguments for 'ping' command")
  }

  /** `echo_handler`: the one message, or the arity error. */
  function Echo(args: seq<Value>): (r: Value)
    ensures |args| == 1 ==> r == args[0]
    ensures |args| != 1 ==> r == Err("wrong number of arguments for 'echo' command")
  {
    if |args| != 1 then Err("wrong number of arguments for 'echo' command") else args[0]
  }

  /** PING and ECHO agree on a single message. */
  lemma PingEchoAgreeOnOneArgument(message: Value)
    ensures Ping([message]) == Echo([message]) == message
  {
  }

  /** The entries of `COMMAND_HANDLER`. */
  datatype Handler = PingHandler | EchoHandler

  /** `COMMAND_HANDLER.get`. */
  function HandlerFor(name: string): (r: Option<Handler>)
    ensures r == Some(PingHandler) <==> name == "PING"
    ensures r == Some(EchoHandler) <==> name == "ECHO"
    ensures r.None? <==> name != "PING" && name != "ECHO"
  {
    if name == "PING" then Some(PingHandler)
    else if name == "ECHO" then Some(EchoHandler)
    else None
  }

  function Apply(h: Handler, args: seq<Value>): Value
  {
    match h
    case PingHandler => Ping(args)
    case EchoHandler => Echo(args)
  }

  /** `handle_command`: the handler of the upper-cased verb applied to the
      arguments after it. A verb that is not a string has no `upper`. */
  function HandleCommand(command: seq<Value>): (r: Result<Value, Exception>)
    ensures command == [] ==> r == Success(Err("empty command"))
    ensures |command| > 0 && !command[0].Str? ==> r == Failure(AttributeError)
    ensures |command| > 0 && command[0].Str? && HandlerFor(Upper(command[0].s)).None? ==>
      r == Success(Err("unknown command '" + command[0].s + "'"))
    ensures |command| > 0 && command[0].Str? && HandlerFor(Upper(command[0].s)).Some? ==>
      r == Success(Apply(HandlerFor(Upper(command[0].s)).value, command[1..]))
  {
    if command == [] then Success(Err("empty command"))
    else if !command[0].Str? then Failure(AttributeError)
    else
      match HandlerFor(Upper(command[0].s))
      case None => Success(Err("unknown command '" + command[0].s + "'"))
      case Some(h) => Success(Apply(h, command[1..]))
  }

  /** Any spelling of PING reaches the PING handler with the verb removed. */
  lemma PingInAnyCase(verb: string, args: seq<Value>)
    requires Upper(verb) == "PING"
    ensures HandleCommand([Str(verb)] + args) == Success(Ping(args))
  {
    assert ([Str(verb)] + args)[1..] == args;
  }

  /** Any spelling of ECHO reaches the ECHO handler with the verb removed. */
  lemma EchoInAnyCase(verb: string, args: seq<Value>)
    requires Upper(verb) == "ECHO"
    ensures HandleCommand([Str(verb)] + args) == Success(Echo(args))
  {
    assert ([Str(verb)] + args)[1..] == args;
  }
}

=== FILE: commands.dfy ===
/** Command objects and their registry (app/commands/base.py and
    app/commands/registry.py). A command's own `execute` lies outside the
    registry: dispatch ends by naming the command and the arguments it
    would run on. */
module Commands {
  import opened Wrappers
  import opened Text
  import opened RespTypes

  /** The upper bound of an arity: a number, or `float('inf')`. */
  datatype Bound = Finite(n: int) | Unbounded

  /** `max_args` as an f-string prints it. */
  function BoundText(b: Bound): string
  {
    match b
    case Finite(n) => IntToString(n)
    case Unbounded => "inf"
  }

  /** `min_args <= count <= max_args`. */
  predicate Within(count: nat, min: int, max: Bound)
  {
    min <= count && (max.Unbounded? || count <= max.n)
  }

  /** A command's name and `(min_args, max_args)` arity. */
  datatype Command = Command(name: string, min: int, max: Bound)
  {
    /** `validate`: None when the argument list is absent or its length is
        within the arity, otherwise the message for the violation. */
    function Validate(args: Option<seq<Value>>): (r: Option<string>)
      ensures r.None? <==> args.None? || Within(|args.value|, min, max)
      ensures r.Some? && max == Finite(min) ==>
        r.value == "ERR wrong number of arguments for '" + Lower(name) + "' command"
      ensures r.Some? && max != Finite(min) ==>
        r.value == Lower(name) + " must have minimum " + IntToString(min) + " and maximum " + BoundText(max) + " arguments."
      ensures r.Some? ==> |r.value| > 0
    {
      if args.None? then None
      else if Within(|args.value|, min, max) then None
      else if max == Finite(min) then Some("ERR wrong number of arguments for '" + Lower(name) + "' command")
      else Some(Lower(name) + " must have minimum " + IntToString(min) + " and maximum " + BoundText(max) + " arguments.")
    }
  }

  /** An unbounded arity enforces only the lower bound. */
  lemma UnboundedChecksOnlyMinimum(c: Command, args: seq<Value>)
    requires c.max.Unbounded?
    ensures c.Validate(Some(args)).None? <==> |args| >= c.min
  {
  }

  /** An exact arity rejects every other count with the short message. */
  lemma ExactArityMessage(c: Command, args: seq<Value>)
    requires c.max == Finite(c.min) && |args| != c.min
    ensures c.Validate(Some(args)) == Some("ERR wrong number of arguments for '" + Lower(c.name) + "' command")
  {
  }

  const EmptyCommandMessage: string := "empty command"
  const ExpectedArrayMessage: string := "Invalid command format: expected array"

  /** How `execute` ends: a reply it builds itself, a call of the command's
      own `execute` on the arguments, or an exception. */
  datatype Dispatched = Reply(value: Value) | Run(command: Command, args: seq<Value>) | Raised(error: Exception)

  /** `execute` over the registered commands. The parser never produces a
      simple string or a null array; were one passed, indexing it raises. */
  function Dispatch(commands: map<string, Command>, input: Value): (r: Dispatched)
    ensures input.Nil? ==> r == Reply(Err(EmptyCommandMessage))
    ensures input.Err? ==> r == Reply(input)
    ensures input.Str? || input.Int? ==> r == Reply(Err(ExpectedArrayMessage))
    ensures input == Array([]) ==> r == Raised(IndexError)
    ensures input.Array? && |input.items| > 0 && !input.items[0].Str? ==> r == Raised(AttributeError)
    ensures input.Array? && |input.items| > 0 && input.items[0].Str? && Upper(input.items[0].s) !in commands ==>
      r == Reply(Err("Unknown command '" + input.items[0].s + "'"))
    ensures r.Run? <==>
      input.Array? && |input.items| > 0 && input.items[0].Str? && Upper(input.items[0].s) in commands
      && commands[Upper(input.items[0].s)].Validate(Some(input.items[1..])).None?
    ensures r.Run? ==> r.command == commands[Upper(input.items[0].s)] && r.args == input.items[1..]
    ensures r.Reply? && input.Array? && |input.items| > 0 && input.items[0].Str? && Upper(input.items[0].s) in commands ==>
      r.value == Err(commands[Upper(input.items[0].s)].Validate(Some(input.items[1..])).value)
  {
    match input
    case Nil => Reply(Err(EmptyCommandMessage))
    case Err(_) => Reply(input)
    case Str(_) => Reply(Err(ExpectedArrayMessage))
    case Int(_) => Reply(Err(ExpectedArrayMessage))
    case Simple(_) => Raised(TypeError("'SimpleString' object is not subscriptable"))
    case NullArray => Raised(TypeError("'NullArray' object is not subscriptable"))
    case Array(items) =>
      if |items| == 0 then Raised(IndexError)
      else if !items[0].Str? then Raised(AttributeError)
      else
        var name := Upper(items[0].s);
        var args := items[1..];
        if name !in commands then Reply(Err("Unknown command '" + items[0].s + "'"))
        else
          match commands[name].Validate(Some(args))
          case Some(error) => Reply(Err(error))
          case None => Run(commands[name], args)
  }

  /** The verb's letter case does not matter to a registered command. */
  lemma DispatchIgnoresVerbCase(commands: map<string, Command>, verb: string, other: string, args: seq<Value>)
    requires Upper(verb) == Upper(other) && Upper(verb) in commands
    ensures Dispatch(commands, Array([Str(verb)] + args)) == Dispatch(commands, Array([Str(other)] + args))
  {
    assert ([Str(verb)] + args)[1..] == args == ([Str(other)] + args)[1..];
  }

  /** The registry object: `commands` is the dictionary `register` fills. */
  class CommandRegistry {
    var commands: map<string, Command>

    constructor()
      ensures commands == map[]
    {
      commands := map[];
    }

    /** `register`: stores the command under its upper-cased name,
        replacing any earlier one. */
    method Register(command: Command)
      modifies this
      ensures commands == old(commands)[Upper(command.name) := command]
    {
      commands := commands[Upper(command.name) := command];
    }

    /** `get`: the exact name, without case folding. */
    function Get(name: string): (r: Option<Command>)
      reads this
      ensures r.Some? <==> name in commands
      ensures r.Some? ==> r.value == commands[name]
    {
      if name in commands then Some(commands[name]) else None
    }

    /** `execute`: a read of the registry that changes nothing. */
    method Execute(input: Value) returns (r: Dispatched)
      ensures r == Dispatch(commands, input)
    {
      if input.Nil? {
        return Reply(Err(EmptyCommandMessage));
      }
      if input.Err? {
        return Reply(input);
      }
      if input.Str? || input.Int? {
        return Reply(Err(ExpectedArrayMessage));
      }
      if input.Simple? {
        return Raised(TypeError("'SimpleString' object is not subscriptable"));
      }
      if input.NullArray? {
        return Raised(TypeError("'NullArray' object is not subscriptable"));
      }
      if |input.items| == 0 {
        return Raised(IndexError);
      }
      if !input.items[0].Str? {
        return Raised(AttributeError);
      }
      var name := Upper(input.items[0].s);
      var args := input.items[1..];
      var command := Get(name);
      if command.None? {
        return Reply(Err("Unknown command '" + input.items[0].s + "'"));
      }
      var error := command.value.Validate(Some(args));
      if error.Some? {
        return Reply(Err(error.value));
      }
      return Run(command.value, args);
    }
  }

  /** A registered command is found by `get` only under its upper-cased
      name, while `execute` reaches it from any spelling. */
  lemma RegisteredLookup(commands: map<string, Command>, c: Command, verb: string, args: seq<Value>)
    requires Upper(verb) == Upper(c.name)
    requires c.Validate(Some(args)).None?
    ensures Dispatch(commands[Upper(c.name) := c], Array([Str(verb)] + args)) == Run(c, args)
  {
    assert ([Str(verb)] + args)[1..] == args;
  }
}

=== FILE: db.dfy ===
/** The keyspace (app/data/db.py): a dictionary from keys to typed values
    with an optional expiry instant. Expiry is lazy: a read that finds an
    expired value deletes it and reports nothing. The clock is the
    parameter `now`, an instant on the same scale as the expiries. */
module Db {
  import opened Wrappers
  import opened StreamEntries

  /** The payload of a value: a Python str, a list of str, or a stream
      (its entries; the Stream object is held by value here). */
  datatype Data =
    | StrVal(s: string)
    | ListVal(items: seq<string>)
    | StreamVal(entries: seq<StreamEntry>)

  /** `RedisValue`. Every place that builds one pairs the type name with
      the matching payload, so the type name is derived from the payload. */
  datatype RedisValue = RedisValue(data: Data, expiry: Option<int>)
  {
    /** `dtype`. */
    function DType(): string
    {
      match data
      case StrVal(_) => "string"
      case ListVal(_) => "list"
      case StreamVal(_) => "stream"
    }
  }

  /** Python truthiness of the payload: an empty str, list or stream
      (a Stream has `__len__`) is false. */
  predicate Truthy(d: Data)
  {
    match d
    case StrVal(s) => |s| > 0
    case ListVal(items) => |items| > 0
    case StreamVal(entries) => |entries| > 0
  }

  type Store = map<string, RedisValue>

  /** `val.expiry and val.expiry < datetime.now()`. */
  predicate Expired(v: RedisValue, now: int)
  {
    v.expiry.Some? && v.expiry.value < now
  }

  /** What `get` returns: the stored value unless it has expired. */
  function Live(store: Store, key: string, now: int): (r: Option<RedisValue>)
    ensures r.Some? <==> key in store && !Expired(store[key], now)
    ensures r.Some? ==> r.value == store[key]
  {
    if key in store && !Expired(store[key], now) then Some(store[key]) else None
  }

  /** The store after `get`: an expired value under `key` is deleted. */
  function Swept(store: Store, key: string, now: int): (r: Store)
    ensures key in store && Expired(store[key], now) ==> r == store - {key}
    ensures !(key in store && Expired(store[key], now)) ==> r == store
  {
    if key in store && Expired(store[key], now) then store - {key} else store
  }

  /** A read touches no key but its own. */
  lemma SweptTouchesOnlyKey(store: Store, key: string, now: int, other: string)
    requires other != key
    ensures other in Swept(store, key, now) <==> other in store
    ensures other in store ==> Swept(store, key, now)[other] == store[other]
  {
  }

  /** Reading twice is reading once: the second read sees the same value
      and deletes nothing more. */
  lemma ReadIsIdempotent(store: Store, key: string, now: int)
    ensures Live(Swept(store, key, now), key, now) == Live(store, key, now)
    ensures Swept(Swept(store, key, now), key, now) == Swept(store, key, now)
  {
  }

  /** A read changes nothing a later read can see: every key's live value
      is the same before and after it. */
  lemma SweptKeepsLive(store: Store, key: string, now: int)
    ensures forall k :: Live(Swept(store, key, now), k, now) == Live(store, k, now)
  {
  }

  /** An expired key is gone after a read; a value without expiry is never
      reported expired, whatever the clock says. */
  lemma ExpiryIsLazy(store: Store, key: string, now: int)
    ensures key in store && Expired(store[key], now) ==>
      Live(store, key, now).None? && key !in Swept(store, key, now)
    ensures key in store && store[key].expiry.None? ==>
      Live(store, key, now) == Some(store[key]) && Swept(store, key, now) == store
  {
  }

  /** After `set`, a read returns the new value unless it is already expired. */
  lemma ReadAfterSet(store: Store, key: string, v: RedisValue, now: int)
    ensures Live(store[key := v], key, now) == if Expired(v, now) then None else Some(v)
  {
  }

  /** The database object: `store` is the dictionary it mutates. */
  class DataBase {
    var store: Store

    constructor()
      ensures store == map[]
    {
      store := map[];
    }

    /** `get`: the live value, deleting the key first when it has expired. */
    method Get(key: string, now: int) returns (r: Option<RedisValue>)
      modifies this
      ensures r == Live(old(store), key, now)
      ensures store == Swept(old(store), key, now)
    {
      if key in store && Expired(store[key], now) {
        var _ := Delete(key);
        return None;
      }
      if key in store {
        return Some(store[key]);
      }
      return None;
    }

    /** `set`: insert or replace, type and expiry included. */
    method Set(key: string, value: RedisValue)
      modifies this
      ensures store == old(store)[key := value]
    {
      store := store[key := value];
    }

    /** `exists`: `get(key) is not None`, with get's deletion. */
    method Exists(key: string, now: int) returns (b: bool)
      modifies this
      ensures b <==> Live(old(store), key, now).Some?
      ensures store == Swept(old(store), key, now)
    {
      var v := Get(key, now);
      return v.Some?;
    }

    /** `delete`: true iff the key was stored; it is absent afterwards. */
    method Delete(key: string) returns (b: bool)
      modifies this
      ensures b <==> key in old(store)
      ensures store == old(store) - {key}
    {
      if key in store {
        store := store - {key};
        return true;
      }
      return false;
    }

    /** `get_type`: the type name of the live value, if any. */
    method GetType(key: string, now: int) returns (t: Option<string>)
      modifies this
      ensures t == (match Live(old(store), key, now) case None => None case Some(v) => Some(v.DType()))
      ensures store == Swept(old(store), key, now)
    {
      var v := Get(key, now);
      if v.Some? {
        return Some(v.value.DType());
      }
      return None;
    }
  }
}

=== FILE: list_ops.dfy ===
/** List operations over the keyspace (app/data/list_helper.py). Each
    operation is specified by a function from the store before it to its
    reply and the store after it; `ListOps` is the object that performs
    them on a `DataBase`. */
module ListOps {
  import opened Wrappers
  import opened Text
  import opened Db

  function WrongType(key: string): Exception
  {
    TypeError("WRONGTYPE " + key + " is not a list")
  }

  /** `values[::-1]`. */
  function Reversed(s: seq<string>): (r: seq<string>)
    ensures |r| == |s|
    ensures forall i :: 0 <= i < |s| ==> r[i] == s[|s| - 1 - i]
  {
    if s == [] then [] else Reversed(s[1..]) + [s[0]]
  }

  /** `_get_list` (and the lookup half of `_get_or_create`): the live list
      value, None for an absent or expired key, TypeError for another kind. */
  function ListAt(store: Store, key: string, now: int): (r: Result<Option<RedisValue>, Exception>)
    ensures r.Failure? <==> Live(store, key, now).Some? && !Live(store, key, now).value.data.ListVal?
    ensures r.Failure? ==> r.error == WrongType(key)
    ensures r.Success? ==> r.value == Live(store, key, now)
  {
    match Live(store, key, now)
    case None => Success(None)
    case Some(v) => if v.data.ListVal? then Success(Some(v)) else Failure(WrongType(key))
  }

  /** The items a list operation sees: none for an absent key. */
  function ItemsOf(found: Option<RedisValue>): seq<string>
  {
    if found.Some? && found.value.data.ListVal? then found.value.data.items else []
  }

  /** The value a push leaves under the key: the new items, with the old
      expiry kept (a freshly created list has none). */
  function Rewritten(found: Option<RedisValue>, items: seq<string>): RedisValue
  {
    match found
    case None => RedisValue(ListVal(items), None)
    case Some(v) => v.(data := ListVal(items))
  }

  /** `lpush`: the store afterwards. */
  function LPushed(store: Store, key: string, values: seq<string>, now: int): Result<Store, Exception>
  {
    match ListAt(store, key, now)
    case Failure(e) => Failure(e)
    case Success(found) =>
      Success(Swept(store, key, now)[key := Rewritten(found, Reversed(values) + ItemsOf(found))])
  }

  /** `rpush`: the store afterwards. */
  function RPushed(store: Store, key: string, values: seq<string>, now: int): Result<Store, Exception>
  {
    match ListAt(store, key, now)
    case Failure(e) => Failure(e)
    case Success(found) =>
      Success(Swept(store, key, now)[key := Rewritten(found, ItemsOf(found) + values)])
  }

  /** What `lpop` returns: None, a single str (count 1) or a list. */
  datatype Popped = NoItems | Item(item: string) | Items(items: seq<string>)

  /** `lpop`: the reply and the store afterwards. */
  function LPopped(store: Store, key: string, count: int, now: int): Result<(Popped, Store), Exception>
  {
    match ListAt(store, key, now)
    case Failure(e) => Failure(e)
    case Success(None) => Success((NoItems, Swept(store, key, now)))
    case Success(Some(v)) =>
      var items := v.data.items;
      if |items| == 0 then Success((NoItems, Swept(store, key, now)))
      else if count == 1 then
        Success((Item(items[0]), Swept(store, key, now)[key := v.(data := ListVal(items[1..]))]))
      else
        Success((Items(PySlice(items, 0, count)), Swept(store, key, now)[key := v.(data := ListVal(PySuffix(items, count)))]))
  }

  /** `lrange`'s index normalisation: a negative index i becomes max(0, i + len). */
  function Normalized(i: int, len: nat): (k: int)
    ensures i >= 0 ==> k == i
    ensures i < 0 ==> k >= 0 && k >= i + len && (k == 0 || k == i + len)
  {
    if i < 0 then (if i + len < 0 then 0 else i + len) else i
  }

  /** `lrange`: `data[start : stop + 1]` after normalisation. */
  function LRanged(store: Store, key: string, start: int, stop: int, now: int): Result<seq<string>, Exception>
  {
    match ListAt(store, key, now)
    case Failure(e) => Failure(e)
    case Success(None) => Success([])
    case Success(Some(v)) =>
      var data := v.data.items;
      Success(PySlice(data, Normalized(start, |data|), Normalized(stop, |data|) + 1))
  }

  // ---------------------------------------------------------------------
  // Properties

  /** A push to a key holding another kind raises and changes nothing. */
  lemma WrongTypeChangesNothing(store: Store, key: string, values: seq<string>, count: int, now: int)
    requires ListAt(store, key, now).Failure?
    ensures LPushed(store, key, values, now) == Failure(WrongType(key))
    ensures RPushed(store, key, values, now) == Failure(WrongType(key))
    ensures LPopped(store, key, count, now) == Failure(WrongType(key))
    ensures Swept(store, key, now) == store
  {
  }

  /** lpush puts the values, reversed, in front of the old items; pushing
      to an absent key creates a list without expiry; other keys keep
      their values. */
  lemma LPushPrepends(store: Store, key: string, values: seq<string>, now: int)
    requires ListAt(store, key, now).Success?
    ensures LPushed(store, key, values, now).Success?
    ensures var after := LPushed(store, key, values, now).value;
      key in after && after[key].data == ListVal(Reversed(values) + ItemsOf(Live(store, key, now)))
      && (Live(store, key, now).None? ==> after[key].DType() == "list" && after[key].expiry == None)
      && (Live(store, key, now).Some? ==> after[key].expiry == store[key].expiry)
      && (forall k :: k != key ==> (k in after <==> k in store) && (k in store ==> after[k] == store[k]))
  {
  }

  /** rpush puts the values after the old items. */
  lemma RPushAppends(store: Store, key: string, values: seq<string>, now: int)
    requires ListAt(store, key, now).Success?
    ensures RPushed(store, key, values, now).Success?
    ensures var after := RPushed(store, key, values, now).value;
      key in after && after[key].data == ListVal(ItemsOf(Live(store, key, now)) + values)
      && (Live(store, key, now).None? ==> after[key].DType() == "list" && after[key].expiry == None)
      && (forall k :: k != key ==> (k in after <==> k in store) && (k in store ==> after[k] == store[k]))
  {
  }

  /** lpop loses nothing: what it returns followed by what it leaves is the
      old list, whatever the count (a count of 1 returns the bare head). */
  lemma LPopConserves(store: Store, key: string, count: int, now: int)
    requires ListAt(store, key, now).Success? && ListAt(store, key, now).value.Some?
    ensures var old_ := ItemsOf(Live(store, key, now));
      var (popped, after) := LPopped(store, key, count, now).value;
      match popped
      case NoItems => old_ == [] && after == store
      case Item(x) => count == 1 && key in after && after[key].data.ListVal? && [x] + after[key].data.items == old_
      case Items(xs) => count != 1 && key in after && after[key].data.ListVal? && xs + after[key].data.items == old_
  {
    var items := ItemsOf(Live(store, key, now));
    if |items| > 0 && count != 1 {
      var k := PyIndex(count, |items|);
      assert PySlice(items, 0, count) == items[..k];
      assert items[..k] + items[k..] == items;
    }
  }

  /** lpop with count n (1 < n <= len) returns exactly the first n items. */
  lemma LPopPrefix(store: Store, key: string, count: int, now: int)
    requires ListAt(store, key, now).Success? && ListAt(store, key, now).value.Some?
    requires 1 < count <= |ItemsOf(Live(store, key, now))|
    ensures LPopped(store, key, count, now).value.0 == Items(ItemsOf(Live(store, key, now))[..count])
  {
  }

  /** `lrange key 0 -1` after an lpush is the pushed values, reversed, in
      front of the old list. */
  lemma LPushThenRangeAll(store: Store, key: string, values: seq<string>, now: int)
    requires ListAt(store, key, now).Success?
    ensures LRanged(LPushed(store, key, values, now).value, key, 0, -1, now)
      == Success(Reversed(values) + ItemsOf(Live(store, key, now)))
  {
    var after := LPushed(store, key, values, now).value;
    var found := ListAt(store, key, now).value;
    var all := Reversed(values) + ItemsOf(found);
    assert after[key] == Rewritten(found, all);
    assert !Expired(after[key], now);
    assert Live(after, key, now) == Some(after[key]);
    assert PySlice(all, 0, Normalized(-1, |all|) + 1) == all;
  }

  /** lrange returns [] when the normalised start is past the end or past
      the normalised stop; otherwise a contiguous run of the list. */
  lemma LRangeShape(store: Store, key: string, start: int, stop: int, now: int)
    requires ListAt(store, key, now).Success?
    ensures var data := ItemsOf(Live(store, key, now));
      var lo := Normalized(start, |data|);
      var hi := Normalized(stop, |data|);
      var r := LRanged(store, key, start, stop, now).value;
      (lo >= |data| || lo > hi ==> r == [])
      && (0 <= lo <= hi < |data| ==> r == data[lo..hi + 1])
      && (0 <= lo < |data| && |data| <= hi ==> r == data[lo..])
  {
  }

  /** The object of list_helper.py, working on a shared database. */
  class ListOps {
    const database: DataBase

    constructor(database: DataBase)
      ensures this.database == database
    {
      this.database := database;
    }

    /** `_get_list`. */
    method GetList(key: string, now: int) returns (r: Result<Option<RedisValue>, Exception>)
      modifies database
      ensures r == ListAt(old(database.store), key, now)
      ensures database.store == Swept(old(database.store), key, now)
    {
      var v := database.Get(key, now);
      if v.None? {
        return Success(None);
      }
      if !v.value.data.ListVal? {
        return Failure(WrongType(key));
      }
      return Success(v);
    }

    /** `_get_or_create`: an absent key gets a new empty list. */
    method GetOrCreate(key: string, now: int) returns (r: Result<RedisValue, Exception>)
      modifies database
      ensures ListAt(old(database.store), key, now).Failure? ==>
        r == Failure(WrongType(key)) && database.store == old(database.store)
      ensures ListAt(old(database.store), key, now) == Success(None) ==>
        r == Success(RedisValue(ListVal([]), None))
        && database.store == Swept(old(database.store), key, now)[key := RedisValue(ListVal([]), None)]
      ensures ListAt(old(database.store), key, now).Success? && ListAt(old(database.store), key, now).value.Some? ==>
        r == Success(ListAt(old(database.store), key, now).value.value)
        && database.store == old(database.store)
    {
      var found := GetList(key, now);
      if found.Failure? {
        return Failure(found.error);
      }
      if found.value.None? {
        var created := RedisValue(ListVal([]), None);
        database.Set(key, created);
        return Success(created);
      }
      return Success(found.value.value);
    }

    /** `lpush`: the new length, or the WRONGTYPE TypeError. */
    method LPush(key: string, values: seq<string>, now: int) returns (r: Result<nat, Exception>)
      modifies database
      ensures r.Failure? <==> LPushed(old(database.store), key, values, now).Failure?
      ensures r.Failure? ==> r.error == WrongType(key) && database.store == old(database.store)
      ensures r.Success? ==> (database.store == LPushed(old(database.store), key, values, now).value
        && key in database.store && r.value == |database.store[key].data.items|)
    {
      var v := GetOrCreate(key, now);
      if v.Failure? {
        return Failure(v.error);
      }
      var data := Reversed(values) + v.value.data.items;
      database.Set(key, v.value.(data := ListVal(data)));
      return Success(|data|);
    }

    /** `rpush`: the new length, or the WRONGTYPE TypeError. */
    method RPush(key: string, values: seq<string>, now: int) returns (r: Result<nat, Exception>)
      modifies database
      ensures r.Failure? <==> RPushed(old(database.store), key, values, now).Failure?
      ensures r.Failure? ==> r.error == WrongType(key) && database.store == old(database.store)
      ensures r.Success? ==> (database.store == RPushed(old(database.store), key, values, now).value
        && key in database.store && r.value == |database.store[key].data.items|)
    {
      var v := GetOrCreate(key, now);
      if v.Failure? {
        return Failure(v.error);
      }
      var data := v.value.data.items + values;
      database.Set(key, v.value.(data := ListVal(data)));
      return Success(|data|);
    }

    /** `lpop`. */
    method LPop(key: string, count: int, now: int) returns (r: Result<Popped, Exception>)
      modifies database
      ensures r.Failure? <==> LPopped(old(database.store), key, count, now).Failure?
      ensures r.Failure? ==> r.error == WrongType(key) && database.store == old(database.store)
      ensures r.Success? ==> (r.value, database.store) == LPopped(old(database.store), key, count, now).value
    {
      var found := GetList(key, now);
      if found.Failure? {
        return Failure(found.error);
      }
      if found.value.None? || |found.value.value.data.items| == 0 {
        return Success(NoItems);
      }
      var v := found.value.value;
      var items := v.data.items;
      if count == 1 {
        database.Set(key, v.(data := ListVal(items[1..])));
        return Success(Item(items[0]));
      }
      var result := PySlice(items, 0, count);
      database.Set(key, v.(data := ListVal(PySuffix(items, count))));
      return Success(Items(result));
    }

    /** `lrange`: a read, so only the lazy deletion can change the store. */
    method LRange(key: string, start: int, stop: int, now: int) returns (r: Result<seq<string>, Exception>)
      modifies database
      ensures r == LRanged(old(database.store), key, start, stop, now)
      ensures database.store == Swept(old(database.store), key, now)
    {
      var found := GetList(key, now);
      if found.Failure? {
        return Failure(found.error);
      }
      if found.value.None? {
        return Success([]);
      }
      var data := found.value.value.data.items;
      var lo := start;
      var hi := stop;
      if lo < 0 {
        lo := if lo + |data| < 0 then 0 else lo + |data|;
      }
      if hi < 0 {
        hi := if hi + |data| < 0 then 0 else hi + |data|;
      }
      return Success(PySlice(data, lo, hi + 1));
    }

    /** `llen`: 0 for an absent key. */
    method LLen(key: string, now: int) returns (r: Result<nat, Exception>)
      modifies database
      ensures r.Success? <==> ListAt(old(database.store), key, now).Success?
      ensures r.Success? ==> r.value == |ItemsOf(Live(old(database.store), key, now))|
      ensures database.store == Swept(old(database.store), key, now)
    {
      var found := GetList(key, now);
      if found.Failure? {
        return Failure(found.error);
      }
      return Success(if found.value.Some? then |found.value.value.data.items| else 0);
    }

    /** `has_data`: the list exists and is non-empty. */
    method HasData(key: string, now: int) returns (r: Result<bool, Exception>)
      modifies database
      ensures r.Success? <==> ListAt(old(database.store), key, now).Success?
      ensures r.Success? ==> (r.value <==> |ItemsOf(Live(old(database.store), key, now))| > 0)
      ensures database.store == Swept(old(database.store), key, now)
    {
      var found := GetList(key, now);
      if found.Failure? {
        return Failure(found.error);
      }
      return Success(found.value.Some? && |found.value.value.data.items| > 0);
    }
  }
}

=== FILE: lists.dfy ===
/** The legacy list registry (app/data/lists.py): a dictionary of named
    lists that creates a missing list on first access. */
module Lists {
  import opened Text

  /** The dictionary after `__getitem__`: a missing name now maps to []. */
  function Vivified(lists: map<string, seq<string>>, name: string): (r: map<string, seq<string>>)
    ensures name in r && r[name] == DictGet(lists, name, [])
    ensures r.Keys == lists.Keys + {name}
    ensures forall k :: k in lists ==> r[k] == lists[k]
  {
    if name in lists then lists else lists[name := []]
  }

  /** The dictionary after `__setitem__`: the values are appended to the
      (possibly new) list under `name`. */
  function Extended(lists: map<string, seq<string>>, name: string, values: seq<string>)
    : (r: map<string, seq<string>>)
    ensures name in r && r[name] == DictGet(lists, name, []) + values
    ensures r.Keys == lists.Keys + {name}
    ensures forall k :: k in lists && k != name ==> r[k] == lists[k]
  {
    var created := Vivified(lists, name);
    created[name := created[name] + values]
  }

  /** A lookup changes nothing once the name exists: looking up twice is
      looking up once. */
  lemma LookupIsIdempotent(lists: map<string, seq<string>>, name: string)
    ensures Vivified(Vivified(lists, name), name) == Vivified(lists, name)
    ensures name in lists ==> Vivified(lists, name) == lists
  {
  }

  /** Assignments accumulate: two extensions are one extension by the
      concatenation, so `l[n] = a; l[n] = b` leaves the old list followed by `a + b`. */
  lemma ExtensionsAccumulate(lists: map<string, seq<string>>, name: string, a: seq<string>, b: seq<string>)
    ensures Extended(Extended(lists, name, a), name, b) == Extended(lists, name, a + b)
  {
    var once := Extended(lists, name, a + b);
    var twice := Extended(Extended(lists, name, a), name, b);
    assert twice[name] == DictGet(lists, name, []) + a + b == once[name];
    assert twice.Keys == once.Keys;
    assert forall k :: k in once ==> once[k] == twice[k];
  }

  /** The object of lists.py. */
  class Lists {
    /** The `array` dictionary of lists.py. */
    var lists: map<string, seq<string>>

    constructor()
      ensures lists == map[]
    {
      lists := map[];
    }

    /** `__getitem__`: the stored list, created empty when missing. */
    method GetItem(item: string) returns (r: seq<string>)
      modifies this
      ensures r == DictGet(old(lists), item, [])
      ensures lists == Vivified(old(lists), item)
    {
      if item !in lists {
        lists := lists[item := []];
      }
      r := lists[item];
    }

    /** `__setitem__`: extends the list in place rather than replacing it. */
    method SetItem(listName: string, listValues: seq<string>)
      modifies this
      ensures lists == Extended(old(lists), listName, listValues)
    {
      var list := GetItem(listName);
      lists := lists[listName := list + listValues];
    }
  }
}

=== FILE: resp_encoder.dfy ===
/** The RESP2 encoder of app/resp_encoder.py. `Encode` is the encoder the
    server evidently needs (every value it hands over gets a wire form);
    `EncodeAsWritten` is `encode_resp` as it stands, which raises on the
    two wrapper types. */
module RespEncoder {
  import opened Wrappers
  import opened Text
  import opened RespTypes

  /** `encode_simple_string`: `+s\r\n`. */
  function EncodeSimpleString(s: string): string
  {
    "+" + s + CRLF
  }

  /** `encode_error`: `-ERR message\r\n`. */
  function EncodeError(message: string): string
  {
    "-ERR " + message + CRLF
  }

  /** `encode_integer`: `:n\r\n`. */
  function EncodeInteger(n: int): string
  {
    ":" + IntToString(n) + CRLF
  }

  /** `encode_bulk_string`: `$len\r\npayload\r\n`, `$-1\r\n` for None. */
  function EncodeBulkString(s: Option<string>): string
  {
    match s
    case None => "$-1\r\n"
    case Some(text) => "$" + IntToString(|text|) + CRLF + text + CRLF
  }

  /** `encode_array(None)`. */
  const NullArrayEncoding: string := "*-1\r\n"

  /** The `str(type(value))` text of the ValueError `encode_resp` raises
      for a NullArray marker. */
  const NullArrayTypeError: string := "Cannot encode type: <class 'app.types.NullArray'>"

  /** The type byte each encoding starts with. */
  function TypeByte(v: Value): char
  {
    match v
    case Simple(_) => '+'
    case Str(_) => '$'
    case Nil => '$'
    case Int(_) => ':'
    case Array(_) => '*'
    case NullArray => '*'
    case Err(_) => '-'
  }

  /** The wire form of every value: SimpleString as `+text\r\n` and the
      NullArray marker as the null array `*-1\r\n`. */
  function Encode(v: Value): (r: string)
    decreases v, 1
    ensures |r| >= 3 && r[0] == TypeByte(v)
    ensures r[|r| - 2..] == CRLF
  {
    match v
    case Simple(text) => EncodeSimpleString(text)
    case Str(s) => EncodeBulkString(Some(s))
    case Int(n) => EncodeInteger(n)
    case Array(items) => EncodeArray(items)
    case Err(message) => EncodeError(message)
    case Nil => EncodeBulkString(None)
    case NullArray => NullArrayEncoding
  }

  /** `encode_array` on a list: the count line, then each item in order. */
  function EncodeArray(items: seq<Value>): (r: string)
    decreases items, 1
    ensures |r| >= 3 && r[0] == '*' && r[|r| - 2..] == CRLF
  {
    var header := "*" + IntToString(|items|) + CRLF;
    var body := EncodeItems(items);
    header + body
  }

  function EncodeItems(items: seq<Value>): (r: string)
    decreases items, 0
    ensures |items| > 0 ==> |r| >= 3 && r[|r| - 2..] == CRLF
  {
    if items == [] then ""
    else
      var head := Encode(items[0]);
      var tail := EncodeItems(items[1..]);
      head + tail
  }

  // ---------------------------------------------------------------------
  // encode_resp as written

  /** `encode_resp` as it stands: a SimpleString reaches `value.s`, which
      the dataclass does not have (its field is `string`), and a NullArray
      marker falls through to the final ValueError. Elsewhere it agrees
      with `Encode`. */
  function EncodeAsWritten(v: Value): (r: Result<string, Exception>)
    decreases v, 1
    ensures r.Success? <==> Decoded(v)
    ensures r.Success? ==> r.value == Encode(v)
    ensures r.Failure? ==> r.error == AttributeError || r.error == ValueError(NullArrayTypeError)
  {
    match v
    case Simple(_) => Failure(AttributeError)
    case Str(s) => Success(EncodeBulkString(Some(s)))
    case Int(n) => Success(EncodeInteger(n))
    case Array(items) =>
      var body := EncodeItemsAsWritten(items);
      if body.Failure? then Failure(body.error)
      else
        assert Encode(v) == "*" + IntToString(|items|) + CRLF + body.value;
        Success("*" + IntToString(|items|) + CRLF + body.value)
    case Err(message) => Success(EncodeError(message))
    case Nil => Success(EncodeBulkString(None))
    case NullArray => Failure(ValueError(NullArrayTypeError))
  }

  function EncodeItemsAsWritten(items: seq<Value>): (r: Result<string, Exception>)
    decreases items, 0
    ensures r.Success? <==> forall i :: 0 <= i < |items| ==> Decoded(items[i])
    ensures r.Success? ==> r.value == EncodeItems(items)
    ensures r.Failure? ==> r.error == AttributeError || r.error == ValueError(NullArrayTypeError)
  {
    if items == [] then Success("")
    else
      match EncodeAsWritten(items[0])
      case Failure(e) => Failure(e)
      case Success(head) =>
        match EncodeItemsAsWritten(items[1..])
        case Failure(e) =>
          Failure(e)
        case Success(tail) =>
          assert forall i :: 1 <= i < |items| ==> items[i] == items[1..][i - 1];
          Success(head + tail)
  }
}

=== FILE: resp_laws.dfy ===
/** Laws of the RESP2 codec: what the bulk-string and array parsers do on
    each kind of header, the depth limit, and the round trip
    parse(encode(v)) for every value the encoder accepts. */
module RespLaws {
  import opened Wrappers
  import opened Text
  import opened RespTypes
  import opened RespParser
  import opened RespEncoder

  // ---------------------------------------------------------------------
  // Bulk strings

  /** `$-1\r\n` is None and consumes only the header. */
  lemma NullBulkString(rest: string)
    ensures ParseBulkString("$-1\r\n" + rest) == Success(Parsed(Nil, rest))
  {
    FramedFindsCrlf("$-1\r\n" + rest, '$', "-1", rest);
    ParseIntOfIntToString(-1);
  }

  /** `$0\r\n` is the empty string exactly when another CRLF follows. */
  lemma EmptyBulkString(tail: string)
    ensures ParseBulkString("$0\r\n" + tail) ==
      if |tail| >= 2 && tail[..2] == CRLF then Success(Parsed(Str(""), tail[2..]))
      else Failure(MissingTerminator)
  {
    var data := "$0\r\n" + tail;
    FramedFindsCrlf(data, '$', "0", tail);
    ParseIntOfIntToString(0);
    assert data[4..] == tail;
  }

  /** `$n` with n >= 1 takes exactly n payload bytes and then demands CRLF:
      short input and a wrong terminator are errors. */
  lemma PayloadBulkString(n: int, tail: string)
    requires n >= 1
    ensures ParseBulkString("$" + IntToString(n) + CRLF + tail) ==
      if |tail| < n + 2 then Failure(Truncated)
      else if tail[n..n + 2] != CRLF then Failure(MissingTerminator)
      else Success(Parsed(Str(tail[..n]), tail[n + 2..]))
  {
    var h := IntToString(n);
    var data := "$" + h + CRLF + tail;
    var e := 1 + |h|;
    assert FindCrlf(data) == Some(e) && data[1..e] == h && data[e + 2..] == tail by {
      NoCrlfOfIntToString(n);
      assert [data[0]] == "$";
      FramedFindsCrlf(data, '$', h, tail);
    }
    assert ParseInt(data[1..e]) == Some(n) by {
      ParseIntOfIntToString(n);
    }
    BulkAfterHeader(data, e, n, tail);
  }

  /** The bulk parser once the header line `$n` (n >= 1) has been read and
      `tail` follows it. */
  lemma BulkAfterHeader(data: string, e: nat, n: int, tail: string)
    requires |data| > 0 && data[0] == '$' && FindCrlf(data) == Some(e)
    requires 1 <= e && ParseInt(data[1..e]) == Some(n) && n >= 1
    requires e + 2 <= |data| && data[e + 2..] == tail
    ensures ParseBulkString(data) ==
      if |tail| < n + 2 then Failure(Truncated)
      else if tail[n..n + 2] != CRLF then Failure(MissingTerminator)
      else Success(Parsed(Str(tail[..n]), tail[n + 2..]))
  {
    BulkHeader(data, e, n);
    PayloadOfTail(data, e + 2, n, tail);
  }

  /** After a header `$n` with n >= 1, the payload step decides. */
  lemma BulkHeader(data: string, e: nat, n: int)
    requires |data| > 0 && data[0] == '$' && FindCrlf(data) == Some(e)
    requires 1 <= e && ParseInt(data[1..e]) == Some(n) && n >= 1
    ensures e + 2 <= |data| && ParseBulkString(data) == BulkPayload(data, e + 2, n)
  {
  }

  /** The payload step reads `n` bytes and a CRLF from what follows the header. */
  lemma PayloadOfTail(data: string, k: nat, n: int, tail: string)
    requires k <= |data| && data[k..] == tail && n >= 1
    ensures BulkPayload(data, k, n) ==
      if |tail| < n + 2 then Failure(Truncated)
      else if tail[n..n + 2] != CRLF then Failure(MissingTerminator)
      else Success(Parsed(Str(tail[..n]), tail[n + 2..]))
  {
    PayloadSlices(data, k, n);
    if |tail| >= n + 2 {
      SliceOfSuffix(data, k, n, n + 2);
      PrefixOfSuffix(data, k, n);
      DropOfSuffix(data, k, n + 2);
    }
  }

  /** Within the input, the Python slices of the payload step are plain slices. */
  lemma PayloadSlices(data: string, k: nat, n: int)
    requires k <= |data| && n >= 1
    ensures BulkPayload(data, k, n) ==
      if |data| < k + n + 2 then Failure(Truncated)
      else if data[k + n..k + n + 2] != CRLF then Failure(MissingTerminator)
      else Success(Parsed(Str(data[k..k + n]), data[k + n + 2..]))
  {
  }

  /** Slices of a suffix are slices of the whole, shifted. */
  lemma SliceOfSuffix(data: string, k: nat, a: nat, b: nat)
    requires a <= b && k + b <= |data|
    ensures data[k..][a..b] == data[k + a..k + b]
  {
  }

  lemma PrefixOfSuffix(data: string, k: nat, b: nat)
    requires k + b <= |data|
    ensures data[k..][..b] == data[k..k + b]
  {
  }

  lemma DropOfSuffix(data: string, k: nat, a: nat)
    requires k + a <= |data|
    ensures data[k..][a..] == data[k + a..]
  {
  }

  /** A length below -1 is not rejected: with `$-2` the terminator check
      reads the header's own CRLF and the payload slice is empty. */
  lemma NegativeBulkLength(rest: string)
    ensures ParseBulkString("$-2\r\n" + rest) == Success(Parsed(Str(""), rest))
  {
    var data := "$-2\r\n" + rest;
    FramedFindsCrlf(data, '$', "-2", rest);
    ParseIntOfIntToString(-2);
    assert PySlice(data, 3, 5) == CRLF;
    assert PySuffix(data, 5) == rest;
  }

  // ---------------------------------------------------------------------
  // Arrays and nesting

  /** `*-1\r\n` is None and `*0\r\n` is the empty list, within the depth limit. */
  lemma NullAndEmptyArray(rest: string, depth: nat, maxDepth: int)
    requires depth <= maxDepth
    ensures ParseResp("*-1\r\n" + rest, depth, maxDepth) == Success(Parsed(Nil, rest))
    ensures ParseResp("*0\r\n" + rest, depth, maxDepth) == Success(Parsed(Array([]), rest))
  {
    FramedFindsCrlf("*-1\r\n" + rest, '*', "-1", rest);
    ParseIntOfIntToString(-1);
    FramedFindsCrlf("*0\r\n" + rest, '*', "0", rest);
    ParseIntOfIntToString(0);
  }

  /** An array header with no elements after it runs out of input. */
  lemma ArrayRunsOut(n: int, depth: nat, maxDepth: int)
    requires n >= 1 && depth <= maxDepth
    ensures ParseResp("*" + IntToString(n) + CRLF, depth, maxDepth) == Failure(Incomplete)
  {
    assert "*" + IntToString(n) + CRLF + "" == "*" + IntToString(n) + CRLF;
    ArrayHeader(n, "", depth, maxDepth);
  }

  /** `k` singleton arrays nested around the integer 1. */
  function Nest(k: nat): string
  {
    if k == 0 then ":1\r\n" else "*1\r\n" + Nest(k - 1)
  }

  function NestedValue(k: nat): Value
  {
    if k == 0 then Int(1) else Array([NestedValue(k - 1)])
  }

  /** A one-element array parses its element one level deeper, within
      the depth limit. */
  lemma SingletonArray(inner: string, depth: nat, maxDepth: int)
    requires |inner| > 0
    ensures ParseResp("*1\r\n" + inner, depth, maxDepth) ==
      if depth > maxDepth then Failure(TooDeep)
      else match ParseResp(inner, depth + 1, maxDepth)
        case Failure(e) => Failure(e)
        case Success(p) => Success(Parsed(Array([p.value]), p.rest))
  {
    var data := "*1\r\n" + inner;
    if depth <= maxDepth {
      assert FindCrlf(data) == Some(2) && data[1..2] == "1" && data[4..] == inner by {
        FramedFindsCrlf(data, '*', "1", inner);
      }
      assert ParseInt("1") == Some(1) by {
        ParseIntOfIntToString(1);
      }
      ArrayAfterHeader(data, 2, 1, depth, maxDepth);
      OneElement(inner, depth + 1, maxDepth);
    }
  }

  /** Reading one element is reading a value. */
  lemma OneElement(data: string, depth: nat, maxDepth: int)
    requires |data| > 0
    ensures ParseElements(data, 1, depth, maxDepth) ==
      match ParseResp(data, depth, maxDepth)
      case Failure(e) => Failure(e)
      case Success(p) => Success(([p.value], p.rest))
  {
    var r := ParseResp(data, depth, maxDepth);
    if r.Success? {
      assert ParseElements(r.value.rest, 0, depth, maxDepth) == Success(([], r.value.rest));
      assert [r.value.value] + [] == [r.value.value];
    }
  }

  /** Each level is read one deeper: `k` nested arrays starting at `depth`
      parse exactly when the innermost one, at depth + k - 1, is within
      the limit; otherwise the whole input is rejected as too deep. */
  lemma {:induction false} NestingLimit(k: nat, rest: string, depth: nat, maxDepth: int)
    ensures ParseResp(Nest(k) + rest, depth, maxDepth) ==
      if k > 0 && depth + k - 1 > maxDepth then Failure(TooDeep)
      else Success(Parsed(NestedValue(k), rest))
    decreases k
  {
    if k == 0 {
      IntegerOne(rest, depth, maxDepth);
    } else {
      var j := k - 1;
      var inner := Nest(j) + rest;
      assert Nest(k) + rest == "*1\r\n" + inner;
      SingletonArray(inner, depth, maxDepth);
      if depth <= maxDepth {
        NestingLimit(j, rest, depth + 1, maxDepth);
      }
    }
  }

  /** The innermost value of the nest, `:1`. */
  lemma IntegerOne(rest: string, depth: nat, maxDepth: int)
    ensures ParseResp(":1\r\n" + rest, depth, maxDepth) == Success(Parsed(Int(1), rest))
  {
    FramedFindsCrlf(":1\r\n" + rest, ':', "1", rest);
    ParseIntOfIntToString(1);
  }

  /** With the default limit, eleven nested arrays parse and twelve do not. */
  lemma DefaultNestingLimit()
    ensures ParseResp(Nest(11), 0, DefaultMaxDepth).Success?
    ensures ParseResp(Nest(12), 0, DefaultMaxDepth) == Failure(TooDeep)
  {
    NestingLimit(11, "", 0, DefaultMaxDepth);
    assert Nest(11) + "" == Nest(11);
    NestingLimit(12, "", 0, DefaultMaxDepth);
    assert Nest(12) + "" == Nest(12);
  }

  // ---------------------------------------------------------------------
  // The round trip

  /** What the parser returns for an encoded value: SimpleString comes back
      as a plain string, an error gains the `ERR ` prefix the encoder
      writes, and the NullArray marker comes back as None. */
  function Reparsed(v: Value): Value
    decreases v, 1
  {
    match v
    case Simple(text) => Str(text)
    case Err(message) => Err("ERR " + message)
    case NullArray => Nil
    case Array(items) => Array(ReparsedItems(items))
    case _ => v
  }

  function ReparsedItems(items: seq<Value>): (r: seq<Value>)
    decreases items, 0
    ensures |r| == |items|
  {
    if items == [] then [] else [Reparsed(items[0])] + ReparsedItems(items[1..])
  }

  /** Values that survive the trip: texts of simple strings and errors hold
      no CRLF, and every array sits within the depth limit. */
  predicate Encodable(v: Value, depth: nat, maxDepth: int)
    decreases v, 1
  {
    match v
    case Simple(text) => NoCrlf(text)
    case Err(message) => NoCrlf(message)
    case NullArray => depth <= maxDepth
    case Array(items) => depth <= maxDepth && AllEncodable(items, depth + 1, maxDepth)
    case _ => true
  }

  predicate AllEncodable(items: seq<Value>, depth: nat, maxDepth: int)
    decreases items, 0
  {
    items == [] || (Encodable(items[0], depth, maxDepth) && AllEncodable(items[1..], depth, maxDepth))
  }

  /** A simple string without CRLF reads back as its text. */
  lemma SimpleRoundTrip(text: string, rest: string, depth: nat, maxDepth: int)
    requires NoCrlf(text)
    ensures ParseResp(Encode(Simple(text)) + rest, depth, maxDepth) == Success(Parsed(Str(text), rest))
  {
    FramedFindsCrlf(Encode(Simple(text)) + rest, '+', text, rest);
  }

  /** An encoded error reads back with the `ERR ` prefix in front of its message. */
  lemma ErrorRoundTrip(message: string, rest: string, depth: nat, maxDepth: int)
    requires NoCrlf(message)
    ensures ParseResp(Encode(Err(message)) + rest, depth, maxDepth)
      == Success(Parsed(Err("ERR " + message), rest))
  {
    var line := "ERR " + message;
    assert NoCrlf(line) by {
      forall i | 0 <= i < |line| ensures !CrlfAt(line, i) {
        if i >= 4 {
          assert !CrlfAt(message, i - 4);
        }
      }
    }
    var data := Encode(Err(message)) + rest;
    assert FindCrlf(data) == Some(1 + |line|) && data[1..1 + |line|] == line && data[1 + |line| + 2..] == rest by {
      assert data == ['-'] + line + CRLF + rest;
      FramedFindsCrlf(data, '-', line, rest);
    }
  }

  /** An integer reads back as itself. */
  lemma IntegerRoundTrip(n: int, rest: string, depth: nat, maxDepth: int)
    ensures ParseResp(Encode(Int(n)) + rest, depth, maxDepth) == Success(Parsed(Int(n), rest))
  {
    var data := Encode(Int(n)) + rest;
    var h := IntToString(n);
    assert FindCrlf(data) == Some(1 + |h|) && data[1..1 + |h|] == h && data[1 + |h| + 2..] == rest by {
      NoCrlfOfIntToString(n);
      FramedFindsCrlf(data, ':', h, rest);
    }
    assert ParseInt(data[1..1 + |h|]) == Some(n) by {
      ParseIntOfIntToString(n);
    }
    IntegerAfterHeader(data, 1 + |h|, n, depth, maxDepth);
  }

  /** The integer parser once the line `:n` has been read. */
  lemma IntegerAfterHeader(data: string, e: nat, n: int, depth: nat, maxDepth: int)
    requires |data| > 0 && data[0] == ':' && FindCrlf(data) == Some(e)
    requires 1 <= e && ParseInt(data[1..e]) == Some(n)
    ensures e + 2 <= |data| && ParseResp(data, depth, maxDepth) == Success(Parsed(Int(n), data[e + 2..]))
  {
  }

  /** Any string, CRLF included, reads back as itself through the bulk form. */
  lemma BulkRoundTrip(s: string, rest: string, depth: nat, maxDepth: int)
    ensures ParseResp(Encode(Str(s)) + rest, depth, maxDepth) == Success(Parsed(Str(s), rest))
  {
    var data := Encode(Str(s)) + rest;
    assert ParseBulkString(data) == Success(Parsed(Str(s), rest)) by {
      if |s| == 0 {
        EmptyBulkRoundTrip(rest);
      } else {
        PayloadRoundTrip(s, rest);
      }
    }
  }

  lemma EmptyBulkRoundTrip(rest: string)
    ensures ParseBulkString(Encode(Str("")) + rest) == Success(Parsed(Str(""), rest))
  {
    var empty: string := "";
    assert IntToString(|empty|) == "0";
    assert Encode(Str(empty)) == "$0\r\n\r\n";
    assert Encode(Str(empty)) + rest == "$0\r\n" + (CRLF + rest);
    EmptyBulkString(CRLF + rest);
  }

  lemma PayloadRoundTrip(s: string, rest: string)
    requires |s| > 0
    ensures ParseBulkString(Encode(Str(s)) + rest) == Success(Parsed(Str(s), rest))
  {
    var tail := s + CRLF + rest;
    assert Encode(Str(s)) + rest == "$" + IntToString(|s|) + CRLF + tail;
    PayloadBulkString(|s|, tail);
    assert tail[..|s|] == s && tail[|s|..|s| + 2] == CRLF && tail[|s| + 2..] == rest;
  }

  /** parse_resp(encode(v) + rest) reads back v, as `Reparsed` describes,
      and leaves exactly `rest`. */
  lemma {:induction false} RoundTrip(v: Value, rest: string, depth: nat, maxDepth: int)
    requires Encodable(v, depth, maxDepth)
    ensures ParseResp(Encode(v) + rest, depth, maxDepth) == Success(Parsed(Reparsed(v), rest))
    decreases v, 1
  {
    match v
    case Simple(text) => SimpleRoundTrip(text, rest, depth, maxDepth);
    case Err(message) => ErrorRoundTrip(message, rest, depth, maxDepth);
    case Int(n) => IntegerRoundTrip(n, rest, depth, maxDepth);
    case Nil => NullBulkString(rest);
    case NullArray => NullAndEmptyArray(rest, depth, maxDepth);
    case Str(s) => BulkRoundTrip(s, rest, depth, maxDepth);
    case Array(items) => ArrayRoundTrip(items, rest, depth, maxDepth);
  }

  /** An array reads back element by element, each one level deeper. */
  lemma {:induction false} ArrayRoundTrip(items: seq<Value>, rest: string, depth: nat, maxDepth: int)
    requires depth <= maxDepth && AllEncodable(items, depth + 1, maxDepth)
    ensures ParseResp(Encode(Array(items)) + rest, depth, maxDepth)
      == Success(Parsed(Array(ReparsedItems(items)), rest))
    decreases items, 1
  {
    if |items| == 0 {
      assert Encode(Array(items)) == "*0\r\n";
      NullAndEmptyArray(rest, depth, maxDepth);
    } else {
      var body := EncodeItems(items) + rest;
      assert Encode(Array(items)) + rest == "*" + IntToString(|items|) + CRLF + body;
      ArrayHeader(|items|, body, depth, maxDepth);
      ItemsRoundTrip(items, rest, depth + 1, maxDepth);
    }
  }

  /** `*n` with n >= 1 reads n elements one level deeper from what follows. */
  lemma ArrayHeader(n: int, body: string, depth: nat, maxDepth: int)
    requires n >= 1 && depth <= maxDepth
    ensures ParseResp("*" + IntToString(n) + CRLF + body, depth, maxDepth) ==
      ArrayOf(ParseElements(body, n, depth + 1, maxDepth))
  {
    var h := IntToString(n);
    var data := "*" + h + CRLF + body;
    assert FindCrlf(data) == Some(1 + |h|) && data[1..1 + |h|] == h && data[1 + |h| + 2..] == body by {
      NoCrlfOfIntToString(n);
      FramedFindsCrlf(data, '*', h, body);
    }
    assert ParseInt(h) == Some(n) by {
      ParseIntOfIntToString(n);
    }
    ArrayAfterHeader(data, 1 + |h|, n, depth, maxDepth);
  }

  /** The array parser once the header line `*n` (n >= 1) has been read. */
  lemma ArrayAfterHeader(data: string, e: nat, n: int, depth: nat, maxDepth: int)
    requires |data| > 0 && data[0] == '*' && FindCrlf(data) == Some(e)
    requires 1 <= e && ParseInt(data[1..e]) == Some(n) && n >= 1 && depth <= maxDepth
    ensures ParseResp(data, depth, maxDepth) ==
      ArrayOf(ParseElements(data[e + 2..], n, depth + 1, maxDepth))
  {
    DispatchArray(data, depth, maxDepth);
    ParsedArrayAfterHeader(data, e, n, depth, maxDepth);
  }

  lemma ParsedArrayAfterHeader(data: string, e: nat, n: int, depth: nat, maxDepth: int)
    requires |data| > 0 && data[0] == '*' && FindCrlf(data) == Some(e)
    requires 1 <= e && ParseInt(data[1..e]) == Some(n) && n >= 1 && depth <= maxDepth
    ensures ParsedArray(data, depth, maxDepth) ==
      ArrayOf(ParseElements(data[e + 2..], n, depth + 1, maxDepth))
  {
  }

  /** A leading `*` sends the input to the array parser. */
  lemma DispatchArray(data: string, depth: nat, maxDepth: int)
    requires |data| > 0 && data[0] == '*'
    ensures ParseResp(data, depth, maxDepth) == ParsedArray(data, depth, maxDepth)
  {
  }

  lemma {:induction false} ItemsRoundTrip(items: seq<Value>, rest: string, depth: nat, maxDepth: int)
    requires AllEncodable(items, depth, maxDepth)
    ensures ParseElements(EncodeItems(items) + rest, |items|, depth, maxDepth)
      == Success((ReparsedItems(items), rest))
    decreases items, 0
  {
    if items != [] {
      var head, others := items[0], items[1..];
      var left: nat := |others|;
      var tail := EncodeItems(others) + rest;
      var data := EncodeItems(items) + rest;
      assert Encodable(head, depth, maxDepth) && AllEncodable(others, depth, maxDepth);
      assert ParseResp(data, depth, maxDepth) == Success(Parsed(Reparsed(head), tail)) by {
        EncodeItemsCons(items, rest);
        RoundTrip(head, tail, depth, maxDepth);
      }
      assert ParseElements(tail, left, depth, maxDepth) == Success((ReparsedItems(others), rest)) by {
        ItemsRoundTrip(others, rest, depth, maxDepth);
      }
      ElementsOfParsed(data, tail, left, Reparsed(head), ReparsedItems(others), rest, depth, maxDepth);
      assert ReparsedItems(items) == [Reparsed(head)] + ReparsedItems(others);
    }
  }

  /** The encoding of a non-empty list starts with its first item's. */
  lemma EncodeItemsCons(items: seq<Value>, rest: string)
    requires items != []
    ensures EncodeItems(items) + rest == Encode(items[0]) + (EncodeItems(items[1..]) + rest)
  {
  }

  /** One element parsed, then `count` more: `count + 1` in all. */
  lemma ElementsOfParsed(data: string, tail: string, count: nat, v: Value, vs: seq<Value>, rest: string,
                         depth: nat, maxDepth: int)
    requires ParseResp(data, depth, maxDepth) == Success(Parsed(v, tail))
    requires ParseElements(tail, count, depth, maxDepth) == Success((vs, rest))
    ensures ParseElements(data, count + 1, depth, maxDepth) == Success(([v] + vs, rest))
  {
    ElementsCons(data, count + 1, depth, maxDepth);
  }

  /** Reading `count` elements is reading one and then `count - 1`. */
  lemma ElementsCons(data: string, count: nat, depth: nat, maxDepth: int)
    requires count > 0 && ParseResp(data, depth, maxDepth).Success?
    ensures var p := ParseResp(data, depth, maxDepth).value;
      ParseElements(data, count, depth, maxDepth) ==
        match ParseElements(p.rest, count - 1, depth, maxDepth)
        case Failure(err) => Failure(err)
        case Success((vs, rest)) => Success(([p.value] + vs, rest))
  {
  }

  /** For the values `parse_resp` itself produces (strings, integers, None,
      errors and nested lists of them) the trip is exact apart from the
      `ERR ` prefix on errors. */
  lemma DecodedRoundTrip(v: Value, rest: string)
    requires Decoded(v) && Encodable(v, 0, DefaultMaxDepth)
    ensures EncodeAsWritten(v).Success?
    ensures ParseResp(EncodeAsWritten(v).value + rest, 0, DefaultMaxDepth) == Success(Parsed(Reparsed(v), rest))
  {
    RoundTrip(v, rest, 0, DefaultMaxDepth);
  }

  // ---------------------------------------------------------------------
  // The encoder as written

  /** `encode_resp(SimpleString("OK"))` raises, where `+OK\r\n` is meant. */
  lemma SimpleStringNotEncoded()
    ensures EncodeAsWritten(Simple("OK")) == Failure(AttributeError)
    ensures Encode(Simple("OK")) == "+OK\r\n"
  {
  }

  /** `encode_resp(NullArray())` raises, where `*-1\r\n` is meant. */
  lemma NullArrayNotEncoded()
    ensures EncodeAsWritten(NullArray).Failure?
    ensures Encode(NullArray) == "*-1\r\n"
  {
  }
}

=== FILE: resp_parser.dfy ===
/** The RESP2 parser of app/resp_parser.py: every parser takes the input
    bytes and returns the value it read together with the unread remainder. */
module RespParser {
  import opened Wrappers
  import opened Text
  import opened RespTypes

  /** The RESPProtocolError conditions, one per distinct `raise`. */
  datatype ProtocolError =
    | EmptyInput          // parse_resp on b""
    | UnknownType         // first byte not one of + - : $ *
    | WrongPrefix         // a sub-parser called on the wrong type byte
    | MissingTerminator   // no CRLF where one is required
    | BadNumber           // a length, count or integer that int() rejects
    | Truncated           // fewer payload bytes than the bulk length
    | TooDeep             // array nesting beyond max_depth
    | Incomplete          // input ran out before the announced element count

  datatype Parsed = Parsed(value: Value, rest: string)

  type ParseResult = Result<Parsed, ProtocolError>

  /** `parse_resp`'s default `max_depth`. */
  const DefaultMaxDepth: int := 10

  /** `rest` is what is left of `data` once a prefix has been consumed. */
  predicate IsSuffix(rest: string, data: string)
  {
    |rest| <= |data| && data[|data| - |rest|..] == rest
  }

  /** `data` is the type byte `tag`, then `text` free of CRLF, then CRLF, then `rest`. */
  predicate Framed(data: string, tag: char, text: string, rest: string)
  {
    data == [tag] + text + CRLF + rest && NoCrlf(text)
  }

  /** The first CRLF of a line that starts with a type byte ends its text. */
  lemma FramedAtFirstCrlf(data: string, e: nat)
    requires |data| >= 1 && data[0] != '\r'
    requires FindCrlf(data) == Some(e)
    ensures 1 <= e && Framed(data, data[0], data[1..e], data[e + 2..])
  {
    var text := data[1..e];
    forall i | 0 <= i < |text| ensures !CrlfAt(text, i) {
      assert !CrlfAt(data, i + 1);
    }
    assert data == [data[0]] + text + CRLF + data[e + 2..];
  }

  /** Conversely, the first CRLF of a framed line is the one after its text. */
  lemma FramedFindsCrlf(data: string, tag: char, text: string, rest: string)
    requires tag != '\r' && Framed(data, tag, text, rest)
    ensures FindCrlf(data) == Some(1 + |text|)
    ensures data[1..1 + |text|] == text && data[1 + |text| + 2..] == rest
  {
    NoCrlfCons(tag, text);
    assert data == ([tag] + text) + CRLF + rest;
    FindCrlfOfFramed([tag] + text, rest);
  }

  // ---------------------------------------------------------------------
  // Scalars

  /** `parse_simple_string`: `+text\r\n`. */
  function ParseSimpleString(data: string): (r: ParseResult)
    ensures r.Success? ==> r.value.value.Str? && Framed(data, '+', r.value.value.s, r.value.rest)
    ensures r.Failure? <==> |data| == 0 || data[0] != '+' || NoCrlf(data)
  {
    if |data| == 0 || data[0] != '+' then Failure(WrongPrefix)
    else match FindCrlf(data)
      case None => Failure(MissingTerminator)
      case Some(e) =>
        FramedAtFirstCrlf(data, e);
        Success(Parsed(Str(data[1..e]), data[e + 2..]))
  }

  /** `parse_error`: `-message\r\n`. */
  function ParseError(data: string): (r: ParseResult)
    ensures r.Success? ==> r.value.value.Err? && Framed(data, '-', r.value.value.message, r.value.rest)
    ensures r.Failure? <==> |data| == 0 || data[0] != '-' || NoCrlf(data)
  {
    if |data| == 0 || data[0] != '-' then Failure(WrongPrefix)
    else match FindCrlf(data)
      case None => Failure(MissingTerminator)
      case Some(e) =>
        FramedAtFirstCrlf(data, e);
        Success(Parsed(Err(data[1..e]), data[e + 2..]))
  }

  /** `parse_integer`: `:digits\r\n`, where the digits must satisfy int(). */
  function ParseInteger(data: string): (r: ParseResult)
    ensures r.Success? ==> (r.value.value.Int? &&
      exists text :: Framed(data, ':', text, r.value.rest) && ParseInt(text) == Some(r.value.value.n))
    ensures r.Failure? <==>
      |data| == 0 || data[0] != ':' || NoCrlf(data) || ParseInt(data[1..FindCrlf(data).value]).None?
  {
    if |data| == 0 || data[0] != ':' then Failure(WrongPrefix)
    else match FindCrlf(data)
      case None => Failure(MissingTerminator)
      case Some(e) =>
        match ParseInt(data[1..e])
        case None => Failure(BadNumber)
        case Some(n) =>
          FramedAtFirstCrlf(data, e);
          Success(Parsed(Int(n), data[e + 2..]))
  }

  /** `parse_bulk_string`: `$len\r\npayload\r\n`, `$-1\r\n` for None. The
      slicing uses Python's rules, so lengths below -1 behave as written. */
  function ParseBulkString(data: string): (r: ParseResult)
    ensures r.Success? ==> IsSuffix(r.value.rest, data) && |r.value.rest| < |data|
    ensures r.Success? ==> r.value.value.Str? || r.value.value.Nil?
    ensures |data| == 0 || data[0] != '$' || NoCrlf(data) ==> r.Failure?
  {
    if |data| == 0 || data[0] != '$' then Failure(WrongPrefix)
    else match FindCrlf(data)
      case None => Failure(MissingTerminator)
      case Some(e) =>
        match ParseInt(data[1..e])
        case None => Failure(BadNumber)
        case Some(length) =>
          if length == -1 then Success(Parsed(Nil, data[e + 2..]))
          else if length == 0 then
            var dataStart := e + 2;
            if !(|data[dataStart..]| >= 2 && data[dataStart..dataStart + 2] == CRLF)
            then Failure(MissingTerminator)
            else Success(Parsed(Str(""), data[dataStart + 2..]))
          else BulkPayload(data, e + 2, length)
  }

  /** The rest of `parse_bulk_string` for any other length: `length` bytes
      from `dataStart`, then CRLF. The slicing follows Python's rules. */
  function BulkPayload(data: string, dataStart: nat, length: int): (r: ParseResult)
    requires dataStart <= |data|
    ensures r.Success? ==> IsSuffix(r.value.rest, data) && |r.value.rest| < |data| && r.value.value.Str?
  {
    var dataEnd := dataStart + length;
    if |data| < dataEnd + 2 then Failure(Truncated)
    else if PySlice(data, dataEnd, dataEnd + 2) != CRLF then Failure(MissingTerminator)
    else
      PySliceOfTwo(data, dataEnd);
      Success(Parsed(Str(PySlice(data, dataStart, dataEnd)), PySuffix(data, dataEnd + 2)))
  }

  /** A two-character Python slice starts at least two characters before its end. */
  lemma PySliceOfTwo(s: string, i: int)
    requires |PySlice(s, i, i + 2)| == 2
    ensures 2 <= PyIndex(i + 2, |s|)
  {
  }

  // ---------------------------------------------------------------------
  // Arrays and the dispatcher

  /** `parse_resp`: dispatch on the first byte. Arrays nest through
      `ParsedArray`, whose elements are read one level deeper. */
  function ParseResp(data: string, depth: nat, maxDepth: int): (r: ParseResult)
    decreases |data|, 1, 0
    ensures r.Success? ==> IsSuffix(r.value.rest, data) && |r.value.rest| < |data|
    ensures r.Success? ==> Decoded(r.value.value)
    ensures |data| == 0 ==> r == Failure(EmptyInput)
    ensures |data| > 0 && data[0] !in {'+', '-', ':', '$', '*'} ==> r == Failure(UnknownType)
  {
    if |data| == 0 then Failure(EmptyInput)
    else if data[0] == '+' then ParseSimpleString(data)
    else if data[0] == '-' then ParseError(data)
    else if data[0] == ':' then ParseInteger(data)
    else if data[0] == '$' then ParseBulkString(data)
    else if data[0] == '*' then ParsedArray(data, depth, maxDepth)
    else Failure(UnknownType)
  }

  /** The value `parse_array` computes: `*-1` is None, `*0` (and, since
      `range` of a negative count is empty, any count below -1) is [],
      otherwise exactly `count` elements read in order at `depth + 1`. */
  function ParsedArray(data: string, depth: nat, maxDepth: int): (r: ParseResult)
    decreases |data|, 0, 0
    ensures r.Success? ==> IsSuffix(r.value.rest, data) && |r.value.rest| < |data|
    ensures r.Success? ==> Decoded(r.value.value) && (r.value.value.Array? || r.value.value.Nil?)
    ensures depth > maxDepth ==> r == Failure(TooDeep)
  {
    if depth > maxDepth then Failure(TooDeep)
    else if |data| == 0 || data[0] != '*' then Failure(WrongPrefix)
    else match FindCrlf(data)
      case None => Failure(MissingTerminator)
      case Some(e) =>
        match ParseInt(data[1..e])
        case None => Failure(BadNumber)
        case Some(count) =>
          if count == -1 then Success(Parsed(Nil, data[e + 2..]))
          else if count == 0 then Success(Parsed(Array([]), data[e + 2..]))
          else
            ArrayOf(ParseElements(data[e + 2..], if count < 0 then 0 else count, depth + 1, maxDepth))
  }

  /** The list the elements read make, or the error that stopped them. */
  function ArrayOf(elements: Result<(seq<Value>, string), ProtocolError>): ParseResult
  {
    match elements
    case Failure(err) => Failure(err)
    case Success((items, rest)) => Success(Parsed(Array(items), rest))
  }

  /** `count` elements read one after the other, each at `depth`; running
      out of input before an element is an error. */
  function ParseElements(data: string, count: nat, depth: nat, maxDepth: int)
    : (r: Result<(seq<Value>, string), ProtocolError>)
    decreases |data|, 2, count
    ensures r.Success? ==> |r.value.0| == count && IsSuffix(r.value.1, data)
    ensures r.Success? && count > 0 ==> |r.value.1| < |data|
    ensures r.Success? ==> forall i :: 0 <= i < |r.value.0| ==> Decoded(r.value.0[i])
  {
    if count == 0 then Success(([], data))
    else if |data| == 0 then Failure(Incomplete)
    else match ParseResp(data, depth, maxDepth)
      case Failure(err) => Failure(err)
      case Success(Parsed(v, rest)) =>
        match ParseElements(rest, count - 1, depth, maxDepth)
        case Failure(err) => Failure(err)
        case Success((vs, rest')) =>
          SuffixOfSuffix(rest', rest, data);
          assert forall i :: 0 < i < |vs| + 1 ==> ([v] + vs)[i] == vs[i - 1];
          Success(([v] + vs, rest'))
  }

  /** A suffix of a suffix is a suffix. */
  lemma SuffixOfSuffix(a: string, b: string, c: string)
    requires IsSuffix(a, b) && IsSuffix(b, c)
    ensures IsSuffix(a, c)
  {
    assert c[|c| - |a|..] == c[|c| - |b|..][|b| - |a|..];
  }

  /** Elements already read, in front of the outcome of reading the rest. */
  function Prepend(vs: seq<Value>, r: Result<(seq<Value>, string), ProtocolError>)
    : Result<(seq<Value>, string), ProtocolError>
  {
    match r
    case Failure(err) => Failure(err)
    case Success((ws, rest)) => Success((vs + ws, rest))
  }

  /** `parse_array` as written: a loop that rebinds `remaining` and appends
      to `elements`, one recursive `parse_resp` call per element. */
  method ParseArray(data: string, depth: nat, maxDepth: int) returns (r: ParseResult)
    ensures r == ParsedArray(data, depth, maxDepth)
  {
    if depth > maxDepth {
      return Failure(TooDeep);
    }
    if |data| == 0 || data[0] != '*' {
      return Failure(WrongPrefix);
    }
    var found := FindCrlf(data);
    if found.None? {
      return Failure(MissingTerminator);
    }
    var e := found.value;
    var parsedCount := ParseInt(data[1..e]);
    if parsedCount.None? {
      return Failure(BadNumber);
    }
    var count := parsedCount.value;
    if count == -1 {
      return Success(Parsed(Nil, data[e + 2..]));
    }
    if count == 0 {
      return Success(Parsed(Array([]), data[e + 2..]));
    }
    var elements := ReadElements(data[e + 2..], count, depth + 1, maxDepth);
    if elements.Failure? {
      return Failure(elements.error);
    }
    return Success(Parsed(Array(elements.value.0), elements.value.1));
  }

  /** The element loop of `parse_array`: rebinds `remaining` and appends to
      `elements`, one `parse_resp` call per element; like `range(count)`, a
      negative count reads nothing. */
  method ReadElements(data: string, count: int, depth: nat, maxDepth: int)
    returns (r: Result<(seq<Value>, string), ProtocolError>)
    ensures r == ParseElements(data, if count < 0 then 0 else count, depth, maxDepth)
  {
    var n: nat := if count < 0 then 0 else count;
    var remaining := data;
    var elements: seq<Value> := [];
    var i: nat := 0;
    ghost var left: nat := n;
    PrependNothing(ParseElements(data, n, depth, maxDepth));
    while i < n
      invariant i <= n && left == n - i
      invariant ParseElements(data, n, depth, maxDepth)
        == Prepend(elements, ParseElements(remaining, left, depth, maxDepth))
    {
      if |remaining| == 0 {
        ElementsStop(elements, remaining, left, depth, maxDepth);
        return Failure(Incomplete);
      }
      var element := ParseResp(remaining, depth, maxDepth);
      if element.Failure? {
        ElementsStop(elements, remaining, left, depth, maxDepth);
        return Failure(element.error);
      }
      ElementsStep(elements, remaining, left, depth, maxDepth);
      elements := elements + [element.value.value];
      remaining := element.value.rest;
      i := i + 1;
      left := left - 1;
    }
    ElementsDone(elements, remaining, left, depth, maxDepth);
    return Success((elements, remaining));
  }

  /** Running out of input, or an element that fails, ends the read. */
  lemma ElementsStop(vs: seq<Value>, data: string, count: nat, depth: nat, maxDepth: int)
    requires count > 0 && (|data| == 0 || ParseResp(data, depth, maxDepth).Failure?)
    ensures Prepend(vs, ParseElements(data, count, depth, maxDepth)) ==
      if |data| == 0 then Failure(Incomplete) else Failure(ParseResp(data, depth, maxDepth).error)
  {
  }

  /** With no element left to read, the elements gathered are the result. */
  lemma ElementsDone(vs: seq<Value>, data: string, count: nat, depth: nat, maxDepth: int)
    requires count == 0
    ensures Prepend(vs, ParseElements(data, count, depth, maxDepth)) == Success((vs, data))
  {
    assert vs + [] == vs;
  }

  lemma PrependNothing(r: Result<(seq<Value>, string), ProtocolError>)
    ensures Prepend([], r) == r
  {
    match r {
      case Failure(_) =>
      case Success((ws, _)) => assert [] + ws == ws;
    }
  }

  /** Reading one more element moves it from the outcome to the prefix. */
  lemma ElementsStep(vs: seq<Value>, data: string, count: nat, depth: nat, maxDepth: int)
    requires count > 0 && |data| > 0 && ParseResp(data, depth, maxDepth).Success?
    ensures var p := ParseResp(data, depth, maxDepth).value;
      Prepend(vs, ParseElements(data, count, depth, maxDepth))
        == Prepend(vs + [p.value], ParseElements(p.rest, count - 1, depth, maxDepth))
  {
    var p := ParseResp(data, depth, maxDepth).value;
    match ParseElements(p.rest, count - 1, depth, maxDepth) {
      case Failure(_) =>
      case Success((ws, _)) =>
        assert vs + ([p.value] + ws) == (vs + [p.value]) + ws;
    }
  }
}

=== FILE: resp_types.dfy ===
/** The values exchanged with the RESP2 codec (app/types.py and the Python
    built-in types the codec maps them to). */
module RespTypes {

  /** One RESP value as the Python code represents it:
      - `Str`    a Python str (what the parser returns for simple AND bulk strings),
      - `Int`    a Python int,
      - `Array`  a Python list,
      - `Nil`    None (a null bulk string or a null array),
      - `Err`    a RESPError,
      - `Simple` a SimpleString wrapper (only ever handed to the encoder),
      - `NullArray` a NullArray marker (only ever handed to the encoder). */
  datatype Value =
    | Str(s: string)
    | Int(n: int)
    | Array(items: seq<Value>)
    | Nil
    | Err(message: string)
    | Simple(text: string)
    | NullArray

  /** Values the parser can produce: no SimpleString or NullArray anywhere. */
  predicate Decoded(v: Value)
  {
    match v
    case Simple(_) => false
    case NullArray => false
    case Array(items) => forall i :: 0 <= i < |items| ==> Decoded(items[i])
    case _ => true
  }
}

=== FILE: stream.dfy ===
/** Streams (app/data/stream/stream.py): an append-only log of entries
    whose IDs strictly increase. The log operations are specified as
    functions on the entry sequence; `Stream` is the object whose `Add`
    appends in place. */
module Streams {
  import opened Wrappers
  import opened StreamIds
  import opened StreamEntries

  /** The stream invariant: IDs strictly increase along the log. */
  predicate StrictlyIncreasing(entries: seq<StreamEntry>)
  {
    forall i, j :: 0 <= i < j < |entries| ==> Less(entries[i].id, entries[j].id)
  }

  /** `top()`: the last entry, None when the log is empty. */
  function TopOf(entries: seq<StreamEntry>): (r: Option<StreamEntry>)
    ensures r.None? <==> |entries| == 0
    ensures r.Some? ==> r.value == entries[|entries| - 1] && r.value in entries
  {
    if |entries| == 0 then None else Some(entries[|entries| - 1])
  }

  /** `top_id()`: the last entry's ID, None when the log is empty. */
  function TopIdOf(entries: seq<StreamEntry>): (r: Option<StreamId>)
    ensures r.None? <==> |entries| == 0
    ensures r.Some? ==> r == Some(TopOf(entries).value.id)
  {
    if |entries| == 0 then None else Some(entries[|entries| - 1].id)
  }

  /** `add` on a log: the entry is appended when its ID is a valid
      successor of the top ID, otherwise the ValueError propagates. */
  function Appended(entries: seq<StreamEntry>, entry: StreamEntry): (r: Result<seq<StreamEntry>, Exception>)
    ensures r.Success? <==> ValidSuccessor(entry.id, TopIdOf(entries)).Success?
    ensures r.Failure? ==> r.error == ValidSuccessor(entry.id, TopIdOf(entries)).error
  {
    match ValidSuccessor(entry.id, TopIdOf(entries))
    case Failure(e) => Failure(e)
    case Success(_) => Success(entries + [entry])
  }

  /** A successful add keeps the IDs strictly increasing, adds exactly one
      entry and makes it the top. */
  lemma AppendedKeepsOrder(entries: seq<StreamEntry>, entry: StreamEntry)
    requires StrictlyIncreasing(entries)
    requires Appended(entries, entry).Success?
    ensures StrictlyIncreasing(Appended(entries, entry).value)
    ensures |Appended(entries, entry).value| == |entries| + 1
    ensures TopIdOf(Appended(entries, entry).value) == Some(entry.id)
    ensures Appended(entries, entry).value[..|entries|] == entries
  {
    var next := entries + [entry];
    forall i, j | 0 <= i < j < |next| ensures Less(next[i].id, next[j].id) {
      if j == |entries| {
        var top := entries[|entries| - 1].id;
        DerivedComparisons(entry.id, top);
        if i < |entries| - 1 {
          LessIsStrictTotalOrder(next[i].id, top, entry.id);
        }
      }
    }
  }

  /** A log holding an ID is not extended by an entry reusing that ID. */
  lemma NoDuplicateIds(entries: seq<StreamEntry>, entry: StreamEntry, k: nat)
    requires StrictlyIncreasing(entries)
    requires k < |entries| && entries[k].id == entry.id
    ensures Appended(entries, entry).Failure?
  {
    var top := entries[|entries| - 1].id;
    if k < |entries| - 1 {
      assert Less(entries[k].id, top);
    }
  }

  /** `start <= id <= end`. */
  predicate InRange(id: StreamId, start: StreamId, end: StreamId)
  {
    LessEq(start, id) && LessEq(id, end)
  }

  /** The comprehension `[ent for ent in entries if start <= ent.id <= end]`. */
  function Between(entries: seq<StreamEntry>, start: StreamId, end: StreamId): (r: seq<StreamEntry>)
    ensures |r| <= |entries|
    ensures forall e :: e in r <==> e in entries && InRange(e.id, start, end)
  {
    if entries == [] then []
    else
      var rest := Between(entries[1..], start, end);
      assert forall e :: e in entries <==> e == entries[0] || e in entries[1..];
      if InRange(entries[0].id, start, end) then [entries[0]] + rest else rest
  }

  /** Dropping the first entry keeps a log increasing. */
  lemma TailIncreasing(entries: seq<StreamEntry>)
    requires StrictlyIncreasing(entries) && entries != []
    ensures StrictlyIncreasing(entries[1..])
  {
    var tail := entries[1..];
    forall i, j | 0 <= i < j < |tail| ensures Less(tail[i].id, tail[j].id) {
      assert tail[i] == entries[i + 1] && tail[j] == entries[j + 1];
    }
  }

  /** In an increasing log the first ID is below every later one. */
  lemma HeadBelowTail(entries: seq<StreamEntry>, e: StreamEntry)
    requires StrictlyIncreasing(entries) && entries != [] && e in entries[1..]
    ensures Less(entries[0].id, e.id)
  {
    var k :| 0 <= k < |entries[1..]| && entries[1..][k] == e;
    assert entries[k + 1] == e;
  }

  /** An entry below every ID of an increasing log can go in front of it. */
  lemma ConsIncreasing(x: StreamEntry, rest: seq<StreamEntry>)
    requires StrictlyIncreasing(rest)
    requires forall e :: e in rest ==> Less(x.id, e.id)
    ensures StrictlyIncreasing([x] + rest)
  {
    var r := [x] + rest;
    forall i, j | 0 <= i < j < |r| ensures Less(r[i].id, r[j].id) {
      assert r[j] == rest[j - 1];
      if i > 0 {
        assert r[i] == rest[i - 1];
      }
    }
  }

  /** The comprehension keeps the log order, so its result is increasing too. */
  lemma {:induction false} BetweenKeepsOrder(entries: seq<StreamEntry>, start: StreamId, end: StreamId)
    requires StrictlyIncreasing(entries)
    ensures StrictlyIncreasing(Between(entries, start, end))
  {
    if entries != [] {
      var tail := entries[1..];
      TailIncreasing(entries);
      BetweenKeepsOrder(tail, start, end);
      if InRange(entries[0].id, start, end) {
        var rest := Between(tail, start, end);
        forall e | e in rest ensures Less(entries[0].id, e.id) {
          HeadBelowTail(entries, e);
        }
        ConsIncreasing(entries[0], rest);
      }
    }
  }

  /** `range(start, end)`: nothing when start > end or the log is empty,
      otherwise exactly the entries whose IDs lie in [start, end], in log order. */
  function RangeOf(entries: seq<StreamEntry>, start: StreamId, end: StreamId): (r: seq<StreamEntry>)
    ensures Greater(start, end) || |entries| == 0 ==> r == []
    ensures forall e :: e in r <==> e in entries && InRange(e.id, start, end)
  {
    if Greater(start, end) || |entries| == 0 then [] else Between(entries, start, end)
  }

  /** On a valid log the range comes out in ascending ID order. */
  lemma RangeKeepsOrder(entries: seq<StreamEntry>, start: StreamId, end: StreamId)
    requires StrictlyIncreasing(entries)
    ensures StrictlyIncreasing(RangeOf(entries, start, end))
  {
    if !(Greater(start, end) || |entries| == 0) {
      BetweenKeepsOrder(entries, start, end);
    }
  }

  /** The entries strictly after `id`, in log order: what an XREAD from
      `id` delivers. */
  function After(entries: seq<StreamEntry>, id: StreamId): (r: seq<StreamEntry>)
    ensures |r| <= |entries|
    ensures forall e :: e in r <==> e in entries && Greater(e.id, id)
  {
    if entries == [] then []
    else
      var rest := After(entries[1..], id);
      assert forall e :: e in entries <==> e == entries[0] || e in entries[1..];
      if Greater(entries[0].id, id) then [entries[0]] + rest else rest
  }

  /** On a valid log, reading after an ID is the range from just past it to
      the top: a suffix of the log. */
  lemma {:induction false} AfterIsSuffix(entries: seq<StreamEntry>, id: StreamId)
    requires StrictlyIncreasing(entries)
    ensures exists k :: 0 <= k <= |entries| && After(entries, id) == entries[k..]
  {
    if entries == [] {
      assert After(entries, id) == entries[0..];
    } else if Greater(entries[0].id, id) {
      // every later entry is greater still, so nothing was dropped
      AllAfterHead(entries, id);
      AfterKeepsAll(entries, id);
      assert After(entries, id) == entries[0..];
    } else {
      var tail := entries[1..];
      TailIncreasing(entries);
      AfterIsSuffix(tail, id);
      var k :| 0 <= k <= |tail| && After(tail, id) == tail[k..];
      assert After(entries, id) == After(tail, id);
      assert tail[k..] == entries[k + 1..];
    }
  }

  /** In an increasing log whose first ID is after `id`, every ID is. */
  lemma AllAfterHead(entries: seq<StreamEntry>, id: StreamId)
    requires StrictlyIncreasing(entries) && entries != [] && Greater(entries[0].id, id)
    ensures forall j :: 0 <= j < |entries| ==> Greater(entries[j].id, id)
  {
    forall j | 0 <= j < |entries| ensures Greater(entries[j].id, id) {
      DerivedComparisons(entries[0].id, id);
      DerivedComparisons(entries[j].id, id);
      if j > 0 {
        LessIsStrictTotalOrder(id, entries[0].id, entries[j].id);
      }
    }
  }

  /** When every entry is after `id`, nothing is dropped. */
  lemma {:induction false} AfterKeepsAll(entries: seq<StreamEntry>, id: StreamId)
    requires forall j :: 0 <= j < |entries| ==> Greater(entries[j].id, id)
    ensures After(entries, id) == entries
  {
    if entries != [] {
      AfterKeepsAll(entries[1..], id);
    }
  }

  /** The log object of stream.py. */
  class Stream {
    var entries: seq<StreamEntry>

    /** The invariant `add` maintains. */
    predicate Valid()
      reads this
    {
      StrictlyIncreasing(entries)
    }

    constructor()
      ensures entries == [] && Valid()
    {
      entries := [];
    }

    /** `add`: appends in place when the ID is a valid successor of the
        current top; otherwise raises and leaves the log unchanged. */
    method Add(entry: StreamEntry) returns (raised: Option<Exception>)
      modifies this
      ensures raised.None? <==> Appended(old(entries), entry).Success?
      ensures raised.None? ==> entries == Appended(old(entries), entry).value
      ensures raised.Some? ==> raised.value == Appended(old(entries), entry).error && entries == old(entries)
      ensures old(Valid()) ==> Valid()
    {
      var check := ValidSuccessor(entry.id, TopId());
      if check.Failure? {
        return Some(check.error);
      }
      if Valid() {
        AppendedKeepsOrder(entries, entry);
      }
      entries := entries + [entry];
      return None;
    }

    /** `top`: the last entry, None on an empty log. */
    function Top(): (r: Option<StreamEntry>)
      reads this
      ensures r.None? <==> IsEmpty()
      ensures r.Some? ==> r.value == entries[|entries| - 1]
    {
      TopOf(entries)
    }

    /** `top_id`: the last entry's ID; on a valid log every other ID is below it. */
    function TopId(): (r: Option<StreamId>)
      reads this
      ensures r.None? <==> IsEmpty()
      ensures r.Some? ==> r.value == entries[|entries| - 1].id
      ensures r.Some? && Valid() ==> forall j :: 0 <= j < |entries| - 1 ==> Less(entries[j].id, r.value)
    {
      TopIdOf(entries)
    }

    /** `range`: the entries within the bounds, in ascending ID order on a
        valid log. */
    function Range(start: StreamId, end: StreamId): (r: seq<StreamEntry>)
      reads this
      ensures Greater(start, end) || IsEmpty() ==> r == []
      ensures forall e :: e in r <==> e in entries && InRange(e.id, start, end)
      ensures Valid() ==> StrictlyIncreasing(r)
    {
      if Valid() then
        RangeKeepsOrder(entries, start, end);
        RangeOf(entries, start, end)
      else
        RangeOf(entries, start, end)
    }

    /** `__len__`. */
    function Length(): (n: nat)
      reads this
      ensures n == |entries|
    {
      |entries|
    }

    function IsEmpty(): (b: bool)
      reads this
      ensures b <==> Length() == 0
    {
      |entries| == 0
    }
  }
}

=== FILE: stream_entry.dfy ===
/** Stream entries (app/data/stream/stream_entry.py): an immutable ID plus
    field/value pairs kept in insertion order, and their reply format. */
module StreamEntries {
  import opened Wrappers
  import opened Text
  import opened RespTypes
  import opened StreamIds

  /** The fields are the items of a Python dict, in insertion order. */
  datatype StreamEntry = StreamEntry(id: StreamId, fields: seq<(string, string)>)

  /** `[field for pair in fields.items() for field in pair]`. */
  function Flatten(fields: seq<(string, string)>): (r: seq<string>)
    ensures |r| == 2 * |fields|
    ensures forall i :: 0 <= i < |fields| ==> r[2 * i] == fields[i].0 && r[2 * i + 1] == fields[i].1
  {
    if fields == [] then []
    else
      var rest := Flatten(fields[1..]);
      assert forall i :: 1 <= i < |fields| ==> fields[i] == fields[1..][i - 1];
      [fields[0].0, fields[0].1] + rest
  }

  /** Each text as a RESP string, in order. */
  function Strings(texts: seq<string>): (r: seq<Value>)
    ensures |r| == |texts|
    ensures forall i :: 0 <= i < |texts| ==> r[i] == Str(texts[i])
  {
    seq(|texts|, i requires 0 <= i < |texts| => Str(texts[i]))
  }

  /** `StreamEntry.format`: `[str(id), [k1, v1, k2, v2, ...]]`. */
  function Format(e: StreamEntry): (r: Value)
    ensures r.Array? && |r.items| == 2
    ensures r.items[0] == Str(ToString(e.id))
    ensures r.items[1].Array? && |r.items[1].items| == 2 * |e.fields|
    ensures forall i :: 0 <= i < |e.fields| ==>
      r.items[1].items[2 * i] == Str(e.fields[i].0) && r.items[1].items[2 * i + 1] == Str(e.fields[i].1)
  {
    Array([Str(ToString(e.id)), Array(Strings(Flatten(e.fields)))])
  }

  /** The first item of the reply is the entry's ID in a form that parses
      back to it, for IDs with non-negative parts. */
  lemma FormatNamesId(e: StreamEntry)
    requires e.id.timestamp >= 0 && e.id.sequence >= 0
    ensures Format(e).items[0].Str?
    ensures Parse(Format(e).items[0].s) == Success(e.id)
  {
    ParseOfToString(e.id);
  }

  /** The flattened pairs can be regrouped into the original fields. */
  lemma {:induction false} FlattenRegroups(fields: seq<(string, string)>)
    ensures Regroup(Flatten(fields)) == fields
  {
    if fields != [] {
      FlattenRegroups(fields[1..]);
      var flat := Flatten(fields);
      assert flat[2..] == Flatten(fields[1..]);
    }
  }

  /** Pairs `[k1, v1, k2, v2, ...]` back into `(k, v)` items. */
  function Regroup(flat: seq<string>): seq<(string, string)>
  {
    if |flat| < 2 then [] else [(flat[0], flat[1])] + Regroup(flat[2..])
  }
}

=== FILE: stream_id.dfy ===
/** Stream IDs (app/data/stream/stream_id.py): a `<timestamp>-<sequence>`
    pair ordered lexicographically, its parser and printer, the successor
    rule XADD enforces, and the generator that turns `*`, `<ts>-*` and
    explicit patterns into IDs. */
module StreamIds {
  import opened Wrappers
  import opened Text

  datatype StreamId = StreamId(timestamp: int, sequence: int)

  /** Python's `sys.maxsize` on a 64-bit build. */
  const MaxSize: int := 0x7FFF_FFFF_FFFF_FFFF

  /** `StreamID.minimum()`, which `-` stands for. */
  const Minimum: StreamId := StreamId(0, 0)

  /** `StreamID.maximum()`, which `+` stands for. */
  const Maximum: StreamId := StreamId(MaxSize, MaxSize)

  const ZeroIdMessage: string := "The ID specified in XADD must be greater than 0-0"
  const NotGreaterMessage: string :=
    "The ID specified in XADD is equal or smaller than the target stream top item"
  /** The ValueError a two-name unpacking raises on three or more parts. */
  const UnpackMessage: string := "too many values to unpack (expected 2)"

  function FormatError(s: string): Exception
  {
    ValueError("Invalid stream ID format: " + s)
  }

  /** `int(s)`, raising ValueError on text that is not a decimal integer. */
  function IntOf(s: string): (r: Result<int, Exception>)
    ensures r.Success? <==> ParseInt(s).Some?
    ensures r.Success? ==> r.value == ParseInt(s).value
    ensures r.Failure? ==> r.error == ValueError("invalid literal for int() with base 10: '" + s + "'")
  {
    match ParseInt(s)
    case None => Failure(ValueError("invalid literal for int() with base 10: '" + s + "'"))
    case Some(n) => Success(n)
  }

  // ---------------------------------------------------------------------
  // Parsing and printing

  /** `StreamID.parse`: the two sentinels, then exactly one `-` between two
      integers; anything else is a ValueError. */
  function Parse(s: string): (r: Result<StreamId, Exception>)
    ensures s == "-" ==> r == Success(Minimum)
    ensures s == "+" ==> r == Success(Maximum)
    ensures s != "+" && '-' !in s ==> r == Failure(FormatError(s))
    ensures Count(s, '-') >= 2 ==> r == Failure(FormatError(s))
    ensures r.Success? && s != "-" && s != "+" ==> Count(s, '-') == 1
  {
    SplitParts(s, '-');
    if s == "-" then Success(Minimum)
    else if s == "+" then Success(Maximum)
    else if '-' !in s then Failure(FormatError(s))
    else
      var parts := Split(s, '-');
      if |parts| != 2 then Failure(FormatError(s))
      else
        match IntOf(parts[0])
        case Failure(e) => Failure(e)
        case Success(ts) =>
          match IntOf(parts[1])
          case Failure(e) => Failure(e)
          case Success(sq) => Success(StreamId(ts, sq))
  }

  /** `str(id)`: `<timestamp>-<sequence>`. */
  function ToString(id: StreamId): string
  {
    IntToString(id.timestamp) + "-" + IntToString(id.sequence)
  }

  /** Two integers around one dash parse to that pair. */
  lemma ParseAroundDash(a: string, b: string)
    requires '-' !in a && '-' !in b
    requires ParseInt(a).Some? && ParseInt(b).Some?
    ensures Parse(a + "-" + b) == Success(StreamId(ParseInt(a).value, ParseInt(b).value))
  {
    var s := a + "-" + b;
    assert s[|a|] == '-';
    assert |s| >= 3;
    SplitAround(a, b, '-');
  }

  /** Printing then parsing gives back any ID with non-negative parts. */
  lemma ParseOfToString(id: StreamId)
    requires id.timestamp >= 0 && id.sequence >= 0
    ensures Parse(ToString(id)) == Success(id)
  {
    IntToStringHasNoDash(id.timestamp);
    IntToStringHasNoDash(id.sequence);
    ParseIntOfIntToString(id.timestamp);
    ParseIntOfIntToString(id.sequence);
    ParseAroundDash(IntToString(id.timestamp), IntToString(id.sequence));
  }

  // ---------------------------------------------------------------------
  // Ordering

  /** `__lt__`: timestamps first, then sequences. */
  predicate Less(a: StreamId, b: StreamId)
  {
    a.timestamp < b.timestamp || (a.timestamp == b.timestamp && a.sequence < b.sequence)
  }

  /** `__le__`: `a < b or a == b`. */
  predicate LessEq(a: StreamId, b: StreamId)
  {
    Less(a, b) || a == b
  }

  /** `__gt__`: `not a <= b`. */
  predicate Greater(a: StreamId, b: StreamId)
  {
    !LessEq(a, b)
  }

  /** `__ge__`: `not a < b`. */
  predicate GreaterEq(a: StreamId, b: StreamId)
  {
    !Less(a, b)
  }

  /** `<` is a strict total order: irreflexive, transitive, and any two
      IDs are equal or ordered one way. */
  lemma LessIsStrictTotalOrder(a: StreamId, b: StreamId, c: StreamId)
    ensures !Less(a, a)
    ensures Less(a, b) && Less(b, c) ==> Less(a, c)
    ensures Less(a, b) || a == b || Less(b, a)
    ensures !(Less(a, b) && Less(b, a))
  {
  }

  /** The derived comparisons are the converses of `<` and `<=`. */
  lemma DerivedComparisons(a: StreamId, b: StreamId)
    ensures Greater(a, b) <==> Less(b, a)
    ensures GreaterEq(a, b) <==> LessEq(b, a)
    ensures LessEq(a, b) <==> !Less(b, a)
  {
  }

  // ---------------------------------------------------------------------
  // The successor rule

  /** `is_valid_successor_to`: 0-0 is never allowed, and an ID must be
      above the previous top when there is one. True or a ValueError. */
  function ValidSuccessor(id: StreamId, previous: Option<StreamId>): (r: Result<bool, Exception>)
    ensures r.Success? <==> id != Minimum && (previous.None? || Greater(id, previous.value))
    ensures r.Success? ==> r.value
    ensures id == Minimum ==> r == Failure(ValueError(ZeroIdMessage))
    ensures id != Minimum && r.Failure? ==> r == Failure(ValueError(NotGreaterMessage))
  {
    if id == Minimum then Failure(ValueError(ZeroIdMessage))
    else if previous.Some? && LessEq(id, previous.value) then Failure(ValueError(NotGreaterMessage))
    else Success(true)
  }

  // ---------------------------------------------------------------------
  // StreamIDGenerator

  /** `_is_sequence_auto`: with a dash, the pattern must split in exactly
      two (else the unpacking raises) and the second part must be `*`. */
  function IsSequenceAuto(pattern: string): (r: Result<bool, Exception>)
    ensures '-' !in pattern ==> r == Success(false)
    ensures r.Failure? <==> Count(pattern, '-') >= 2
    ensures r.Success? && r.value ==> |Split(pattern, '-')| == 2 && Split(pattern, '-')[1] == "*"
  {
    SplitParts(pattern, '-');
    CountZero(pattern, '-');
    if '-' in pattern then
      var parts := Split(pattern, '-');
      if |parts| != 2 then Failure(ValueError(UnpackMessage))
      else Success(parts[1] == "*")
    else Success(false)
  }

  /** `_generate_full_auto`: the clock's whole seconds in milliseconds,
      sequence one past the top's when the top has that timestamp. */
  function GenerateFullAuto(top: Option<StreamId>, nowSeconds: nat): StreamId
  {
    var ts := nowSeconds * 1000;
    if top.None? then StreamId(ts, 0)
    else if ts == top.value.timestamp then StreamId(ts, top.value.sequence + 1)
    else StreamId(ts, 0)
  }

  /** `_generate_sequence_auto`: one past the top's sequence under the same
      timestamp, otherwise 1 for timestamp 0 and 0 for any other. */
  function GenerateSequenceAuto(timestamp: int, top: Option<StreamId>): StreamId
  {
    if top.Some? && top.value.timestamp == timestamp then StreamId(timestamp, top.value.sequence + 1)
    else if timestamp == 0 then StreamId(timestamp, 1)
    else StreamId(timestamp, 0)
  }

  /** `StreamIDGenerator.generate`, with the clock read passed in as whole
      seconds since the epoch. */
  function Generate(pattern: string, top: Option<StreamId>, nowSeconds: nat): (r: Result<StreamId, Exception>)
    ensures pattern == "*" ==> r == Success(GenerateFullAuto(top, nowSeconds))
    ensures Count(pattern, '-') >= 2 ==> r == Failure(ValueError(UnpackMessage))
    ensures pattern != "*" && '*' !in pattern && Count(pattern, '-') <= 1 ==> r == Parse(pattern)
  {
    CountZero(pattern, '-');
    if pattern == "*" then Success(GenerateFullAuto(top, nowSeconds))
    else
      match IsSequenceAuto(pattern)
      case Failure(e) => Failure(e)
      case Success(true) =>
        StarInPart(pattern, '-', 1);
        (match IntOf(Split(pattern, '-')[0])
         case Failure(e) => Failure(e)
         case Success(ts) => Success(GenerateSequenceAuto(ts, top)))
      case Success(false) => Parse(pattern)
  }

  /** A part of a split whose text is `*` means `*` occurs in the input. */
  lemma StarInPart(s: string, sep: char, k: nat)
    requires sep != '*' && k < |Split(s, sep)| && Split(s, sep)[k] == "*"
    ensures '*' in s
  {
    SplitKeepsChars(s, sep);
    assert '*' in Split(s, sep)[k];
  }

  /** `<ts>-*` with an integer `ts` takes the sequence-auto path. */
  lemma SequencePattern(a: string, top: Option<StreamId>, nowSeconds: nat)
    requires '-' !in a && ParseInt(a).Some?
    ensures Generate(a + "-*", top, nowSeconds) == Success(GenerateSequenceAuto(ParseInt(a).value, top))
  {
    assert a + "-*" == a + "-" + "*";
    SplitAround(a, "*", '-');
  }

  /** `<ts>-*` never produces the forbidden 0-0 as long as the top's
      sequence is not negative. */
  lemma SequenceAutoNeverZero(timestamp: int, top: Option<StreamId>)
    requires top.Some? ==> top.value.sequence >= 0
    ensures GenerateSequenceAuto(timestamp, top) != Minimum
    ensures GenerateSequenceAuto(timestamp, top).timestamp == timestamp
  {
  }

  /** A sequence-auto ID at or after the top's timestamp passes the
      successor rule. */
  lemma SequenceAutoIsSuccessor(timestamp: int, top: Option<StreamId>)
    requires top.Some? ==> top.value.sequence >= 0 && top.value.timestamp <= timestamp
    requires top.None? ==> timestamp >= 0
    ensures ValidSuccessor(GenerateSequenceAuto(timestamp, top), top) == Success(true)
  {
  }

  /** A full-auto ID taken at a clock no earlier than the top's timestamp
      passes the successor rule. */
  lemma FullAutoIsSuccessor(top: Option<StreamId>, nowSeconds: nat)
    requires nowSeconds > 0
    requires top.Some? ==> top.value.sequence >= 0 && top.value.timestamp <= nowSeconds * 1000
    ensures ValidSuccessor(GenerateFullAuto(top, nowSeconds), top) == Success(true)
    ensures GenerateFullAuto(top, nowSeconds).timestamp == nowSeconds * 1000
  {
    assert nowSeconds * 1000 >= 1000;
  }
}

=== FILE: stream_ops.dfy ===
/** Stream operations over the keyspace (app/data/stream_helper.py). The
    layer never checks a value's type name: it takes the payload of
    whatever value is live under the key, uses Python truthiness on it
    (an empty stream is false) and calls stream methods on it, which a
    str or list payload does not have (AttributeError). */
module StreamOps {
  import opened Wrappers
  import opened StreamIds
  import opened StreamEntries
  import opened Streams
  import opened Db

  /** What `add` returns or raises: the new ID, a RESPError built from the
      ValueError of `Stream.add`, or an exception that escapes. */
  datatype AddOutcome = Added(id: StreamId) | Rejected(message: string) | Raised(error: Exception)

  /** The store once `_get_or_create_stream` has run: an absent or
      expired key now holds a new empty stream without expiry. */
  function WithStream(store: Store, key: string, now: int): (r: Store)
    ensures key in r
    ensures Live(store, key, now).Some? ==> r == store
    ensures Live(store, key, now).None? ==> r[key] == RedisValue(StreamVal([]), None)
  {
    if Live(store, key, now).None? then Swept(store, key, now)[key := RedisValue(StreamVal([]), None)]
    else store
  }

  /** `add`: the outcome and the store afterwards. */
  function AddResult(store: Store, key: string, pattern: string, fields: seq<(string, string)>,
                     nowSeconds: nat, now: int): (AddOutcome, Store)
  {
    var base := WithStream(store, key, now);
    var v := base[key];
    if !v.data.StreamVal? then (Raised(AttributeError), base)
    else
      var entries := v.data.entries;
      match Generate(pattern, TopIdOf(entries), nowSeconds)
      case Failure(e) => (Raised(e), base)
      case Success(id) =>
        match Appended(entries, StreamEntry(id, fields))
        case Failure(ValueError(message)) => (Rejected(message), base)
        case Failure(e) => (Raised(e), base)
        case Success(next) => (Added(id), base[key := v.(data := StreamVal(next))])
  }

  /** Every stream in the store keeps its IDs strictly increasing. */
  predicate StreamsValid(store: Store)
  {
    forall k :: k in store && store[k].data.StreamVal? ==> StrictlyIncreasing(store[k].data.entries)
  }

  /** add on an absent key leaves a stream stored under it whatever
      happens next; a success appends exactly the new entry, which becomes
      the top; a rejection or a raise leaves the entries as they were;
      other keys are untouched. */
  lemma AddProperties(store: Store, key: string, pattern: string, fields: seq<(string, string)>,
                      nowSeconds: nat, now: int)
    requires StreamsValid(store)
    ensures var (outcome, after) := AddResult(store, key, pattern, fields, nowSeconds, now);
      var before := WithStream(store, key, now)[key];
      key in after
      && (Live(store, key, now).None? ==> after[key].DType() == "stream" && after[key].expiry.None?)
      && (outcome.Added? ==>
            (before.data.StreamVal?
             && after[key].data == StreamVal(before.data.entries + [StreamEntry(outcome.id, fields)])
             && TopIdOf(after[key].data.entries) == Some(outcome.id)
             && after[key].expiry == before.expiry))
      && (!outcome.Added? ==> after[key] == before)
      && (forall k :: k != key ==> (k in after <==> k in store) && (k in store ==> after[k] == store[k]))
  {
  }

  /** add keeps every stream of the store strictly increasing. */
  lemma AddKeepsStreamsValid(store: Store, key: string, pattern: string, fields: seq<(string, string)>,
                             nowSeconds: nat, now: int)
    requires StreamsValid(store)
    ensures StreamsValid(AddResult(store, key, pattern, fields, nowSeconds, now).1)
  {
    var base := WithStream(store, key, now);
    var v := base[key];
    assert StreamsValid(base);
    if v.data.StreamVal? {
      var entries := v.data.entries;
      var gen := Generate(pattern, TopIdOf(entries), nowSeconds);
      if gen.Success? && Appended(entries, StreamEntry(gen.value, fields)).Success? {
        AppendedKeepsOrder(entries, StreamEntry(gen.value, fields));
      }
    }
  }

  /** A rejected add carries the successor rule's ValueError text. */
  lemma AddRejection(store: Store, key: string, pattern: string, fields: seq<(string, string)>,
                     nowSeconds: nat, now: int)
    ensures var outcome := AddResult(store, key, pattern, fields, nowSeconds, now).0;
      outcome.Rejected? ==> outcome.message == ZeroIdMessage || outcome.message == NotGreaterMessage
  {
  }

  /** Only the append sits inside the `try`: a payload that is not a
      stream and every failure of the ID generator escape as they are, a
      failure of the successor rule becomes the RESPError message, and an
      accepted entry answers with its new ID. */
  lemma AddOutcomeSources(store: Store, key: string, pattern: string, fields: seq<(string, string)>,
                          nowSeconds: nat, now: int)
    ensures var v := WithStream(store, key, now)[key];
      var outcome := AddResult(store, key, pattern, fields, nowSeconds, now).0;
      && (!v.data.StreamVal? ==> outcome == Raised(AttributeError))
      && (v.data.StreamVal? ==>
            var g := Generate(pattern, TopIdOf(v.data.entries), nowSeconds);
            && (g.Failure? ==> outcome == Raised(g.error))
            && (g.Success? ==>
                  var appended := Appended(v.data.entries, StreamEntry(g.value, fields));
                  && (appended.Failure? ==> appended.error.ValueError? && outcome == Rejected(appended.error.message))
                  && (appended.Success? ==> outcome == Added(g.value))))
  {
  }

  /** A malformed pattern escapes from the generator, outside the `try`. */
  lemma MalformedPatternRaises(store: Store, key: string, pattern: string, fields: seq<(string, string)>,
                               nowSeconds: nat, now: int)
    requires Text.Count(pattern, '-') >= 2
    requires Live(store, key, now).None? || Live(store, key, now).value.data.StreamVal?
    ensures AddResult(store, key, pattern, fields, nowSeconds, now).0 == Raised(ValueError(UnpackMessage))
  {
  }

  /** `_get_stream` followed by the truthiness test the callers make:
      the payload when it is non-empty, None otherwise. */
  function TruthyPayload(store: Store, key: string, now: int): (r: Option<Data>)
    ensures r.Some? <==> Live(store, key, now).Some? && Truthy(Live(store, key, now).value.data)
    ensures r.Some? ==> r.value == store[key].data
  {
    match Live(store, key, now)
    case None => None
    case Some(v) => if Truthy(v.data) then Some(v.data) else None
  }

  /** `xrange`: [] for an absent or empty value; otherwise the bounds are
      parsed (`-` and `+` are the extreme IDs) and the stream's range is
      returned. */
  function XRangeReply(store: Store, key: string, startText: string, endText: string, now: int)
    : (r: Result<seq<StreamEntry>, Exception>)
    ensures TruthyPayload(store, key, now).None? ==> r == Success([])
    ensures TruthyPayload(store, key, now).Some? && !TruthyPayload(store, key, now).value.StreamVal? ==>
      r == Failure(AttributeError)
    ensures TruthyPayload(store, key, now).Some? && TruthyPayload(store, key, now).value.StreamVal? ==>
      && (Parse(startText).Failure? ==> r == Failure(Parse(startText).error))
      && (Parse(startText).Success? && Parse(endText).Failure? ==> r == Failure(Parse(endText).error))
      && (Parse(startText).Success? && Parse(endText).Success? ==>
            r == Success(RangeOf(TruthyPayload(store, key, now).value.entries, Parse(startText).value, Parse(endText).value)))
    ensures r.Success? && TruthyPayload(store, key, now).Some? ==>
      TruthyPayload(store, key, now).value.StreamVal?
      && Parse(startText).Success? && Parse(endText).Success?
      && r.value == RangeOf(TruthyPayload(store, key, now).value.entries, Parse(startText).value, Parse(endText).value)
  {
    match TruthyPayload(store, key, now)
    case None => Success([])
    case Some(d) =>
      if !d.StreamVal? then Failure(AttributeError)
      else
        match Parse(startText)
        case Failure(e) => Failure(e)
        case Success(start) =>
          match Parse(endText)
          case Failure(e) => Failure(e)
          case Success(end) => Success(RangeOf(d.entries, start, end))
  }

  /** `xread` as written: None for an absent or empty value, and for any
      other value the call to `read`, which `Stream` does not define. */
  function XReadAsWritten(store: Store, key: string, idText: string, now: int)
    : (r: Result<Option<seq<StreamEntry>>, Exception>)
    ensures r.Success? <==> TruthyPayload(store, key, now).None?
    ensures r.Success? ==> r.value.None?
    ensures r.Failure? ==> r.error == AttributeError
  {
    match TruthyPayload(store, key, now)
    case None => Success(None)
    case Some(_) => Failure(AttributeError)
  }

  /** `xread` with the read it evidently intends: the entries after the
      parsed ID, in log order. */
  function XReadReply(store: Store, key: string, idText: string, now: int)
    : (r: Result<Option<seq<StreamEntry>>, Exception>)
    ensures TruthyPayload(store, key, now).None? ==> r == Success(None)
    ensures TruthyPayload(store, key, now).Some? && !TruthyPayload(store, key, now).value.StreamVal? ==>
      r == Failure(AttributeError)
    ensures TruthyPayload(store, key, now).Some? && TruthyPayload(store, key, now).value.StreamVal? ==>
      && (Parse(idText).Failure? ==> r == Failure(Parse(idText).error))
      && (Parse(idText).Success? ==>
            r == Success(Some(After(TruthyPayload(store, key, now).value.entries, Parse(idText).value))))
    ensures r.Success? && r.value.Some? ==>
      TruthyPayload(store, key, now).Some? && TruthyPayload(store, key, now).value.StreamVal?
      && Parse(idText).Success?
      && forall e :: e in r.value.value <==>
           e in TruthyPayload(store, key, now).value.entries && Greater(e.id, Parse(idText).value)
  {
    match TruthyPayload(store, key, now)
    case None => Success(None)
    case Some(d) =>
      if !d.StreamVal? then Failure(AttributeError)
      else
        match Parse(idText)
        case Failure(e) => Failure(e)
        case Success(id) => Success(Some(After(d.entries, id)))
  }

  /** On a stream whose IDs increase, the intended read answers a suffix
      of the log: the entries after the ID, in the order they were added. */
  lemma XReadIsSuffix(store: Store, key: string, idText: string, now: int)
    requires TruthyPayload(store, key, now).Some? && TruthyPayload(store, key, now).value.StreamVal?
    requires StrictlyIncreasing(TruthyPayload(store, key, now).value.entries)
    requires Parse(idText).Success?
    ensures XReadReply(store, key, idText, now).Success? && XReadReply(store, key, idText, now).value.Some?
    ensures exists k :: (0 <= k <= |TruthyPayload(store, key, now).value.entries|
      && XReadReply(store, key, idText, now).value.value == TruthyPayload(store, key, now).value.entries[k..])
  {
    AfterIsSuffix(TruthyPayload(store, key, now).value.entries, Parse(idText).value);
  }

  /** The two agree wherever the one as written does not raise. */
  lemma XReadAgreement(store: Store, key: string, idText: string, now: int)
    ensures XReadAsWritten(store, key, idText, now).Success? ==>
      XReadReply(store, key, idText, now) == XReadAsWritten(store, key, idText, now)
  {
  }

  /** On any non-empty stream the one as written raises, where the
      intended read of `0-0` returns the whole log. */
  lemma XReadAsWrittenFails(store: Store, key: string, now: int)
    requires key in store && !Expired(store[key], now)
    requires store[key].data.StreamVal? && |store[key].data.entries| > 0
    requires StrictlyIncreasing(store[key].data.entries)
    requires forall e :: e in store[key].data.entries ==> Greater(e.id, Minimum)
    ensures XReadAsWritten(store, key, "0-0", now) == Failure(AttributeError)
    ensures XReadReply(store, key, "0-0", now) == Success(Some(store[key].data.entries))
  {
    var entries := store[key].data.entries;
    assert Parse("0-0") == Success(Minimum) by {
      ParseAroundDash("0", "0");
      assert "0" + "-" + "0" == "0-0";
    }
    forall j | 0 <= j < |entries| ensures Greater(entries[j].id, Minimum) {
      assert entries[j] in entries;
    }
    AfterKeepsAll(entries, Minimum);
  }

  /** The reads of this layer see the store only through `get`: two
      stores with the same live value under `key` read alike. */
  lemma ReadsSeeOnlyLive(s1: Store, s2: Store, key: string, now: int)
    requires Live(s1, key, now) == Live(s2, key, now)
    ensures TopIdReply(s1, key, now) == TopIdReply(s2, key, now)
    ensures forall id :: XReadReply(s1, key, id, now) == XReadReply(s2, key, id, now)
  {
    assert TruthyPayload(s1, key, now) == TruthyPayload(s2, key, now);
  }

  /** `top_id`: None for an absent or empty value, else the stream's top ID. */
  function TopIdReply(store: Store, key: string, now: int): (r: Result<Option<StreamId>, Exception>)
    ensures TruthyPayload(store, key, now).None? ==> r == Success(None)
    ensures TruthyPayload(store, key, now).Some? && !TruthyPayload(store, key, now).value.StreamVal? ==>
      r == Failure(AttributeError)
    ensures TruthyPayload(store, key, now).Some? && TruthyPayload(store, key, now).value.StreamVal? ==>
      r == Success(TopIdOf(TruthyPayload(store, key, now).value.entries))
    ensures r.Success? && TruthyPayload(store, key, now).Some? ==>
      TruthyPayload(store, key, now).value.StreamVal?
      && r.value == TopIdOf(TruthyPayload(store, key, now).value.entries) && r.value.Some?
  {
    match TruthyPayload(store, key, now)
    case None => Success(None)
    case Some(d) => if d.StreamVal? then Success(TopIdOf(d.entries)) else Failure(AttributeError)
  }

  /** The object of stream_helper.py, working on a shared database. */
  class StreamOps {
    const db: DataBase

    constructor(db: DataBase)
      ensures this.db == db
    {
      this.db := db;
    }

    /** `_get_stream`: the payload of the live value. */
    method GetStream(key: string, now: int) returns (r: Option<Data>)
      modifies db
      ensures r == (match Live(old(db.store), key, now) case None => None case Some(v) => Some(v.data))
      ensures db.store == Swept(old(db.store), key, now)
    {
      var v := db.Get(key, now);
      if v.None? {
        return None;
      }
      return Some(v.value.data);
    }

    /** `_get_or_create_stream`. */
    method GetOrCreateStream(key: string, now: int) returns (r: Data)
      modifies db
      ensures db.store == WithStream(old(db.store), key, now)
      ensures r == db.store[key].data
    {
      var v := db.Get(key, now);
      if v.None? {
        var created := RedisValue(StreamVal([]), None);
        db.Set(key, created);
        return created.data;
      }
      return v.value.data;
    }

    /** `add`. */
    method Add(key: string, pattern: string, fields: seq<(string, string)>, nowSeconds: nat, now: int)
      returns (r: AddOutcome)
      modifies db
      ensures (r, db.store) == AddResult(old(db.store), key, pattern, fields, nowSeconds, now)
    {
      var data := GetOrCreateStream(key, now);
      if !data.StreamVal? {
        return Raised(AttributeError);
      }
      var generated := Generate(pattern, TopIdOf(data.entries), nowSeconds);
      if generated.Failure? {
        return Raised(generated.error);
      }
      var id := generated.value;
      var appended := Appended(data.entries, StreamEntry(id, fields));
      if appended.Failure? {
        if appended.error.ValueError? {
          return Rejected(appended.error.message);
        }
        return Raised(appended.error);
      }
      var v := db.store[key];
      db.Set(key, v.(data := StreamVal(appended.value)));
      return Added(id);
    }

    /** `xrange`. */
    method XRange(key: string, startText: string, endText: string, now: int)
      returns (r: Result<seq<StreamEntry>, Exception>)
      modifies db
      ensures r == XRangeReply(old(db.store), key, startText, endText, now)
      ensures db.store == Swept(old(db.store), key, now)
    {
      var data := GetStream(key, now);
      if data.None? || !Truthy(data.value) {
        return Success([]);
      }
      if !data.value.StreamVal? {
        return Failure(AttributeError);
      }
      var start := Parse(startText);
      if start.Failure? {
        return Failure(start.error);
      }
      var end := Parse(endText);
      if end.Failure? {
        return Failure(end.error);
      }
      return Success(RangeOf(data.value.entries, start.value, end.value));
    }

    /** `xread`, with the intended read of the entries after the ID. */
    method XRead(key: string, idText: string, now: int) returns (r: Result<Option<seq<StreamEntry>>, Exception>)
      modifies db
      ensures r == XReadReply(old(db.store), key, idText, now)
      ensures db.store == Swept(old(db.store), key, now)
    {
      var data := GetStream(key, now);
      if data.None? || !Truthy(data.value) {
        return Success(None);
      }
      if !data.value.StreamVal? {
        return Failure(AttributeError);
      }
      var id := Parse(idText);
      if id.Failure? {
        return Failure(id.error);
      }
      return Success(Some(After(data.value.entries, id.value)));
    }

    /** `has_data`: any live value counts, even an empty stream or another kind. */
    method HasData(key: string, now: int) returns (b: bool)
      modifies db
      ensures b <==> Live(old(db.store), key, now).Some?
      ensures db.store == Swept(old(db.store), key, now)
    {
      var data := GetStream(key, now);
      return data.Some?;
    }

    /** `top_id`. */
    method TopId(key: string, now: int) returns (r: Result<Option<StreamId>, Exception>)
      modifies db
      ensures r == TopIdReply(old(db.store), key, now)
      ensures db.store == Swept(old(db.store), key, now)
    {
      var data := GetStream(key, now);
      if data.None? || !Truthy(data.value) {
        return Success(None);
      }
      if !data.value.StreamVal? {
        return Failure(AttributeError);
      }
      return Success(TopIdOf(data.value.entries));
    }
  }
}

=== FILE: string_ops.dfy ===
/** String operations over the keyspace (app/data/string_helper.py). */
module StringOps {
  import opened Wrappers
  import opened RespTypes
  import opened Db

  const WrongTypeMessage: string := "WRONGTYPE Operation against a key holding the wrong kind of value"

  /** What `get` replies: None for an absent or expired key, the WRONGTYPE
      error for another kind, otherwise the stored text. */
  function GetReply(store: Store, key: string, now: int): (r: Value)
    ensures Live(store, key, now).None? <==> r == Nil
    ensures Live(store, key, now).Some? && !Live(store, key, now).value.data.StrVal? <==> r == Err(WrongTypeMessage)
    ensures r.Str? <==> Live(store, key, now).Some? && Live(store, key, now).value.data.StrVal?
    ensures r.Str? ==> Live(store, key, now).value.data == StrVal(r.s)
  {
    match Live(store, key, now)
    case None => Nil
    case Some(v) => if v.DType() != "string" then Err(WrongTypeMessage) else Str(v.data.s)
  }

  /** A set followed by a get reads the value back, unless the given
      expiry has already passed; the previous kind and expiry are gone. */
  lemma GetAfterSet(store: Store, key: string, text: string, expiry: Option<int>, now: int)
    ensures GetReply(store[key := RedisValue(StrVal(text), expiry)], key, now)
      == if expiry.Some? && expiry.value < now then Nil else Str(text)
  {
  }

  /** The object of string_helper.py, working on a shared database. */
  class StringOps {
    const database: DataBase

    constructor(database: DataBase)
      ensures this.database == database
    {
      this.database := database;
    }

    /** `get`: a read, so only the lazy deletion can change the store. */
    method Get(key: string, now: int) returns (r: Value)
      modifies database
      ensures r == GetReply(old(database.store), key, now)
      ensures database.store == Swept(old(database.store), key, now)
    {
      var v := database.Get(key, now);
      if v.None? {
        return Nil;
      }
      if v.value.DType() != "string" {
        return Err(WrongTypeMessage);
      }
      return Str(v.value.data.s);
    }

    /** `set`: a string value with the given expiry replaces whatever was there. */
    method Set(key: string, value: string, expiry: Option<int>)
      modifies database
      ensures database.store == old(database.store)[key := RedisValue(StrVal(value), expiry)]
    {
      database.Set(key, RedisValue(StrVal(value), expiry));
    }

    /** `has_data`: `database.exists`, true for a live key of any kind. */
    method HasData(key: string, now: int) returns (b: bool)
      modifies database
      ensures b <==> Live(old(database.store), key, now).Some?
      ensures database.store == Swept(old(database.store), key, now)
    {
      b := database.Exists(key, now);
    }
  }
}

=== FILE: text.dfy ===
/** Text helpers standing for the Python built-ins the core relies on:
    `str(int)`, `int(str)`, `bytes.index(b"\r\n")`, `str.split`,
    `str.upper`/`str.lower` and slicing with Python's index rules. */
module Text {
  import opened Wrappers

  const CRLF: string := "\r\n"

  // ---------------------------------------------------------------------
  // Decimal digits

  predicate IsDigit(c: char) { '0' <= c <= '9' }

  predicate AllDigits(s: string) { forall i :: 0 <= i < |s| ==> IsDigit(s[i]) }

  function DigitChar(d: nat): (c: char)
    requires d < 10
    ensures IsDigit(c)
  {
    ['0', '1', '2', '3', '4', '5', '6', '7', '8', '9'][d]
  }

  function DigitValue(c: char): (d: nat)
    requires IsDigit(c)
    ensures d < 10
  {
    (c as int - '0' as int) as nat
  }

  /** The value of a run of decimal digits, most significant first. */
  function DigitsValue(s: string): nat
    requires AllDigits(s)
  {
    if s == [] then 0 else DigitsValue(s[..|s| - 1]) * 10 + DigitValue(s[|s| - 1])
  }

  /** `str(n)` for a non-negative Python int: no sign, no leading zero. */
  function NatToString(n: nat): (s: string)
    ensures |s| >= 1 && AllDigits(s)
    ensures DigitsValue(s) == n
    ensures |s| > 1 ==> s[0] != '0'
  {
    if n < 10 then [DigitChar(n)]
    else
      var s := NatToString(n / 10) + [DigitChar(n % 10)];
      assert s[..|s| - 1] == NatToString(n / 10);
      s
  }

  /** `str(n)` for any Python int. */
  function IntToString(n: int): (s: string)
    ensures |s| >= 1
    ensures n >= 0 ==> s == NatToString(n)
    ensures n < 0 ==> s == "-" + NatToString(-n)
  {
    if n < 0 then "-" + NatToString(-n) else NatToString(n)
  }

  /** `int(s)` on ASCII text: an optional sign followed by at least one
      decimal digit; anything else is a ValueError (None here). */
  function ParseInt(s: string): (r: Option<int>)
    ensures r.Some? ==> |s| >= 1
    ensures r.Some? && AllDigits(s) ==> r.value == DigitsValue(s)
  {
    if |s| == 0 then None
    else if s[0] == '-' || s[0] == '+' then
      var digits := s[1..];
      if |digits| > 0 && AllDigits(digits) then
        var v: int := DigitsValue(digits);
        Some(if s[0] == '-' then -v else v)
      else None
    else if AllDigits(s) then Some(DigitsValue(s))
    else None
  }

  lemma ParseIntOfIntToString(n: int)
    ensures ParseInt(IntToString(n)) == Some(n)
  {
    if n < 0 {
      assert IntToString(n)[1..] == NatToString(-n);
    }
  }

  lemma IntToStringHasNoDash(n: nat)
    ensures '-' !in IntToString(n)
  {
    var s := IntToString(n);
    assert forall i :: 0 <= i < |s| ==> IsDigit(s[i]);
  }

  // ---------------------------------------------------------------------
  // The CRLF terminator

  predicate CrlfAt(s: string, i: int)
  {
    0 <= i && i + 1 < |s| && s[i] == '\r' && s[i + 1] == '\n'
  }

  predicate NoCrlf(s: string)
  {
    forall i | 0 <= i < |s| :: !CrlfAt(s, i)
  }

  function FindCrlfFrom(s: string, i: nat): (r: Option<nat>)
    requires i <= |s|
    decreases |s| - i
    ensures r.Some? ==> i <= r.value && CrlfAt(s, r.value)
    ensures r.Some? ==> forall j :: i <= j < r.value ==> !CrlfAt(s, j)
    ensures r.None? ==> forall j :: i <= j ==> !CrlfAt(s, j)
  {
    if i + 1 >= |s| then None
    else if s[i] == '\r' && s[i + 1] == '\n' then Some(i)
    else FindCrlfFrom(s, i + 1)
  }

  /** `data.index(b"\r\n")`: the first position of CRLF, None for ValueError. */
  function FindCrlf(s: string): (r: Option<nat>)
    ensures r.Some? ==> CrlfAt(s, r.value) && forall j :: 0 <= j < r.value ==> !CrlfAt(s, j)
    ensures r.None? <==> NoCrlf(s)
  {
    FindCrlfFrom(s, 0)
  }

  /** Text without CRLF followed by CRLF: the terminator found is that one. */
  lemma FindCrlfOfFramed(a: string, b: string)
    requires NoCrlf(a)
    ensures FindCrlf(a + CRLF + b) == Some(|a|)
  {
    var s := a + CRLF + b;
    assert CrlfAt(s, |a|);
    forall j | 0 <= j < |a| ensures !CrlfAt(s, j) {
      if j < |a| - 1 {
        assert !CrlfAt(a, j);
      }
    }
    var r := FindCrlf(s);
    assert r.Some?;
    assert !(r.value < |a|);
    assert !(r.value > |a|);
  }

  lemma NoCrlfOfDigits(s: string)
    requires AllDigits(s)
    ensures NoCrlf(s)
  {
    forall i ensures !CrlfAt(s, i) {
      if 0 <= i < |s| {
        assert IsDigit(s[i]);
      }
    }
  }

  lemma NoCrlfOfIntToString(n: int)
    ensures NoCrlf(IntToString(n))
  {
    var s := IntToString(n);
    forall i ensures !CrlfAt(s, i) {
      if 0 <= i && i + 1 < |s| {
        assert IsDigit(s[i + 1]) by {
          if n < 0 {
            assert s[i + 1] == NatToString(-n)[i];
          }
        }
      }
    }
  }

  /** A first character other than CR in front of CRLF-free text keeps it CRLF-free. */
  lemma NoCrlfCons(c: char, s: string)
    requires c != '\r' && NoCrlf(s)
    ensures NoCrlf([c] + s)
  {
    var t := [c] + s;
    forall i ensures !CrlfAt(t, i) {
      if 1 <= i {
        assert !CrlfAt(s, i - 1);
      }
    }
  }

  lemma NoCrlfAppend(a: string, b: string)
    requires NoCrlf(a) && NoCrlf(b)
    requires |a| > 0 ==> a[|a| - 1] != '\r'
    ensures NoCrlf(a + b)
  {
    var t := a + b;
    forall i ensures !CrlfAt(t, i) {
      if 0 <= i < |a| - 1 {
        assert !CrlfAt(a, i);
      } else if i >= |a| {
        assert !CrlfAt(b, i - |a|);
      }
    }
  }

  // ---------------------------------------------------------------------
  // str.split(sep) with a one-character separator

  function Split(s: string, sep: char): (parts: seq<string>)
    ensures |parts| >= 1
  {
    if s == [] then [""]
    else
      var rest := Split(s[1..], sep);
      if s[0] == sep then [""] + rest
      else [[s[0]] + rest[0]] + rest[1..]
  }

  lemma {:induction false} SplitWithout(s: string, sep: char)
    requires sep !in s
    ensures Split(s, sep) == [s]
  {
    if s != [] {
      SplitWithout(s[1..], sep);
      assert [s[0]] + s[1..] == s;
    }
  }

  lemma {:induction false} SplitAround(a: string, b: string, sep: char)
    requires sep !in a && sep !in b
    ensures Split(a + [sep] + b, sep) == [a, b]
  {
    if a == [] {
      assert a + [sep] + b == [sep] + b;
      assert ([sep] + b)[1..] == b;
      SplitWithout(b, sep);
    } else {
      assert (a + [sep] + b)[1..] == a[1..] + [sep] + b;
      SplitAround(a[1..], b, sep);
      assert [a[0]] + a[1..] == a;
    }
  }

  /** Every part is separator-free, and there is one part more than separators. */
  lemma {:induction false} SplitParts(s: string, sep: char)
    ensures forall p :: p in Split(s, sep) ==> sep !in p
    ensures |Split(s, sep)| == Count(s, sep) + 1
  {
    if s != [] {
      SplitParts(s[1..], sep);
    }
  }

  /** The number of occurrences of `c` in `s` (`str.count`, `list.count`). */
  function Count<T(==)>(s: seq<T>, c: T): nat
  {
    if s == [] then 0 else (if s[0] == c then 1 else 0) + Count(s[1..], c)
  }

  lemma {:induction false} CountZero<T>(s: seq<T>, c: T)
    ensures Count(s, c) == 0 <==> c !in s
  {
    if s != [] {
      CountZero(s[1..], c);
      assert c in s <==> s[0] == c || c in s[1..];
    }
  }

  /** Counting distributes over concatenation. */
  lemma {:induction false} CountAppend<T>(a: seq<T>, b: seq<T>, c: T)
    ensures Count(a + b, c) == Count(a, c) + Count(b, c)
  {
    if a != [] {
      assert (a + b)[1..] == a[1..] + b;
      CountAppend(a[1..], b, c);
    } else {
      assert a + b == b;
    }
  }

  /** Counting from the back: the last element adds one when it matches. */
  lemma CountSnoc<T>(s: seq<T>, c: T)
    requires s != []
    ensures Count(s, c) == Count(s[..|s| - 1], c) + (if s[|s| - 1] == c then 1 else 0)
  {
    assert s == s[..|s| - 1] + [s[|s| - 1]];
    CountAppend(s[..|s| - 1], [s[|s| - 1]], c);
  }

  /** Every character of every part of a split comes from the input. */
  lemma {:induction false} SplitKeepsChars(s: string, sep: char)
    ensures forall k, c :: 0 <= k < |Split(s, sep)| && c in Split(s, sep)[k] ==> c in s
  {
    if s != [] {
      SplitKeepsChars(s[1..], sep);
      var rest := Split(s[1..], sep);
      forall k, c | 0 <= k < |Split(s, sep)| && c in Split(s, sep)[k] ensures c in s {
        if s[0] == sep {
          if k > 0 {
            assert Split(s, sep)[k] == rest[k - 1];
            assert c in s[1..];
          }
        } else if k == 0 {
          assert Split(s, sep)[0] == [s[0]] + rest[0];
          if c != s[0] {
            assert c in rest[0];
            assert c in s[1..];
          }
        } else {
          assert Split(s, sep)[k] == rest[k];
          assert c in s[1..];
        }
      }
    }
  }

  // ---------------------------------------------------------------------
  // Letter case (ASCII letters only)

  function UpperChar(c: char): char
  {
    if 'a' <= c <= 'z' then (c as int - 32) as char else c
  }

  function LowerChar(c: char): char
  {
    if 'A' <= c <= 'Z' then (c as int + 32) as char else c
  }

  /** `s.upper()`. */
  function Upper(s: string): (r: string)
    ensures |r| == |s|
    ensures forall i :: 0 <= i < |s| ==> r[i] == UpperChar(s[i])
  {
    seq(|s|, i requires 0 <= i < |s| => UpperChar(s[i]))
  }

  /** `s.lower()`. */
  function Lower(s: string): (r: string)
    ensures |r| == |s|
    ensures forall i :: 0 <= i < |s| ==> r[i] == LowerChar(s[i])
  {
    seq(|s|, i requires 0 <= i < |s| => LowerChar(s[i]))
  }

  // ---------------------------------------------------------------------
  // Dictionaries

  /** `d.get(k, default)`. */
  function DictGet<K(==), V>(d: map<K, V>, k: K, default: V): (r: V)
    ensures k in d ==> r == d[k]
    ensures k !in d ==> r == default
  {
    if k in d then d[k] else default
  }

  // ---------------------------------------------------------------------
  // Python slicing s[i:j] (step 1), negative indices counting from the end

  function PyIndex(i: int, len: nat): (k: nat)
    ensures k <= len
  {
    if i < 0 then (if i + len < 0 then 0 else i + len)
    else if i > len then len
    else i
  }

  function PySlice<T>(s: seq<T>, i: int, j: int): (r: seq<T>)
    ensures 0 <= i <= j <= |s| ==> r == s[i..j]
  {
    var lo := PyIndex(i, |s|);
    var hi := PyIndex(j, |s|);
    if hi <= lo then [] else s[lo..hi]
  }

  /** `s[i:]`. */
  function PySuffix<T>(s: seq<T>, i: int): (r: seq<T>)
    ensures 0 <= i <= |s| ==> r == s[i..]
  {
    s[PyIndex(i, |s|)..]
  }
}

=== FILE: type_command.dfy ===
/** The TYPE command (app/commands/type.py): the kind of the value under a
    key, as a simple string, or "none". */
module TypeCommand {
  import opened Wrappers
  import opened Text
  import opened RespTypes
  import opened Db
  import opened Commands
  import opened StreamOps

  /** `name = "TYPE"`, `arity = (1, 1)`. */
  const Type: Command := Command("TYPE", 1, Finite(1))

  /** The reply to `TYPE key`. */
  function TypeReply(store: Store, key: string, now: int): (r: Value)
    ensures r.Simple?
    ensures Live(store, key, now).None? <==> r == Simple("none")
    ensures Live(store, key, now).Some? ==> r == Simple(Live(store, key, now).value.DType())
  {
    match Live(store, key, now)
    case None => Simple("none")
    case Some(v) => Simple(v.DType())
  }

  /** TYPE takes exactly one argument; any other count gets the short
      arity message. */
  lemma TypeArity(args: seq<Value>)
    ensures |args| == 1 ==> Type.Validate(Some(args)).None?
    ensures |args| != 1 ==> Type.Validate(Some(args)) == Some("ERR wrong number of arguments for 'type' command")
  {
    assert Lower("TYPE") == "type";
    assert "ERR wrong number of arguments for '" + "type" + "' command" == "ERR wrong number of arguments for 'type' command";
  }

  /** XADD on an absent key makes TYPE report a stream, whatever the
      outcome of the append. */
  lemma TypeAfterXAdd(store: Store, key: string, pattern: string, fields: seq<(string, string)>,
                      nowSeconds: nat, now: int)
    requires Live(store, key, now).None?
    ensures TypeReply(AddResult(store, key, pattern, fields, nowSeconds, now).1, key, now) == Simple("stream")
  {
  }

  /** The command object, over the shared database. */
  class TypeCommand {
    const database: DataBase

    constructor(database: DataBase)
      ensures this.database == database
    {
      this.database := database;
    }

    /** `execute`: a read, so an expired key is deleted and nothing else
        changes; without an argument, `args[0]` raises. */
    method Execute(args: seq<string>, now: int) returns (r: Result<Value, Exception>)
      modifies database
      ensures |args| == 0 ==> r == Failure(IndexError) && database.store == old(database.store)
      ensures |args| > 0 ==> r == Success(TypeReply(old(database.store), args[0], now))
      ensures |args| > 0 ==> database.store == Swept(old(database.store), args[0], now)
    {
      if |args| == 0 {
        return Failure(IndexError);
      }
      var value := database.Get(args[0], now);
      if value.Some? {
        return Success(Simple(value.value.DType()));
      }
      return Success(Simple("none"));
    }
  }
}

=== FILE: wrappers.dfy ===
/** The Option and Result wrappers shared by every module, and the Python
    exceptions that the modelled code lets escape to its caller. */
module Wrappers {

  datatype Option<+T> = None | Some(value: T)

  datatype Result<+T, +E> = Success(value: T) | Failure(error: E)

  /** An exception raised and not caught by the modelled function. */
  datatype Exception =
    | ValueError(message: string)
    | TypeError(message: string)
    | AttributeError
    | IndexError
    | KeyError
}

=== FILE: xread.dfy ===
/** The XREAD command (app/commands/xread.py): argument parsing, the
    immediate read of every listed stream with `$` resolution, and the
    blocking response with its unblock callback. Reads go through the
    corrected `StreamOps.XRead`. */
module XRead {
  import opened Wrappers
  import opened Text
  import opened RespTypes
  import opened StreamIds
  import opened StreamEntries
  import opened Streams
  import opened Db
  import opened StreamOps
  import opened Commands

  /** `name = "XREAD"`, `arity = (3, float("inf"))`. */
  const XReadArity: Command := Command("XREAD", 3, Unbounded)

  const SyntaxErrorMessage: string := "ERR syntax error"

  // ---------------------------------------------------------------- arguments

  /** What the normalising loop leaves in one slot: the STREAMS and BLOCK
      keywords in upper case, every other token as given. */
  function NormalToken(t: string): (r: string)
    ensures r == "STREAMS" <==> Upper(t) == "STREAMS"
    ensures r == "BLOCK" <==> Upper(t) == "BLOCK"
    ensures Upper(t) != "STREAMS" && Upper(t) != "BLOCK" ==> r == t
  {
    assert Upper("STREAMS") == "STREAMS" && Upper("BLOCK") == "BLOCK";
    if Upper(t) == "STREAMS" then "STREAMS"
    else if Upper(t) == "BLOCK" then "BLOCK"
    else t
  }

  function Normalized(args: seq<string>): (r: seq<string>)
    ensures |r| == |args|
    ensures forall i :: 0 <= i < |args| ==> r[i] == NormalToken(args[i])
  {
    seq(|args|, i requires 0 <= i < |args| => NormalToken(args[i]))
  }

  /** The loop at the head of `_parse_streams_args`, in place. */
  method NormalizeTokens(args: array<string>)
    modifies args
    ensures args[..] == Normalized(old(args[..]))
  {
    var i := 0;
    while i < args.Length
      invariant 0 <= i <= args.Length
      invariant forall j :: 0 <= j < i ==> args[j] == NormalToken(old(args[j]))
      invariant forall j :: i <= j < args.Length ==> args[j] == old(args[j])
    {
      if Upper(args[i]) == "STREAMS" {
        args[i] := Upper(args[i]);
      }
      if Upper(args[i]) == "BLOCK" {
        args[i] := Upper(args[i]);
      }
      i := i + 1;
    }
  }

  /** `list.index`: the first position of `x`, None when absent. */
  function IndexOf(s: seq<string>, x: string): (r: Option<nat>)
    ensures r.None? <==> x !in s
    ensures r.Some? ==> r.value < |s| && s[r.value] == x && x !in s[..r.value]
  {
    if s == [] then None
    else if s[0] == x then Some(0)
    else
      match IndexOf(s[1..], x)
      case None => None
      case Some(i) =>
        assert s[..i + 1] == [s[0]] + s[1..][..i];
        Some(i + 1)
  }

  /** `list.index` finds the first occurrence: a position holding `x` with
      no `x` before it is the one returned. */
  lemma IndexOfFirst(s: seq<string>, x: string, k: nat)
    requires k < |s| && s[k] == x && x !in s[..k]
    ensures IndexOf(s, x) == Some(k)
  {
    var r := IndexOf(s, x).value;
    if r < k {
      assert s[..k][r] == x;
    }
    if r > k {
      assert s[..r][k] == x;
    }
  }

  /** The keys, the IDs and the BLOCK time in milliseconds. */
  datatype ParsedArgs = ParsedArgs(keys: seq<string>, ids: seq<string>, blockMs: Option<int>)

  datatype ArgsOutcome = ArgsParsed(parsed: ParsedArgs) | SyntaxError | ArgsRaised(error: Exception)

  /** The rest of `_parse_streams_args`, on the normalised tokens: the
      tokens after the first STREAMS are split at half their number into
      keys and IDs; the token after the first BLOCK is the block time. */
  function ParseStreamsArgs(tokens: seq<string>): (r: ArgsOutcome)
    ensures r == SyntaxError <==> "STREAMS" !in tokens
    ensures r.ArgsParsed? ==>
      var streams := tokens[IndexOf(tokens, "STREAMS").value + 1..];
      && r.parsed.keys + r.parsed.ids == streams
      && |r.parsed.keys| == |streams| / 2
    ensures r.ArgsParsed? && "BLOCK" !in tokens ==> r.parsed.blockMs.None?
    ensures r.ArgsParsed? && "BLOCK" in tokens ==>
      IndexOf(tokens, "BLOCK").value + 1 < |tokens|
      && r.parsed.blockMs == ParseInt(tokens[IndexOf(tokens, "BLOCK").value + 1])
    ensures "STREAMS" in tokens && "BLOCK" !in tokens ==> r.ArgsParsed?
    ensures "STREAMS" in tokens && "BLOCK" in tokens ==>
      var b := IndexOf(tokens, "BLOCK").value;
      && (b + 1 >= |tokens| ==> r == ArgsRaised(IndexError))
      && (b + 1 < |tokens| && ParseInt(tokens[b + 1]).None? ==>
            r == ArgsRaised(ValueError("could not convert string to float: '" + tokens[b + 1] + "'")))
      && (b + 1 < |tokens| && ParseInt(tokens[b + 1]).Some? ==>
            r.ArgsParsed? && r.parsed.blockMs == ParseInt(tokens[b + 1]))
  {
    match IndexOf(tokens, "STREAMS")
    case None => SyntaxError
    case Some(s) =>
      var block: Result<Option<int>, Exception> :=
        match IndexOf(tokens, "BLOCK")
        case None => Success(None)
        case Some(b) =>
          if b + 1 >= |tokens| then Failure(IndexError)
          else
            match ParseInt(tokens[b + 1])
            case None => Failure(ValueError("could not convert string to float: '" + tokens[b + 1] + "'"))
            case Some(n) => Success(Some(n));
      if block.Failure? then ArgsRaised(block.error)
      else
        var streams := tokens[s + 1..];
        var mid := |streams| / 2;
        assert streams[..mid] + streams[mid..] == streams;
        ArgsParsed(ParsedArgs(streams[..mid], streams[mid..], block.value))
  }

  /** Without a STREAMS token in any letter case the reply is the syntax
      error; with one, the keyword is found. */
  lemma StreamsKeyword(args: seq<string>)
    ensures ParseStreamsArgs(Normalized(args)) == SyntaxError <==>
      forall i :: 0 <= i < |args| ==> Upper(args[i]) != "STREAMS"
  {
    var tokens := Normalized(args);
    if exists i :: 0 <= i < |args| && Upper(args[i]) == "STREAMS" {
      var i :| 0 <= i < |args| && Upper(args[i]) == "STREAMS";
      assert tokens[i] == "STREAMS";
    }
  }

  /** `_parse_streams_args` as a whole: normalises in place, then parses. */
  method ParseArgs(args: array<string>) returns (r: ArgsOutcome)
    modifies args
    ensures args[..] == Normalized(old(args[..]))
    ensures r == ParseStreamsArgs(args[..])
  {
    NormalizeTokens(args);
    r := ParseTokens(args[..]);
  }

  /** The steps of `_parse_streams_args` after normalisation. */
  method ParseTokens(tokens: seq<string>) returns (r: ArgsOutcome)
    ensures r == ParseStreamsArgs(tokens)
  {
    var s := IndexOf(tokens, "STREAMS");
    if s.None? {
      return SyntaxError;
    }
    var b := IndexOf(tokens, "BLOCK");
    var blockMs: Option<int> := None;
    if b.Some? {
      if b.value + 1 >= |tokens| {
        return ArgsRaised(IndexError);
      }
      var n := ParseInt(tokens[b.value + 1]);
      if n.None? {
        return ArgsRaised(ValueError("could not convert string to float: '" + tokens[b.value + 1] + "'"));
      }
      blockMs := n;
    }
    var streams := tokens[s.value + 1..];
    var mid := |streams| / 2;
    return ArgsParsed(ParsedArgs(streams[..mid], streams[mid..], blockMs));
  }

  // ---------------------------------------------------------------- immediate read

  /** `str(top_id)`: the ID text, or "None" for an empty or absent stream. */
  function TopIdText(top: Option<StreamId>): string
  {
    match top
    case None => "None"
    case Some(id) => StreamIds.ToString(id)
  }

  /** `_format_stream`: `[key, [entry.format() ...]]`. */
  function FormatStream(key: string, entries: seq<StreamEntry>): (r: Value)
    ensures r.Array? && |r.items| == 2 && r.items[0] == Str(key)
    ensures r.items[1].Array? && |r.items[1].items| == |entries|
    ensures forall i :: 0 <= i < |entries| ==> r.items[1].items[i] == Format(entries[i])
  {
    Array([Str(key), Array(seq(|entries|, i requires 0 <= i < |entries| => Format(entries[i])))])
  }

  /** The loop state: the store, the IDs with `$` resolved so far, the
      replies gathered and the exception that ended the loop, if any. */
  datatype ReadState = ReadState(store: Store, ids: seq<string>, replies: seq<Value>, raised: Option<Exception>)

  /** The ID a key is read after: `$` stands for the stream's top ID
      (`str(None)` when there is none), any other text for itself. */
  function ResolvedId(store: Store, key: string, id: string, now: int): Result<string, Exception>
  {
    if id != "$" then Success(id)
    else
      match TopIdReply(store, key, now)
      case Failure(e) => Failure(e)
      case Success(top) => Success(TopIdText(top))
  }

  /** Reading one listed key from a store: the resolved ID and what
      `xread` returns after it. */
  function KeyRead(store: Store, key: string, id: string, now: int)
    : Result<(string, Option<seq<StreamEntry>>), Exception>
  {
    match ResolvedId(store, key, id, now)
    case Failure(e) => Failure(e)
    case Success(resolved) =>
      match XReadReply(store, key, resolved, now)
      case Failure(e) => Failure(e)
      case Success(entries) => Success((resolved, entries))
  }

  /** The reply a read contributes: `[key, entries]` when it found
      entries, nothing otherwise. */
  function ReplyOf(key: string, entries: Option<seq<StreamEntry>>): seq<Value>
  {
    if entries.Some? && entries.value != [] then [FormatStream(key, entries.value)] else []
  }

  /** Two stores with the same live values read every key alike. */
  lemma KeyReadSeesOnlyLive(s1: Store, s2: Store, key: string, id: string, now: int)
    requires Live(s1, key, now) == Live(s2, key, now)
    ensures KeyRead(s1, key, id, now) == KeyRead(s2, key, id, now)
  {
    ReadsSeeOnlyLive(s1, s2, key, now);
  }

  /** One pass of the loop for the `i`-th key: resolve `$` through
      `top_id`, read after the ID, keep a non-empty result. */
  function ReadStep(st: ReadState, key: string, i: nat, now: int): (r: ReadState)
    requires i < |st.ids| && st.raised.None?
    ensures |r.ids| == |st.ids|
    ensures forall j :: 0 <= j < |st.ids| && j != i ==> r.ids[j] == st.ids[j]
    ensures r.store == Swept(st.store, key, now)
    ensures r.raised.None? <==> KeyRead(st.store, key, st.ids[i], now).Success?
    ensures r.raised.Some? ==>
      r.raised.value == KeyRead(st.store, key, st.ids[i], now).error && r.replies == st.replies
    ensures r.raised.None? ==>
      r.ids[i] == KeyRead(st.store, key, st.ids[i], now).value.0
      && r.replies == st.replies + ReplyOf(key, KeyRead(st.store, key, st.ids[i], now).value.1)
  {
    var swept := Swept(st.store, key, now);
    var resolved: Result<string, Exception> :=
      if st.ids[i] != "$" then Success(st.ids[i])
      else
        match TopIdReply(st.store, key, now)
        case Failure(e) => Failure(e)
        case Success(top) => Success(TopIdText(top));
    if resolved.Failure? then st.(store := swept, raised := Some(resolved.error))
    else
      var ids := st.ids[i := resolved.value];
      ReadIsIdempotent(st.store, key, now);
      ReadsSeeOnlyLive(swept, st.store, key, now);
      match XReadReply(swept, key, resolved.value, now)
      case Failure(e) => ReadState(swept, ids, st.replies, Some(e))
      case Success(entries) =>
        if entries.Some? && entries.value != [] then ReadState(swept, ids, st.replies + [FormatStream(key, entries.value)], None)
        else ReadState(swept, ids, st.replies, None)
  }

  /** The loop after its first `n` passes; it stops at an exception. */
  function ReadsUpTo(store: Store, keys: seq<string>, ids: seq<string>, now: int, n: nat): (r: ReadState)
    requires n <= |keys| <= |ids|
    ensures |r.ids| == |ids|
  {
    if n == 0 then ReadState(store, ids, [], None)
    else
      var st := ReadsUpTo(store, keys, ids, now, n - 1);
      if st.raised.Some? then st else ReadStep(st, keys[n - 1], n - 1, now)
  }

  /** What the first `n` keys answer, each read from the store as it was
      before the loop: the replies of the keys whose read finds entries,
      in the order the keys are listed, or the first exception. */
  function ImmediateReplies(store: Store, keys: seq<string>, ids: seq<string>, now: int, n: nat)
    : Result<seq<Value>, Exception>
    requires n <= |keys| <= |ids|
  {
    if n == 0 then Success([])
    else
      match ImmediateReplies(store, keys, ids, now, n - 1)
      case Failure(e) => Failure(e)
      case Success(replies) =>
        match KeyRead(store, keys[n - 1], ids[n - 1], now)
        case Failure(e) => Failure(e)
        case Success(read) => Success(replies + ReplyOf(keys[n - 1], read.1))
  }

  /** The loop answers what reading every key from the original store
      answers: its reads and sweeps do not disturb one another, an
      unresolved ID is still as given, and the store keeps its live values. */
  lemma {:induction false} ReadsMatchImmediate(store: Store, keys: seq<string>, ids: seq<string>, now: int, n: nat)
    requires n <= |keys| <= |ids|
    ensures var st := ReadsUpTo(store, keys, ids, now, n);
      var expected := ImmediateReplies(store, keys, ids, now, n);
      && (st.raised.None? <==> expected.Success?)
      && (st.raised.None? ==> st.replies == expected.value)
      && (st.raised.Some? ==> st.raised.value == expected.error)
      && (forall k :: Live(st.store, k, now) == Live(store, k, now))
      && (forall j :: n <= j < |ids| ==> st.ids[j] == ids[j])
  {
    if n > 0 {
      ReadsMatchImmediate(store, keys, ids, now, n - 1);
      var st := ReadsUpTo(store, keys, ids, now, n - 1);
      if st.raised.None? {
        KeyReadSeesOnlyLive(st.store, store, keys[n - 1], ids[n - 1], now);
        SweptKeepsLive(st.store, keys[n - 1], now);
      }
    }
  }

  /** A reply names one of the keys read and holds at least one entry. */
  predicate ReplyFor(reply: Value, keys: seq<string>)
  {
    reply.Array? && |reply.items| == 2 && reply.items[0].Str? && reply.items[0].s in keys
    && reply.items[1].Array? && |reply.items[1].items| > 0
  }

  /** Every immediate reply is `[key, entries]` for a listed key with
      entries. */
  lemma {:induction false} RepliesAreNonEmptyStreams(store: Store, keys: seq<string>, ids: seq<string>, now: int, n: nat)
    requires n <= |keys| <= |ids|
    ensures forall j :: 0 <= j < |ReadsUpTo(store, keys, ids, now, n).replies| ==>
      ReplyFor(ReadsUpTo(store, keys, ids, now, n).replies[j], keys[..n])
  {
    if n > 0 {
      RepliesAreNonEmptyStreams(store, keys, ids, now, n - 1);
      var st := ReadsUpTo(store, keys, ids, now, n - 1);
      var r := ReadsUpTo(store, keys, ids, now, n);
      forall j | 0 <= j < |r.replies| ensures ReplyFor(r.replies[j], keys[..n]) {
        assert forall k :: k in keys[..n - 1] ==> k in keys[..n];
        if j < |st.replies| && st.raised.None? {
          assert r.replies[j] == st.replies[j];
        }
      }
    }
  }

  /** Once raised, the loop state does not change. */
  lemma {:induction false} RaisedIsFinal(store: Store, keys: seq<string>, ids: seq<string>, now: int, n: nat, m: nat)
    requires n <= m <= |keys| <= |ids|
    requires ReadsUpTo(store, keys, ids, now, n).raised.Some?
    ensures ReadsUpTo(store, keys, ids, now, m) == ReadsUpTo(store, keys, ids, now, n)
    decreases m - n
  {
    if m > n {
      StopsAfterRaise(store, keys, ids, now, n + 1);
      RaisedIsFinal(store, keys, ids, now, n + 1, m);
    }
  }

  /** A pass after an exception leaves the state as it was. */
  lemma StopsAfterRaise(store: Store, keys: seq<string>, ids: seq<string>, now: int, m: nat)
    requires 0 < m <= |keys| <= |ids|
    requires ReadsUpTo(store, keys, ids, now, m - 1).raised.Some?
    ensures ReadsUpTo(store, keys, ids, now, m) == ReadsUpTo(store, keys, ids, now, m - 1)
  {
  }

  // ---------------------------------------------------------------- blocking

  /** `dict(zip(keys, ids))`: a key listed twice keeps its last ID. */
  function ZipToMap(keys: seq<string>, ids: seq<string>): (r: map<string, string>)
    requires |keys| <= |ids|
    ensures r.Keys == set k | k in keys
    ensures |keys| > 0 ==> r[keys[|keys| - 1]] == ids[|keys| - 1]
  {
    if keys == [] then map[]
    else
      var init := keys[..|keys| - 1];
      assert forall k :: k in keys <==> k in init || k == keys[|keys| - 1];
      ZipToMap(init, ids)[keys[|keys| - 1] := ids[|keys| - 1]]
  }

  /** A key listed once is remembered with its own ID. */
  lemma {:induction false} ZipRemembersEachKey(keys: seq<string>, ids: seq<string>, i: nat)
    requires |keys| <= |ids| && i < |keys| && keys[i] !in keys[i + 1..]
    ensures ZipToMap(keys, ids)[keys[i]] == ids[i]
  {
    if i < |keys| - 1 {
      var init := keys[..|keys| - 1];
      assert keys[|keys| - 1] in keys[i + 1..];
      assert init[i + 1..] == keys[i + 1..|keys| - 1];
      ZipRemembersEachKey(init, ids, i);
    }
  }

  /** What a blocking XREAD hands back: the keys to wait on, the BLOCK time
      in milliseconds and the IDs its callback reads after. */
  datatype BlockingResponse = BlockingResponse(keys: seq<string>, timeoutMs: int, idsByKey: map<string, string>)

  /** What `execute` returns or raises. */
  datatype XReadOutcome =
    | Replies(replies: seq<Value>)
    | Error(message: string)
    | NoData
    | Blocked(response: BlockingResponse)
    | Failed(error: Exception)

  /** `execute`: the outcome and the store afterwards. */
  function XReadResult(store: Store, args: seq<string>, now: int): (XReadOutcome, Store)
  {
    match ParseStreamsArgs(Normalized(args))
    case SyntaxError => (Error(SyntaxErrorMessage), store)
    case ArgsRaised(e) => (Failed(e), store)
    case ArgsParsed(p) =>
      var st := ReadsUpTo(store, p.keys, p.ids, now, |p.keys|);
      if st.raised.Some? then (Failed(st.raised.value), st.store)
      else if st.replies != [] then (Replies(st.replies), st.store)
      else if p.blockMs.Some? then (Blocked(BlockingResponse(p.keys, p.blockMs.value, ZipToMap(p.keys, st.ids))), st.store)
      else (NoData, st.store)
  }

  /** With nothing to read, XREAD without BLOCK answers None and XREAD
      with BLOCK waits on exactly the listed keys for the given time. */
  lemma NothingToRead(store: Store, args: seq<string>, now: int)
    requires ParseStreamsArgs(Normalized(args)).ArgsParsed?
    requires var p := ParseStreamsArgs(Normalized(args)).parsed;
      var st := ReadsUpTo(store, p.keys, p.ids, now, |p.keys|);
      st.raised.None? && st.replies == []
    ensures var p := ParseStreamsArgs(Normalized(args)).parsed;
      && (p.blockMs.None? ==> XReadResult(store, args, now).0 == NoData)
      && (p.blockMs.Some? ==>
            XReadResult(store, args, now).0.Blocked?
            && XReadResult(store, args, now).0.response.keys == p.keys
            && XReadResult(store, args, now).0.response.timeoutMs == p.blockMs.value
            && XReadResult(store, args, now).0.response.idsByKey.Keys == set k | k in p.keys)
  {
  }

  /** A BLOCK without an operand raises IndexError and one that is not a
      number raises the ValueError of `float`; either way nothing is read. */
  lemma BlockOperandErrors(store: Store, args: seq<string>, now: int)
    requires "STREAMS" in Normalized(args) && "BLOCK" in Normalized(args)
    ensures var tokens := Normalized(args);
      var b := IndexOf(tokens, "BLOCK").value;
      && (b + 1 >= |tokens| ==> XReadResult(store, args, now) == (Failed(IndexError), store))
      && (b + 1 < |tokens| && ParseInt(tokens[b + 1]).None? ==>
            XReadResult(store, args, now)
              == (Failed(ValueError("could not convert string to float: '" + tokens[b + 1] + "'")), store))
  {
  }

  /** `XREAD BLOCK <ms> STREAMS <key> 0-0` on a key holding nothing waits
      on that key for `ms` milliseconds, remembering `0-0`. */
  lemma BlockWaitsOnEmptyKey(store: Store, key: string, blockText: string, now: int)
    requires Upper(key) != "STREAMS" && Upper(key) != "BLOCK"
    requires Upper(blockText) != "STREAMS" && Upper(blockText) != "BLOCK"
    requires ParseInt(blockText).Some?
    requires TruthyPayload(store, key, now).None?
    ensures XReadResult(store, ["BLOCK", blockText, "STREAMS", key, "0-0"], now)
      == (Blocked(BlockingResponse([key], ParseInt(blockText).value, map[key := "0-0"])), Swept(store, key, now))
  {
    BlockArgsParse(key, blockText);
    ReadOfNothing(store, key, now);
    assert ZipToMap([key], ["0-0"]) == map[key := "0-0"];
  }

  /** The arguments of a blocking read of one key from `0-0` parse. */
  lemma BlockArgsParse(key: string, blockText: string)
    requires Upper(key) != "STREAMS" && Upper(key) != "BLOCK"
    requires Upper(blockText) != "STREAMS" && Upper(blockText) != "BLOCK"
    requires ParseInt(blockText).Some?
    ensures ParseStreamsArgs(Normalized(["BLOCK", blockText, "STREAMS", key, "0-0"]))
      == ArgsParsed(ParsedArgs([key], ["0-0"], ParseInt(blockText)))
  {
    var tokens := ["BLOCK", blockText, "STREAMS", key, "0-0"];
    BlockArgsNormal(key, blockText);
    assert Upper("STREAMS") == "STREAMS";
    assert tokens[..2] == ["BLOCK", blockText];
    IndexOfFirst(tokens, "STREAMS", 2);
    assert IndexOf(tokens, "BLOCK") == Some(0);
    assert tokens[3..][..1] == [key] && tokens[3..][1..] == ["0-0"];
  }

  /** None of those arguments is changed by the normalising loop. */
  lemma BlockArgsNormal(key: string, blockText: string)
    requires Upper(key) != "STREAMS" && Upper(key) != "BLOCK"
    requires Upper(blockText) != "STREAMS" && Upper(blockText) != "BLOCK"
    ensures Normalized(["BLOCK", blockText, "STREAMS", key, "0-0"]) == ["BLOCK", blockText, "STREAMS", key, "0-0"]
  {
    assert |Upper("0-0")| == 3;
    assert NormalToken("BLOCK") == "BLOCK" && NormalToken("STREAMS") == "STREAMS";
  }

  /** Reading a key that holds nothing from `0-0` answers nothing, keeps
      the ID and only sweeps the key. */
  lemma ReadOfNothing(store: Store, key: string, now: int)
    requires TruthyPayload(store, key, now).None?
    ensures ReadsUpTo(store, [key], ["0-0"], now, 1) == ReadState(Swept(store, key, now), ["0-0"], [], None)
  {
    assert KeyRead(store, key, "0-0", now) == Success(("0-0", None));
    var st := ReadsUpTo(store, [key], ["0-0"], now, 1);
    assert st == ReadStep(ReadsUpTo(store, [key], ["0-0"], now, 0), key, 0, now);
    assert |st.ids| == 1 && st.ids[0] == "0-0";
  }

  /** What `execute` answers, stated over the key-by-key reads of the
      store it was called on: the first exception, else the replies of
      the keys with entries in the order they are listed, else None or the
      blocking response. The store afterwards has the same live values. */
  lemma ImmediateAnswer(store: Store, args: seq<string>, now: int)
    requires ParseStreamsArgs(Normalized(args)).ArgsParsed?
    ensures var p := ParseStreamsArgs(Normalized(args)).parsed;
      |p.keys| <= |p.ids|
      && var expected := ImmediateReplies(store, p.keys, p.ids, now, |p.keys|);
      var (outcome, after) := XReadResult(store, args, now);
      && (expected.Failure? ==> outcome == Failed(expected.error))
      && (expected.Success? && expected.value != [] ==> outcome == Replies(expected.value))
      && (expected.Success? && expected.value == [] && p.blockMs.None? ==> outcome == NoData)
      && (expected.Success? && expected.value == [] && p.blockMs.Some? ==>
            outcome.Blocked? && outcome.response.keys == p.keys && outcome.response.timeoutMs == p.blockMs.value)
      && (forall k :: Live(after, k, now) == Live(store, k, now))
  {
    var p := ParseStreamsArgs(Normalized(args)).parsed;
    ReadsMatchImmediate(store, p.keys, p.ids, now, |p.keys|);
  }

  /** The unblock callback: None when the key holds nothing; otherwise the
      stream's entries after the ID remembered for the key, when there are any. */
  function UnblockReply(response: BlockingResponse, store: Store, key: string, now: int)
    : (r: Result<Option<Value>, Exception>)
    ensures Live(store, key, now).None? ==> r == Success(None)
    ensures r.Success? && r.value.Some? ==>
      key in response.idsByKey
      && XReadReply(store, key, response.idsByKey[key], now).Success?
      && var entries := XReadReply(store, key, response.idsByKey[key], now).value;
         entries.Some? && entries.value != [] && r.value.value == Array([FormatStream(key, entries.value)])
  {
    if Live(store, key, now).None? then Success(None)
    else if key !in response.idsByKey then Failure(KeyError)
    else
      match XReadReply(store, key, response.idsByKey[key], now)
      case Failure(e) => Failure(e)
      case Success(entries) =>
        if entries.Some? && entries.value != [] then Success(Some(Array([FormatStream(key, entries.value)])))
        else Success(None)
  }

  /** Once a non-empty stream holds entries newer than the remembered ID,
      the callback delivers exactly those, in log order. */
  lemma UnblockDeliversNewer(response: BlockingResponse, store: Store, key: string, now: int)
    requires key in store && !Expired(store[key], now)
    requires store[key].data.StreamVal? && |store[key].data.entries| > 0
    requires key in response.idsByKey && Parse(response.idsByKey[key]).Success?
    requires After(store[key].data.entries, Parse(response.idsByKey[key]).value) != []
    ensures UnblockReply(response, store, key, now)
      == Success(Some(Array([FormatStream(key, After(store[key].data.entries, Parse(response.idsByKey[key]).value))])))
  {
  }

  // ---------------------------------------------------------------- the command

  /** The command object, over the shared database. */
  class XReadCommand {
    const streamOps: StreamOps

    constructor(database: DataBase)
      ensures streamOps.db == database
    {
      streamOps := new StreamOps(database);
    }

    /** `execute`: normalises `args` in place, reads every listed stream
        and answers with the replies, a blocking response or None. */
    method Execute(args: array<string>, now: int) returns (r: XReadOutcome)
      modifies args, streamOps.db
      ensures args[..] == Normalized(old(args[..]))
      ensures (r, streamOps.db.store) == XReadResult(old(streamOps.db.store), old(args[..]), now)
    {
      var parsed := ParseArgs(args);
      if parsed.SyntaxError? {
        return Error(SyntaxErrorMessage);
      }
      if parsed.ArgsRaised? {
        return Failed(parsed.error);
      }
      var keys := parsed.parsed.keys;
      var ids := parsed.parsed.ids;
      ghost var start := streamOps.db.store;
      var replies: seq<Value> := [];
      var i := 0;
      while i < |keys|
        invariant 0 <= i <= |keys| <= |ids|
        invariant args[..] == Normalized(old(args[..]))
        invariant ReadsUpTo(start, keys, parsed.parsed.ids, now, i) == ReadState(streamOps.db.store, ids, replies, None)
      {
        var raised;
        ids, replies, raised := ReadKey(keys[i], i, ids, replies, now);
        if raised.Some? {
          RaisedIsFinal(start, keys, parsed.parsed.ids, now, i + 1, |keys|);
          return Failed(raised.value);
        }
        i := i + 1;
      }
      if replies != [] {
        return Replies(replies);
      }
      if parsed.parsed.blockMs.Some? {
        return Blocked(BlockingResponse(keys, parsed.parsed.blockMs.value, ZipToMap(keys, ids)));
      }
      return NoData;
    }

    /** One pass of the read loop, as `ReadStep` describes it. */
    method ReadKey(key: string, i: nat, ids: seq<string>, replies: seq<Value>, now: int)
      returns (ids': seq<string>, replies': seq<Value>, raised: Option<Exception>)
      requires i < |ids|
      modifies streamOps.db
      ensures ReadStep(ReadState(old(streamOps.db.store), ids, replies, None), key, i, now)
        == ReadState(streamOps.db.store, ids', replies', raised)
    {
      ghost var start := streamOps.db.store;
      ids', replies', raised := ids, replies, None;
      var streamId := ids[i];
      if ids[i] == "$" {
        var top := streamOps.TopId(key, now);
        if top.Failure? {
          return ids', replies', Some(top.error);
        }
        ids' := ids[i := TopIdText(top.value)];
        streamId := ids'[i];
      }
      var entries := streamOps.XRead(key, streamId, now);
      ReadIsIdempotent(start, key, now);
      if entries.Failure? {
        return ids', replies', Some(entries.error);
      }
      if entries.value.Some? && entries.value.value != [] {
        replies' := replies + [FormatStream(key, entries.value.value)];
      }
    }

    /** The unblock callback: `has_data`, then the read after the
        remembered ID. */
    method Unblock(response: BlockingResponse, key: string, now: int) returns (r: Result<Option<Value>, Exception>)
      modifies streamOps.db
      ensures r == UnblockReply(response, old(streamOps.db.store), key, now)
      ensures streamOps.db.store == Swept(old(streamOps.db.store), key, now)
    {
      ghost var start := streamOps.db.store;
      var present := streamOps.HasData(key, now);
      if !present {
        return Success(None);
      }
      if key !in response.idsByKey {
        return Failure(KeyError);
      }
      var entries := streamOps.XRead(key, response.idsByKey[key], now);
      if entries.Failure? {
        return Failure(entries.error);
      }
      if entries.value.Some? && entries.value.value != [] {
        return Success(Some(Array([FormatStream(key, entries.value.value)])));
      }
      return Success(None);
    }
  }
}
